=== FILE: README.md ===
# Recognition pipelines: a Dafny model

This project models the decision logic of three small recognition tools built on Google
Gemini.

- **HTR processor (`HTR/gemini_htr_processor.py`).** Transcribes handwritten PDFs one page at
  a time.
- **OCR processor (`OCR/gemini_ocr_processor.py`).** Does the same for printed PDFs.
- **Audio transcriber (`Audio-transcription/transcribe_audio.py`).** Transcribes a folder of
  recordings, optionally cut into ten-minute segments.

The remote service, the PDF library, ffmpeg and the file system are replaced by data:

- **The service is a `Service.Script`.** It holds three queues:
  - the replies to `generate_content`;
  - the outcomes of `files.upload`;
  - the file states `files.get` reports.

  Each call takes the head of its queue. A call past the end behaves like a failing
  service.
- **Every step returns a `Service.Step`.** It carries the value, the rest of the script and
  an event log. The log records each prompt sent, upload, status check, one-second poll
  sleep and backoff sleep, in order.
- **Files are inputs.** A PDF is its list of page sizes (or extraction errors), a directory is
  a map from names to PDFs, and an audio file is its byte presence, decoded length and
  save outcome.

## Modules

- `Text`, `Decimal`: the Python `str` and `int` behaviour the tools rely on (`strip`,
  `lower`, `title`, `split`, `join`, `str(n)`, `f"{n:02d}"`, `int(s)`).
- `Service`: the script, the event log and how a reply is read.
- `Requests`: thinking budget, primary request and the three alternative prompts of each
  processor.
- `Tiers`: per-page recognition (inline attempt, upload with readiness polling and up to
  three attempts, RECITATION fallback to alternative prompts).
- `Assembly`: the page loops of `process_pdf` and `process_pdf_to_text`.
- `Spreadsheet`: `process_with_spreadsheet` row classification and counters.
- `AudioPaths`, `AudioSplit`, `AudioPrompts`, `AudioTranscribe`: the audio transcriber's
  file names, segmenting, prompt files and menu, and per-file processing and counters.

A file that is split keeps the notice `[Segment i] TRANSCRIPTION FAILED` for each failed segment.
The combined text is therefore never empty, so such a file is saved and counted as successful
even when every segment failed (`AudioTranscribe.ProcessFileSplit`).

The code retries an upload attempt after **any** failure: a failed upload, a FAILED or
unexpected file state, a timeout, an unusable reply, or three failed alternatives after a
RECITATION refusal. It sleeps only 2 s and 4 s, between attempts.

## Model

Functions that only compute a string or a list of spans (`Assembly.Marker`, `Body`, `Segment`, `Assemble`, `AudioTranscribe.SegmentPart`, `AudioPaths.Suffix`, `Stem`, `AudioSplit.Spans`, `SegmentName`, `ExportFormat`) carry no contract of their own; the rows of the lemmas about them (`MarkerPage`, `BodyShape`, `SegmentShape`, `AssembleEnds`, `SegmentPartShape`, `StemSuffix`, `SuffixDot`, `SpansTile`, `ChunksNamed`, `ExportFormatPlain`) state what they produce.

| member | source | states |
|---|---|---|
| Requests.ThinkingBudget | OCR/gemini_ocr_processor.py:101-108 | The budget is 128 or 0, and 128 exactly when the lower-cased model name contains "2.5-pro", or, for the OCR processor, "3-pro". |
| Requests.LanguageDescriptions | HTR/gemini_htr_processor.py:389-394 | "arabic" gives Arabic, any language other than "multilingual" gives French; the phrases of the primary and alternative prompts differ only for "multilingual". |
| Requests.PrimaryPrompt | HTR/gemini_htr_processor.py:234-238 | The prompt starts with the system prompt and a blank line and ends with the processor's request. |
| Requests.HtrRequestLanguage | HTR/gemini_htr_processor.py:234-238 | The HTR request has its fixed head, then the language phrase, then its fixed tail. |
| Requests.Alternatives | HTR/gemini_htr_processor.py:396-416 | Exactly three alternatives, in the order Academic, Educational, Technical, with each processor's names; the OCR prompts are fixed texts. |
| Requests.HtrAcademicLanguage | HTR/gemini_htr_processor.py:389-402 | The HTR academic alternative is its fixed head, then the alternatives' language phrase (`text (automatically detecting language)` for multilingual), then its fixed tail, and nothing more. |
| Requests.HtrEducationalLanguage | HTR/gemini_htr_processor.py:389-408 | The HTR educational alternative is its fixed head, the alternatives' language phrase and its fixed tail, and nothing more. |
| Requests.HtrTechnicalLanguage | HTR/gemini_htr_processor.py:389-414 | The HTR technical alternative is its fixed head, the alternatives' language phrase and its fixed tail, and nothing more. |
| Requests.PromptingFor | OCR/gemini_ocr_processor.py:227-231 | A configured processor sends a primary prompt led by its system prompt and three alternatives. |
| Service.Normalise | HTR/gemini_htr_processor.py:260 | `replace('\xa0', ' ').strip()` leaves no no-break space and no white space at either end, and is empty exactly when the replaced text is blank. |
| Service.NormaliseNormal | HTR/gemini_htr_processor.py:260 | Normalising already normalised text changes nothing. |
| Service.TextParts | OCR/gemini_ocr_processor.py:254-257 | Only parts with non-empty text are kept, and no more parts than were given. |
| Service.TextPartsConcat | OCR/gemini_ocr_processor.py:254-262 | Joining only the non-empty parts gives the same string as joining all parts, so OCR's explicit join and HTR's `response.text` agree. |
| Service.Read | HTR/gemini_htr_processor.py:241-265 | A reply is a RECITATION refusal exactly when it is a candidate without parts whose finish reason is RECITATION; recognised text is always normalised and non-empty. |
| Service.ReadRecognised | OCR/gemini_ocr_processor.py:240-265 | A reply is recognised exactly when it is a candidate with parts whose joined, normalised text is non-empty, and that text is the result. |
| Tiers.TryAlternatives | HTR/gemini_htr_processor.py:418-444 | The alternatives send at most one prompt each and return only normalised text. |
| Tiers.TryAlternativesStep | HTR/gemini_htr_processor.py:418-442 | The first prompt's reply is returned when it reads as text; otherwise the remaining alternatives run on the next reply, and their result and log follow. |
| Tiers.TryAlternativesNone | HTR/gemini_htr_processor.py:418-444 | The result is None exactly when none of the next three replies reads as text, and then all three prompts were sent. |
| Tiers.TryAlternativesSome | OCR/gemini_ocr_processor.py:417-451 | Returned text is the text of the last reply consumed, and no earlier reply read as text. |
| Tiers.AlternativesAfterRefusal | HTR/gemini_htr_processor.py:252-256 | After a refusal, the alternatives give text exactly when one of the next three replies reads as text. |
| Tiers.TryAlternativesEvents | HTR/gemini_htr_processor.py:418-424 | The k-th prompt sent is the k-th alternative, against the same content. |
| Tiers.TryAlternativesRest | HTR/gemini_htr_processor.py:418-444 | The alternatives consume exactly one reply per prompt sent. |
| Tiers.TryAlternativesLog | HTR/gemini_htr_processor.py:418-444 | The alternatives send their prompts in order, consume one reply each, and never upload, poll or sleep. |
| Tiers.Inline | HTR/gemini_htr_processor.py:204-270 | The inline tier first sends the primary prompt with the inline page, and returns only normalised text. |
| Tiers.InlineOutcome | HTR/gemini_htr_processor.py:240-265 | Inline gives text exactly when the first reply reads as text, or it is a RECITATION refusal and one of the next three replies reads as text; a text first reply is the result. |
| Tiers.InlineLog | OCR/gemini_ocr_processor.py:204-273 | The inline tier only sends prompts with the inline page; it never uploads, checks a file or sleeps. |
| Tiers.Poll | HTR/gemini_htr_processor.py:303-317 | Polling consumes file states only; the replies and uploads are untouched. |
| Tiers.PollProcessing | HTR/gemini_htr_processor.py:307-315 | A PROCESSING state costs one status check and one one-second sleep, and polling goes on with one check fewer. |
| Tiers.PollPolls | HTR/gemini_htr_processor.py:307-315 | Polling logs nothing but status checks and sleeps. |
| Tiers.PollLog | OCR/gemini_ocr_processor.py:304-320 | Polling never uploads, backs off or sends a prompt. |
| Tiers.PollShape | HTR/gemini_htr_processor.py:303-317 | With at least as many leading PROCESSING states as checks allowed, polling times out after that many check-and-sleep rounds. Otherwise it makes one round per PROCESSING state, one last check, and reports that state. |
| Tiers.PollOutcome | HTR/gemini_htr_processor.py:303-317 | Polling times out exactly when the first sixty states are PROCESSING, after sixty checks and sixty sleeps. Otherwise it makes one check more than there were PROCESSING states and reports the state it stopped at. |
| Tiers.PollReady | OCR/gemini_ocr_processor.py:307-320 | Polling is ready exactly when the first state other than PROCESSING comes within the first sixty and is ACTIVE. |
| Tiers.PollChecks | HTR/gemini_htr_processor.py:305-317 | Polling checks the file state at most as often as it is allowed. |
| Tiers.UploadAttempt | HTR/gemini_htr_processor.py:288-364 | An attempt begins with one upload and returns only normalised text. |
| Tiers.UploadAttemptLog | HTR/gemini_htr_processor.py:288-364 | An attempt uploads once, never backs off, and checks the file state at most sixty times. |
| Tiers.UploadAttemptOutcome | HTR/gemini_htr_processor.py:292-362 | An attempt gives text exactly when the upload returns a named file, polling reports ACTIVE, and the reply reads as text or is a RECITATION refusal followed by a text reply among the next three. A refusal whose alternatives all fail fails the attempt. |
| Tiers.Schedule | HTR/gemini_htr_processor.py:369-372 | The i-th backoff after attempt `from` lasts `2 * 2^(from + i)` seconds. |
| Tiers.Retry | HTR/gemini_htr_processor.py:286-376 | A first attempt that gives text is the loop's whole result. Its log starts with the first attempt's log, and a loop that gives no text had a first attempt that gave none. |
| Tiers.TwoBackoffs | HTR/gemini_htr_processor.py:283-284 | With three attempts, the only delays are 2 s and 4 s. |
| Tiers.RetryValue | HTR/gemini_htr_processor.py:286-376 | Text returned by the retry loop is the text of one of the attempts it made. |
| Tiers.AllFailShift | HTR/gemini_htr_processor.py:286-376 | Attempts 1 to n all fail exactly when the first fails and attempts 1 to n - 1 on the rest of the script fail. |
| Tiers.RetryNone | HTR/gemini_htr_processor.py:286-376 | The loop gives no text exactly when every one of its remaining attempts fails. |
| Tiers.RetryFirstSuccess | HTR/gemini_htr_processor.py:286-376 | When attempt j is the first to give text, the loop returns that text after exactly j + 1 uploads. |
| Tiers.RetryLog | HTR/gemini_htr_processor.py:286-376 | The loop makes one to three attempts, and all of them when it returns None. It backs off by the schedule between attempts, never after the last, and checks at most sixty times per attempt. |
| Tiers.AttemptsShaped | HTR/gemini_htr_processor.py:288-364 | Every upload attempt, for every script, has one upload, no backoff and at most sixty checks. |
| Tiers.UploadPage | OCR/gemini_ocr_processor.py:275-382 | Upload text is normalised and non-empty. |
| Tiers.AttemptAtNormal | HTR/gemini_htr_processor.py:288-364 | The text of any attempt, however many came before it, is normalised. |
| Tiers.UploadPageNone | HTR/gemini_htr_processor.py:272-376 | The upload tier gives no text exactly when all three attempts fail. |
| Tiers.UploadPageFirstSuccess | HTR/gemini_htr_processor.py:272-376 | When attempt j is the first to give text, the upload tier returns that text after j + 1 uploads. |
| Tiers.UploadPageRetries | OCR/gemini_ocr_processor.py:286-382 | The upload tier makes one to three attempts, and three when it returns None. It sleeps 2 s after the first failure and 4 s after the second, and checks at most sixty times per attempt. |
| Tiers.UploadFirstAttempt | HTR/gemini_htr_processor.py:286-362 | A first attempt that gives text is the whole upload tier: no retry, no sleep. |
| Tiers.RecognisePage | HTR/gemini_htr_processor.py:503-514 | A page's recognised text is normalised and non-empty. |
| Tiers.RecognisePageTiers | HTR/gemini_htr_processor.py:503-514 | Inline is tried first exactly when the page is under 20 MiB. The upload runs exactly when the page is too large or inline gave no text. Inline text is kept; otherwise the page's text is the upload tier's, run on what inline left of the script. The backoffs are a prefix of 2 s, 4 s. |
| Assembly.RecognisePageSource | HTR/gemini_htr_processor.py:606-644 | A page is an error, with the extraction's message and no service call, exactly when its extraction failed; a text result is never blank. |
| Assembly.RecognisePages | HTR/gemini_htr_processor.py:606 | One result per page. |
| Assembly.RecognisePagesErrors | HTR/gemini_htr_processor.py:606-644 | Page by page: an error exactly where extraction failed, carrying its message; text results are never blank. |
| Assembly.TieredPageSource | HTR/gemini_htr_processor.py:616-627 | With the tiered recogniser, a page is text exactly when its tiers gave text, and the text is kept unchanged. |
| Assembly.AssembleSnoc | HTR/gemini_htr_processor.py:516-544 | Writing one more page appends exactly that page's slot. |
| Assembly.MarkerPage | HTR/gemini_htr_processor.py:522 | The marker is `\n\n--- Page ` and ` ---\n\n` around the page number's digits, which read back as the page number. |
| Assembly.BodyShape | HTR/gemini_htr_processor.py:516-544 | A text page's body is its text. A page without text gives exactly `[ERROR: Failed to process page <n>]`, and a page that raised exactly `[ERROR: Failed to process page <n>: <message>]`: the fixed opening, the closing, and a length that leaves room for nothing else. |
| Assembly.SegmentShape | HTR/gemini_htr_processor.py:516-544 | Page 1's slot is its body alone. A later slot is exactly the page's marker followed by its body. |
| Assembly.SegmentsSnoc | HTR/gemini_htr_processor.py:621-651 | One more result adds its slot, numbered after the earlier pages, at the end of the slots. |
| Assembly.AssembleEnds | HTR/gemini_htr_processor.py:651-652 | Without pages the document is empty; otherwise it ends with the last page's body. |
| Assembly.SegmentAt | HTR/gemini_htr_processor.py:651 | Page k + 1's slot appears in the document right after the slots of pages 1 to k. |
| Assembly.SlotAt | HTR/gemini_htr_processor.py:621-651 | Every page's slot appears in the document where the earlier pages' slots end. |
| Assembly.FirstPageUnmarked | HTR/gemini_htr_processor.py:622-623 | The document starts with page 1's text or placeholder, with no marker. |
| Assembly.LaterPageMarked | HTR/gemini_htr_processor.py:624-644 | Every later page's `--- Page i ---` marker starts its slot, and its text or placeholder follows it. |
| Assembly.MarkedSlot | HTR/gemini_htr_processor.py:626 | A later page's slot is its marker followed by its body. |
| Assembly.AssembleEmpty | HTR/gemini_htr_processor.py:651 | The document is empty exactly when there is no page. |
| Assembly.Successful | HTR/gemini_htr_processor.py:627 | The success counter never exceeds the page count. |
| Assembly.FailedPagesExact | HTR/gemini_htr_processor.py:600-644 | The failed pages are exactly the pages without text, once each, in increasing order; successes plus failures equal the page count. |
| Assembly.CountersSnoc | HTR/gemini_htr_processor.py:621-644 | Each page moves exactly one counter: a success, or its number appended to the failed pages. |
| Assembly.ProcessPdfToText | OCR/gemini_ocr_processor.py:596-660 | The result is None exactly when the PDF is missing, cannot be counted, or has no page. |
| Assembly.ToTextMatchesWritten | HTR/gemini_htr_processor.py:573-653 | `process_pdf_to_text` returns what `process_pdf` writes, except None for a PDF with no pages. |
| Assembly.PageAppended | HTR/gemini_htr_processor.py:489-544 | One more loop iteration extends the results, the document and both counters by that page alone. |
| Assembly.ProcessPdf | HTR/gemini_htr_processor.py:465-544 | The page loop writes the assembled document and keeps counters that equal the page results' counts, summing to the page count. A missing or unreadable PDF writes nothing. |
| Spreadsheet.ResolvePdf | HTR/gemini_htr_processor.py:745-755 | A resolved name always exists in the directory. |
| Spreadsheet.ResolvePdfCases | HTR/gemini_htr_processor.py:745-755 | An existing name is used as is. `.pdf` is appended only when the name is absent and its lower-cased form does not end in `.pdf`. The row is missing exactly when neither form exists. |
| Spreadsheet.ProcessRow | HTR/gemini_htr_processor.py:732-779 | A row is skipped-empty exactly when its name is missing or blank, and each outcome writes its own cell text. Skipped rows make no service call. |
| Spreadsheet.ProcessRowProcessed | HTR/gemini_htr_processor.py:745-779 | A named row is missing exactly when its name does not resolve. It is processed exactly when it resolves to a readable PDF with pages, and then the cell is that PDF's document. |
| Spreadsheet.ProcessRows | HTR/gemini_htr_processor.py:726 | One result per row. |
| Spreadsheet.ProcessRowsCells | OCR/gemini_ocr_processor.py:733-786 | Row by row, the cell written matches the row's outcome. |
| Spreadsheet.CountOutcome | HTR/gemini_htr_processor.py:717-723 | No counter exceeds the number of rows. |
| Spreadsheet.Tally | HTR/gemini_htr_processor.py:717-785 | `total_rows` is the number of rows, no counter exceeds it, and no row means all counters zero. |
| Spreadsheet.TallyPartition | HTR/gemini_htr_processor.py:717-785 | The four counters sum to `total_rows`. |
| Spreadsheet.CountOutcomeSnoc | HTR/gemini_htr_processor.py:736-785 | Each row increments exactly the counter of its outcome. |
| Spreadsheet.TallyRows | HTR/gemini_htr_processor.py:726-785 | The row loop writes each row's cell in row order and its counters are the tally of the rows' outcomes. |
| Spreadsheet.ProcessSpreadsheet | OCR/gemini_ocr_processor.py:711-786 | Without a `filename` column nothing is processed or saved. Otherwise every row's cell is written and the counters partition `total_rows`. |
| Text.Strip | HTR/gemini_htr_processor.py:260 | `strip()` leaves no white space at either end, and is empty exactly when the input is blank. |
| Text.StripSlice | HTR/gemini_htr_processor.py:260 | The strip is a contiguous piece of the input. |
| Text.StripCutsSpace | HTR/gemini_htr_processor.py:260 | Only white space lies outside the strip. |
| Text.StripIdempotent | HTR/gemini_htr_processor.py:516 | Stripping twice is stripping once. |
| Text.StripTrimmed | HTR/gemini_htr_processor.py:516 | A string without white space at its ends is its own strip. |
| Text.StripPadded | Audio-transcription/transcribe_audio.py:509 | White space around a string with no white space at its ends is exactly what `strip()` removes. |
| Text.ReplaceChar | HTR/gemini_htr_processor.py:260 | `replace(a, b)` keeps the length, changes exactly the occurrences of `a` to `b` and leaves every other character alone. |
| Text.ConcatAppend | HTR/gemini_htr_processor.py:651 | Joining a concatenation of lists is concatenating their joins. |
| Text.ConcatAt | HTR/gemini_htr_processor.py:651 | Part k of a join starts where the parts before it end. |
| Text.IndexOf | Audio-transcription/transcribe_audio.py:507 | The index is that of the first occurrence, or the length when there is none. |
| Text.Split | Audio-transcription/transcribe_audio.py:557 | `split('\n')` gives at least one piece, none containing the separator, and joining them back gives the input. |
| Text.ContainsOccurs | Audio-transcription/transcribe_audio.py:450 | `sub in s` holds exactly when `sub` occurs at some index. |
| Text.Lower | Audio-transcription/transcribe_audio.py:190 | `lower()` keeps the length, leaves no upper-case ASCII letter, turns each upper-case letter into its own lower-case form and changes nothing else. |
| Text.LowerIdempotent | Audio-transcription/transcribe_audio.py:190 | Lower-casing twice is lower-casing once. |
| Text.Title | Audio-transcription/transcribe_audio.py:510 | `title()` upper-cases the first letter of each run of letters, lower-cases the others and leaves non-letters alone, so each character keeps its lower-case form. |
| Text.TitleIdempotent | Audio-transcription/transcribe_audio.py:510 | Title-casing twice is title-casing once. |
| Text.Repeat | Audio-transcription/transcribe_audio.py:290 | `"=" * 50` is fifty `=`. |
| Decimal.NatToString | HTR/gemini_htr_processor.py:522 | `str(n)` is a non-empty digit run without a leading zero, of one digit exactly below ten. |
| Decimal.NatToStringValue | HTR/gemini_htr_processor.py:522 | The numeral reads back as the number. |
| Decimal.NatToStringInjective | HTR/gemini_htr_processor.py:522 | Different page numbers get different markers. |
| Decimal.Pad2 | Audio-transcription/transcribe_audio.py:337 | `f"{n:02d}"` is two digits below ten, with a leading zero, and the plain numeral from ten on. |
| Decimal.Pad2Value | Audio-transcription/transcribe_audio.py:337 | The padded numeral reads back as the number. |
| Decimal.ParseDigits | Audio-transcription/transcribe_audio.py:509 | `int` of a digit run is its value. |
| Decimal.ParseInt | Audio-transcription/transcribe_audio.py:509 | A parsed number's stripped text is non-empty and ends with a digit, and a negative one starts with `-`. |
| Decimal.ParseSignedRun | Audio-transcription/transcribe_audio.py:509 | A stripped text made of `+`, `-` or no sign, then a digit run, parses to the run's value, negated after `-`. |
| Decimal.ParseSigned | Audio-transcription/transcribe_audio.py:509 | `int` of white space, an optional `+` or `-`, a digit run and white space is the run's value, negated after `-`: `int(" -5 ") == -5`, `int("+1") == 1`. |
| Decimal.ParseNatToString | Audio-transcription/transcribe_audio.py:612 | `int(str(n)) == n`. |
| Decimal.ParsePad2 | Audio-transcription/transcribe_audio.py:509 | `int` of a zero-padded number such as `01` is the number. |
| Decimal.ParseNeedsDigit | Audio-transcription/transcribe_audio.py:509 | Text without a digit raises ValueError (None). |
| AudioPaths.LastIndexOf | Audio-transcription/transcribe_audio.py:190 | The position found holds the character and no later position does; there is none exactly when the character does not occur. |
| AudioPaths.SuffixDot | Audio-transcription/transcribe_audio.py:190 | The suffix starts at a dot that is neither the first nor the last character. |
| AudioPaths.StemSuffix | Audio-transcription/transcribe_audio.py:282 | A name is its stem followed by its suffix. The suffix is empty or a dot and a dot-free tail, and a non-empty name has a non-empty stem. |
| AudioPaths.MimeType | Audio-transcription/transcribe_audio.py:209-211 | A MIME type is found exactly when the lower-cased suffix is a supported format, and it is one of the table's types. |
| AudioPaths.MimeTypesAudio | Audio-transcription/transcribe_audio.py:67-76 | Every supported type is an `audio/` type, and `.m4a` in any letter case is sent as `audio/mp4`. |
| AudioPaths.InsertOrdered | Audio-transcription/transcribe_audio.py:193 | Inserting into an ordered list keeps it ordered. |
| AudioPaths.BelowTotal | Audio-transcription/transcribe_audio.py:193 | The order `sorted` uses on names is total: of any two names, one sorts no later than the other. |
| AudioPaths.SortNames | Audio-transcription/transcribe_audio.py:193 | `sorted` gives a permutation of its input in non-decreasing order. |
| AudioPaths.AudioOnly | Audio-transcription/transcribe_audio.py:189-191 | The kept names are exactly the listed names with a supported suffix. |
| AudioPaths.AudioFiles | Audio-transcription/transcribe_audio.py:182-193 | The list is in sorted order, and empty when the folder is missing. |
| AudioPaths.AudioFilesExact | Audio-transcription/transcribe_audio.py:182-193 | Without a folder there is no file. Otherwise the inputs are exactly the listed files with a supported suffix, in sorted order, none more often than listed. |
| AudioPaths.OutputName | Audio-transcription/transcribe_audio.py:282 | The output name ends in `_transcription.txt` and what precedes it is the input's stem. |
| AudioPaths.OutputNameIgnoresSuffix | Audio-transcription/transcribe_audio.py:282 | Inputs with the same stem write the same file. |
| AudioPaths.StemOfJoined | Audio-transcription/transcribe_audio.py:282 | A stem followed by a dotted extension splits back into the two. |
| AudioPaths.Header | Audio-transcription/transcribe_audio.py:288-290 | The header is exactly `Transcription of: <name>` and `Generated using: Google <model>`, each on its own line, then fifty `=` and a blank line, with nothing between them. |
| AudioPaths.TranscriptFile | Audio-transcription/transcribe_audio.py:286-291 | Reading a written file back, past its header, gives exactly the transcription. |
| AudioPaths.TranscriptText | Audio-transcription/transcribe_audio.py:286-291 | Text read back from a file is what follows the header. |
| AudioSplit.SpansTile | Audio-transcription/transcribe_audio.py:334-335 | The spans tile the recording: they are contiguous and non-empty, start at 0 and end at the length. All but the last are exactly one segment long, and the last is no longer. |
| AudioSplit.SpansStart | Audio-transcription/transcribe_audio.py:334 | Span i starts at `i * segment_ms`, as `range` yields. |
| AudioSplit.CeilDiv | Audio-transcription/transcribe_audio.py:334 | The count is zero only for an empty recording, and at least two for one longer than a segment. |
| AudioSplit.CeilDivBounds | Audio-transcription/transcribe_audio.py:334 | The count is the ceiling of length over segment length. |
| AudioSplit.SpansCount | Audio-transcription/transcribe_audio.py:334 | There are `ceil(len / segment_ms)` spans. |
| AudioSplit.SegmentNameInjective | Audio-transcription/transcribe_audio.py:337 | Different segment numbers give different file names. |
| AudioSplit.LStripDots | Audio-transcription/transcribe_audio.py:341 | `lstrip('.')` removes exactly the leading dots. |
| AudioSplit.ExportFormatPlain | Audio-transcription/transcribe_audio.py:341-352 | A lower-case extension exports as itself, except `m4a`, which exports as `mp4`. |
| AudioSplit.ExportFormatIgnoresCase | Audio-transcription/transcribe_audio.py:341 | The export format does not depend on the suffix's letter case. |
| AudioSplit.LStripDotsLower | Audio-transcription/transcribe_audio.py:341 | Stripping dots and lower-casing commute. |
| AudioSplit.Chunks | Audio-transcription/transcribe_audio.py:334-355 | There is one exported segment per span. |
| AudioSplit.SplitAudioCases | Audio-transcription/transcribe_audio.py:312-336 | The original is kept exactly when the tools are missing, decoding fails, the recording fits in one segment, or the segment length is zero. A negative length gives no segment. |
| AudioSplit.SplitAudio | Audio-transcription/transcribe_audio.py:312-361 | The original is kept when the tools are missing or decoding fails. The file is split only when it decodes to more than one segment's length and the segment length is not zero, and any segment it gives has a positive length in minutes. |
| AudioSplit.ChunksTile | Audio-transcription/transcribe_audio.py:334-335 | A recording longer than one segment gives `ceil(len / segment_ms)` segments, at least two, that tile it. |
| AudioSplit.ChunksSpans | Audio-transcription/transcribe_audio.py:334-336 | Segment i covers span i. |
| AudioSplit.ChunksNamed | Audio-transcription/transcribe_audio.py:337-354 | Segment i is named `segment_<i, two digits><suffix>` and exported in the one format. |
| AudioSplit.SplitAudioSegments | Audio-transcription/transcribe_audio.py:322-356 | A split recording gives at least two segments, `ceil(len / segment_ms)` of them. They tile it, are named by number and suffix, and are exported in the suffix's format. |
| AudioPrompts.Describe | Audio-transcription/transcribe_audio.py:510 | The description keeps the length. Each `_` becomes a space, other non-letters stay, and every letter keeps its lower-case form: upper case at the start of a run of letters, lower case elsewhere. |
| AudioPrompts.ParseStem | Audio-transcription/transcribe_audio.py:505-517 | A stem without `_` has number 0 and the whole stem as description. |
| AudioPrompts.ParseStemNumbered | Audio-transcription/transcribe_audio.py:506-511 | `<n>_<rest>` has number n and the description of `rest`. |
| AudioPrompts.ParseStemSplit | Audio-transcription/transcribe_audio.py:505-517 | For a stem `a_b` with no `_` in `a`: if `a` parses, the number is its value and the description that of `b`; otherwise the number is 0 and the description that of the whole stem. |
| AudioPrompts.Entries | Audio-transcription/transcribe_audio.py:502-517 | Each entry is a listed `.md` file with the number and description its stem gives, and there is at most one entry per listed name. |
| AudioPrompts.FlatMapAppend | Audio-transcription/transcribe_audio.py:502-517 | Mapping a concatenation is concatenating the mapped parts. |
| AudioPrompts.FlatMapAt | Audio-transcription/transcribe_audio.py:502-517 | Element i's image lies between the images of the elements before and after it. |
| AudioPrompts.EntriesFlat | Audio-transcription/transcribe_audio.py:502-517 | The entries are the listed names mapped one by one to at most one entry each. |
| AudioPrompts.EntriesAppend | Audio-transcription/transcribe_audio.py:502-517 | The entries of two listings are the entries of the first followed by those of the second. |
| AudioPrompts.EntriesAt | Audio-transcription/transcribe_audio.py:502-517 | Listed name i contributes its entry in listing order, between the entries of the names before and after it; every `.md` name has its entry. |
| AudioPrompts.InsertByNumberPerm | Audio-transcription/transcribe_audio.py:520 | Inserting adds the entry and loses nothing. |
| AudioPrompts.SortByNumberPerm | Audio-transcription/transcribe_audio.py:520 | The sort is a permutation of its input. |
| AudioPrompts.InsertByNumberSorted | Audio-transcription/transcribe_audio.py:520 | Inserting into a list ordered by number keeps it ordered. |
| AudioPrompts.InsertByNumberStable | Audio-transcription/transcribe_audio.py:520 | An inserted entry goes ahead of every entry with its number. |
| AudioPrompts.SortByNumberStable | Audio-transcription/transcribe_audio.py:520 | The sort orders by number and keeps the listing order among equal numbers. |
| AudioPrompts.AvailablePromptsExact | Audio-transcription/transcribe_audio.py:484-520 | Without a folder there is no prompt. Otherwise the prompts are the folder's entries, ordered by number, ties in listing order. |
| AudioPrompts.AvailablePrompts | Audio-transcription/transcribe_audio.py:484-520 | Without a folder there is no prompt. Otherwise there is one prompt per entry, ordered by number. |
| AudioPrompts.Numbered | Audio-transcription/transcribe_audio.py:598 | The menu offers exactly the prompts numbered above zero, and no more prompts than were listed. |
| AudioPrompts.NumberedFlat | Audio-transcription/transcribe_audio.py:598 | The menu is the prompts filtered one by one. |
| AudioPrompts.NumberedAppend | Audio-transcription/transcribe_audio.py:598 | Filtering a concatenation is concatenating the filtered parts. |
| AudioPrompts.NumberedAt | Audio-transcription/transcribe_audio.py:598 | Prompt i is offered, if at all, between the offered prompts before and after it, so the menu keeps the listing order. |
| AudioPrompts.IsHeaderStartsWith | Audio-transcription/transcribe_audio.py:563 | A header line is one that starts with `# `. |
| AudioPrompts.HeaderLine | Audio-transcription/transcribe_audio.py:562-565 | The header is the first line starting with `# `. |
| AudioPrompts.NonBlankExact | Audio-transcription/transcribe_audio.py:566-567 | A line is kept exactly when it is one of the lines and not blank. |
| AudioPrompts.PromptBody | Audio-transcription/transcribe_audio.py:569-572 | The prompt is stripped. |
| AudioPrompts.PromptBodyNoHeader | Audio-transcription/transcribe_audio.py:571-572 | Without a header line the whole content, stripped, is the prompt. |
| AudioPrompts.PromptBodyHeaderOnly | Audio-transcription/transcribe_audio.py:569-572 | A header followed only by blank lines gives the whole content stripped, header included. |
| AudioPrompts.NonBlankAllBlank | Audio-transcription/transcribe_audio.py:566 | Blank lines leave nothing to keep. |
| AudioPrompts.ExtractPrompt | Audio-transcription/transcribe_audio.py:557-572 | The loop over the lines gives the kept lines joined and stripped, or the whole content stripped when none is kept. |
| AudioPrompts.LoadPrompt | Audio-transcription/transcribe_audio.py:543-576 | The default prompt is used exactly when the file cannot be read. |
| AudioPrompts.KeepAfterHeader | Audio-transcription/transcribe_audio.py:559-567 | The loop drops everything up to and including the first header and keeps the non-blank lines after it; with no header it keeps none. |
| AudioPrompts.NonBlankSnoc | Audio-transcription/transcribe_audio.py:566-567 | One more line is kept exactly when it is not blank. |
| AudioPrompts.FindNumber | Audio-transcription/transcribe_audio.py:614-619 | The found prompt is an offered one with that number; none is found exactly when no offered prompt has it. |
| AudioPrompts.FindNumberFirst | Audio-transcription/transcribe_audio.py:614-619 | The loop breaks at the first offered prompt with the number: that prompt is the one found. |
| AudioPrompts.Answer | Audio-transcription/transcribe_audio.py:604-636 | Ctrl-C and an empty answer choose the default. An answer decides exactly when it parses as a number some offered prompt has. The chosen text is then the loaded content of the first offered prompt with that number, and splitting is on exactly when that number is 1. |
| AudioPrompts.Ask | Audio-transcription/transcribe_audio.py:604-636 | A selection that is made is the outcome of one of the answers given. |
| AudioPrompts.AskFirstDecisive | Audio-transcription/transcribe_audio.py:604-636 | The first deciding answer decides the selection. |
| AudioPrompts.AskAborts | Audio-transcription/transcribe_audio.py:604-636 | The selection has no outcome exactly when no answer decides. |
| AudioPrompts.AskAutoSplit | Audio-transcription/transcribe_audio.py:625-628 | Splitting is switched on only by choosing prompt 1, and the text is that prompt's. |
| AudioPrompts.SelectPrompt | Audio-transcription/transcribe_audio.py:588-636 | Without a prompt numbered above zero, the default is used with splitting off. Splitting is switched on only when a prompt numbered 1 is offered, and the text is then that prompt file's loaded content. |
| AudioPrompts.SelectPromptAsks | Audio-transcription/transcribe_audio.py:598-636 | With a menu, an empty or interrupted first answer chooses the default, and there is no outcome exactly when no answer decides. |
| AudioPrompts.SelectPromptFirstDecisive | Audio-transcription/transcribe_audio.py:598-636 | With a menu, the first answer that decides is the selection. |
| AudioPrompts.UnnumberedNotOffered | Audio-transcription/transcribe_audio.py:598-630 | A number of zero or below never selects a prompt: the menu asks again. |
| AudioPrompts.SplitSegments | Audio-transcription/transcribe_audio.py:663-675 | Splitting needs pydub. With prompt 1 it is on exactly when pydub is present; otherwise exactly when pydub is present and the stripped, lower-cased answer is `y` or `yes`. |
| AudioTranscribe.ReplyText | Audio-transcription/transcribe_audio.py:261 | The reply gives text exactly when it is a candidate with parts; the text is stripped and empty exactly when the parts are blank. |
| AudioTranscribe.Transcribe | Audio-transcription/transcribe_audio.py:236-265 | A file without bytes or MIME type is answered with None and no call. Otherwise one inline call is made with the prompt, and its reply is read as text. |
| AudioTranscribe.Parts | Audio-transcription/transcribe_audio.py:439-447 | One combined part per segment. |
| AudioTranscribe.SegmentPartShape | Audio-transcription/transcribe_audio.py:443-446 | A lone transcribed segment's part is exactly a newline, its text and a newline. Among several, it is exactly `[Segment i]` followed by that. A failed segment's part is exactly `[Segment i] TRANSCRIPTION FAILED`. |
| AudioTranscribe.Combine | Audio-transcription/transcribe_audio.py:450 | The combined text has no white space at either end, and is empty for no segment. |
| AudioTranscribe.PieceCombined | Audio-transcription/transcribe_audio.py:439-450 | Any piece of a segment's part without white space at its ends appears in the combined text. |
| AudioTranscribe.FailureReported | Audio-transcription/transcribe_audio.py:446-450 | A failed segment leaves `[Segment i] TRANSCRIPTION FAILED` in the combined text. |
| AudioTranscribe.SuccessReported | Audio-transcription/transcribe_audio.py:442-450 | Among several segments, a transcribed one leaves its label, a newline and its text in the combined text. |
| AudioTranscribe.CombineSingle | Audio-transcription/transcribe_audio.py:443-450 | A lone transcribed segment's text is the whole combined text, with no label. |
| AudioTranscribe.CombineEmpty | Audio-transcription/transcribe_audio.py:439-450 | The combined text is empty exactly when there is no segment. |
| AudioTranscribe.Clips | Audio-transcription/transcribe_audio.py:435-441 | A split file is transcribed from one clip per segment. |
| AudioTranscribe.Outcome | Audio-transcription/transcribe_audio.py:458-465 | A file is written exactly when the transcription is non-empty and saving succeeds; reading it back gives the transcription. |
| AudioTranscribe.ProcessFile | Audio-transcription/transcribe_audio.py:432-469 | A written file holds a non-empty transcription that reads back unchanged, and segments are removed only when splitting. |
| AudioTranscribe.ProcessFileDirect | Audio-transcription/transcribe_audio.py:456-465 | Without splitting, a file succeeds exactly when it has bytes and a supported suffix, the reply has non-blank parts, and saving succeeds. The file holds the stripped reply and at most one call is made. |
| AudioTranscribe.TranscriptsTrimmed | Audio-transcription/transcribe_audio.py:261 | Every segment transcript is stripped. |
| AudioTranscribe.CombineTranscripts | Audio-transcription/transcribe_audio.py:439-450 | The combined transcripts are empty exactly when there is no clip. |
| AudioTranscribe.ProcessFileSplit | Audio-transcription/transcribe_audio.py:433-463 | With splitting, a file cut into no segment fails. Any other file succeeds exactly when saving succeeds, even when all its segments failed. |
| AudioTranscribe.ProcessFileUnsplit | Audio-transcription/transcribe_audio.py:435-450 | A file that is not cut up and whose call succeeds gives the same result with or without splitting. |
| AudioTranscribe.CountSuccessful | Audio-transcription/transcribe_audio.py:428-469 | Successes never exceed the number of files. |
| AudioTranscribe.CountSuccessfulBounds | Audio-transcription/transcribe_audio.py:428-469 | The count equals the number of files exactly when all succeed, and is zero exactly when none does. |
| AudioTranscribe.CountFiles | Audio-transcription/transcribe_audio.py:428-469 | Each file increments exactly one counter, so successes and failures sum to the number of files. |
| AudioTranscribe.TranscribeAll | Audio-transcription/transcribe_audio.py:406-479 | Without a supported file nothing is called. Otherwise the files are processed in sorted order and each is counted once. |

## Left out

- Service internals: the SDK calls are scripted replies, so their behaviour beyond the reply shape is not modelled.
- Fields of a reply other than parts and finish reason are ignored, and thought parts are treated as text parts.
- PDF page extraction and counting: a PDF is given as its page sizes, or the error its extraction raises.
- `time.sleep` and wall-clock time: sleeps are recorded as events, and elapsed time and timing are not computed.
- Excel reading and writing: the sheet is a column of optional cells, and saving is assumed to succeed.
- Non-string cells are read as strings.
- File existence and reading: a directory map and a recording record stand in for them. Path joining is reduced to names.
- The order in which a folder is listed is an input.
- ffmpeg discovery, pydub decoding and export, and the removal of segment files: decoding is the given length, exports succeed, and cleanup is a flag.
- Console menus, provider and model selection, logging, dotenv loading and `main`, except the split decision (`AudioPrompts.SplitSegments`).
- The end of input at the prompt menu (EOFError) is modelled as an aborted selection (None).
- Floating-point success rates and megabyte totals: only integer counters are kept.
- The whole `Summary` tool.
- Loading the system prompt files: the system prompt is a configuration string.
- The `mimetypes` fallback in `prepare_audio_for_api`: an unsupported suffix is treated as having no MIME type.
- The check in the HTR direct mode that an output file is larger than 100 bytes, which depends on the file size on disk.
- The outer `except` of `process_pdf_to_text` is modelled only for the page count: `get_pdf_page_count` re-raises a reading error (`HTR/gemini_htr_processor.py:197-202`), which that `except` turns into None, as the model's `Unreadable` PDF does (`Assembly.ProcessPdfToText`). No other exception it would catch arises in the model. In the audio per-file loop, the one error that reaches its `except` is a failure to create the output folder (`Audio-transcription/transcribe_audio.py:279`, outside the `try` of `save_transcription`); the `except` counts the file as failed (`:467-469`), which is what the model's `saves == false` gives.
- Text.Strip: white space is ASCII white space only (tab to carriage return, 0x1C to 0x1F, space), not all of Unicode's.
- Text.Lower: changes ASCII letters only.
- Text.Title: changes ASCII letters only; Python's rules for other scripts are not modelled.
- Decimal.ParseDigits: `int` is modelled for ASCII digits with an optional sign and surrounding white space; digit separators (`1_0`) and non-ASCII digits are not accepted.
- AudioPaths.SortNames: orders names by code point. The script is written for Windows (it suggests installing ffmpeg with `winget`, `Audio-transcription/transcribe_audio.py:161`), where `sorted` on paths compares them without regard to letter case; there `a.mp3` comes before `B.mp3`, while the model puts `B.mp3` first.
- Tiers.RetryLog: the retry loop is stated for three attempts only, as the code fixes `max_retries = 3`.
- Assembly.SegmentAt: the document's slot boundaries are given by `Offset`; no statement is made about other occurrences of a marker inside page text.

=== FILE: assembly.dfy ===
/**
  Document assembly in `process_pdf` and `process_pdf_to_text`. Pages are recognised one
  after the other against the same service script. Each page contributes one segment,
  in page order:
  - page 1 has no marker;
  - every later page is preceded by its `--- Page i ---` marker;
  - a page without text gets an error placeholder in its own slot.
 */
module Assembly {
  import opened Wrappers
  import opened Service
  import opened Requests
  import opened Tiers
  import Text
  import Decimal

  /** Extracting one page gave its byte length, or raised with a message. */
  datatype PageSource = Extracted(size: nat) | ExtractionFailed(error: string)

  /**
    The PDF as a processor sees it: absent, failing when its pages are counted,
    or its pages in order.
   */
  datatype PdfFile = Missing | Unreadable(error: string) | Readable(pages: seq<PageSource>)

  /** What one page came to. */
  datatype PageResult =
    | PageText(text: string)    // a text that passed `text and text.strip()`
    | PageEmpty                 // both tiers gave no usable text
    | PageError(error: string)  // an exception escaped while the page was handled

  /** How one page of a given byte length is recognised against the script. */
  type Recogniser = (nat, Script) -> Step<Option<string>>

  /** The tiered recognition of `Tiers.RecognisePage` with fixed prompts. */
  function PageRecogniser(pr: Prompting): Recogniser {
    (size: nat, t: Script) => RecognisePage(pr, size, t)
  }

  /** One iteration of the page loop, before anything is written. */
  function RecognisePageSource(rec: Recogniser, src: PageSource, s: Script): (r: Step<PageResult>)
    ensures r.value.PageError? <==> src.ExtractionFailed?
    ensures r.value.PageError? ==> r.value.error == src.error && r.rest == s && r.log == []
    ensures r.value.PageText? ==> Text.Strip(r.value.text) != ""
  {
    match src
    case ExtractionFailed(e) => Step(PageError(e), s, [])
    case Extracted(size) =>
      var p := rec(size, s);
      if p.value.Some? && Text.Strip(p.value.value) != "" then Step(PageText(p.value.value), p.rest, p.log)
      else Step(PageEmpty, p.rest, p.log)
  }

  /** The loop body as a step over pages. */
  function PageStep(rec: Recogniser): (PageSource, Script) -> Step<PageResult> {
    (src: PageSource, t: Script) => RecognisePageSource(rec, src, t)
  }

  /** Every page in order, each one on the script the earlier pages left. */
  function RecognisePages(rec: Recogniser, pages: seq<PageSource>, s: Script): (r: Step<seq<PageResult>>)
    ensures |r.value| == |pages|
  {
    Each(PageStep(rec), pages, s)
  }

  /** What page `src` may come to, whatever the service does. */
  predicate PageFits(src: PageSource, r: PageResult) {
    && (r.PageError? <==> src.ExtractionFailed?)
    && (r.PageError? ==> r.error == src.error)
    && (r.PageText? ==> Text.Strip(r.text) != "")
  }

  /**
    A page failed to extract exactly when its result is an error with the extraction's
    message; a text result always has something left after stripping.
   */
  lemma RecognisePagesErrors(rec: Recogniser, pages: seq<PageSource>, s: Script)
    ensures var r := RecognisePages(rec, pages, s).value;
      && (forall i :: 0 <= i < |pages| ==> (r[i].PageError? <==> pages[i].ExtractionFailed?))
      && (forall i :: 0 <= i < |pages| && r[i].PageError? ==> r[i].error == pages[i].error)
      && (forall i :: 0 <= i < |pages| && r[i].PageText? ==> Text.Strip(r[i].text) != "")
  {
    forall src, t
      ensures PageFits(src, PageStep(rec)(src, t).value)
    {
      var r := RecognisePageSource(rec, src, t);
    }
    EachKeeps(PageStep(rec), PageFits, pages, s);
  }

  /**
    With the tiered recogniser, the `text.strip()` check never rejects a text: a page is a
    text result exactly when its tiers gave text, and it keeps that text.
   */
  lemma TieredPageSource(pr: Prompting, size: nat, s: Script)
    ensures var r := RecognisePageSource(PageRecogniser(pr), Extracted(size), s);
      var p := RecognisePage(pr, size, s);
      && (r.value.PageText? <==> p.value.Some?)
      && (p.value.Some? ==> r.value.text == p.value.value)
      && r.rest == p.rest && r.log == p.log
  {
    var p := RecognisePage(pr, size, s);
    assert PageRecogniser(pr)(size, s) == p;
    if p.value.Some? {
      Text.StripTrimmed(p.value.value);
    }
  }

  /** `"\n\n--- Page i ---\n\n"`. */
  function Marker(page: nat): string {
    "\n\n--- Page " + Decimal.NatToString(page) + " ---\n\n"
  }

  /**
    The marker has its fixed opening and closing, and between them the decimal digits of
    the page number, so it reads back as that number.
   */
  lemma MarkerPage(page: nat)
    ensures var m := Marker(page);
      && Text.StartsWith(m, "\n\n--- Page ") && Text.EndsWith(m, " ---\n\n")
      && |m| == 17 + |Decimal.NatToString(page)|
      && Decimal.AllDigits(m[11..|m| - 6]) && Decimal.DigitsValue(m[11..|m| - 6]) == page
  {
    var m := Marker(page);
    assert m[11..|m| - 6] == Decimal.NatToString(page);
    Decimal.NatToStringValue(page);
  }

  /** What page `page` contributes after its marker. */
  function Body(page: nat, r: PageResult): string {
    match r
    case PageText(t) => t
    case PageEmpty => "[ERROR: Failed to process page " + Decimal.NatToString(page) + "]"
    case PageError(e) => "[ERROR: Failed to process page " + Decimal.NatToString(page) + ": " + e + "]"
  }

  /**
    A text result contributes its text as it is; any other result an error placeholder
    naming the page, ending with the error's message when there is one.
   */
  lemma BodyShape(page: nat, r: PageResult)
    ensures var b := Body(page, r);
      && (r.PageText? ==> b == r.text)
      && (!r.PageText? ==> Text.StartsWith(b, "[ERROR: Failed to process page " + Decimal.NatToString(page)))
      && (r.PageEmpty? ==> Text.EndsWith(b, Decimal.NatToString(page) + "]"))
      && (r.PageError? ==> Text.EndsWith(b, ": " + r.error + "]"))
      && (r.PageEmpty? ==> |b| == 32 + |Decimal.NatToString(page)|)
      && (r.PageError? ==> |b| == 34 + |Decimal.NatToString(page)| + |r.error|)
  {
    var head := "[ERROR: Failed to process page " + Decimal.NatToString(page);
    var b := Body(page, r);
    match r
    case PageText(t) =>
    case PageEmpty =>
      assert b == head + "]";
      assert b[..|head|] == head;
      assert b[|b| - |Decimal.NatToString(page) + "]"|..] == Decimal.NatToString(page) + "]";
    case PageError(e) =>
      assert b == head + ": " + e + "]";
      assert b[..|head|] == head;
      assert b[|b| - |": " + e + "]"|..] == ": " + e + "]";
  }

  /** Page `page`'s slot: its body alone for page 1, marker then body for later pages. */
  function Segment(page: nat, r: PageResult): string {
    if page == 1 then Body(page, r) else Marker(page) + Body(page, r)
  }

  /** Every slot ends with its page's body; only later pages open theirs with a marker. */
  lemma SegmentShape(page: nat, r: PageResult)
    ensures var slot := Segment(page, r);
      && (page == 1 ==> slot == Body(page, r))
      && (page != 1 ==> Text.StartsWith(slot, Marker(page)))
      && Text.EndsWith(slot, Body(page, r))
      && |slot| == (if page == 1 then 0 else |Marker(page)|) + |Body(page, r)|
  {
    var slot, body := Segment(page, r), Body(page, r);
    if page != 1 {
      assert slot[..|Marker(page)|] == Marker(page);
      assert slot[|slot| - |body|..] == body;
    }
  }

  /** The slots of results numbered from `first`. */
  function Segments(results: seq<PageResult>, first: nat): (segs: seq<string>)
    ensures |segs| == |results|
    ensures forall k :: 0 <= k < |results| ==> segs[k] == Segment(first + k, results[k])
  {
    seq(|results|, k requires 0 <= k < |results| => Segment(first + k, results[k]))
  }

  /** One more result adds its slot at the end. */
  lemma {:induction false} SegmentsSnoc(results: seq<PageResult>, r: PageResult)
    ensures Segments(results + [r], 1) == Segments(results, 1) + [Segment(|results| + 1, r)]
  {
    var a := Segments(results, 1);
    var b := Segments(results + [r], 1);
    forall k | 0 <= k < |results|
      ensures b[k] == a[k]
    {
      assert (results + [r])[k] == results[k];
    }
    assert b[|results|] == Segment(|results| + 1, r);
    assert b == a + [Segment(|results| + 1, r)];
  }

  /** `"".join(all_text)`: the document made of the slots of pages 1, 2, ... */
  function Assemble(results: seq<PageResult>): string {
    Text.Concat(Segments(results, 1))
  }

  /** The document is empty without pages, and otherwise ends with the last page's body. */
  lemma AssembleEnds(results: seq<PageResult>)
    ensures results == [] ==> Assemble(results) == ""
    ensures results != [] ==> Text.EndsWith(Assemble(results), Body(|results|, results[|results| - 1]))
  {
    if results != [] {
      var n := |results|;
      var init, last := results[..n - 1], results[n - 1];
      assert init + [last] == results;
      AssembleSnoc(init, last);
      SegmentShape(n, last);
      Text.EndsWithAppend(Assemble(init), Segment(n, last), Body(n, last));
    }
  }

  /** Where page `k + 1`'s slot starts in the document. */
  function Offset(results: seq<PageResult>, k: nat): nat
    requires k <= |results|
  {
    |Text.Concat(Segments(results, 1)[..k])|
  }

  /** Writing the slots one at a time, as `process_pdf` does, builds the same document. */
  lemma AssembleSnoc(results: seq<PageResult>, r: PageResult)
    ensures Assemble(results + [r]) == Assemble(results) + Segment(|results| + 1, r)
  {
    SegmentsSnoc(results, r);
    Text.ConcatAppend(Segments(results, 1), [Segment(|results| + 1, r)]);
  }

  /**
    Every page has its slot at its offset, in page order: the slots of the earlier pages
    come first, then this page's slot, then the later ones.
   */
  lemma SegmentAt(results: seq<PageResult>, k: nat)
    requires k < |results|
    ensures Offset(results, k + 1) == Offset(results, k) + |Segment(k + 1, results[k])|
    ensures Text.OccursAt(Assemble(results), Segment(k + 1, results[k]), Offset(results, k))
  {
    Text.ConcatAt(Segments(results, 1), k);
  }

  /** Page `page`'s slot occurs in the document where the slots before it end. */
  lemma SlotAt(results: seq<PageResult>, page: nat)
    requires 1 <= page <= |results|
    ensures Text.OccursAt(Assemble(results), Segment(page, results[page - 1]), Offset(results, page - 1))
  {
    var k := page - 1;
    SegmentAt(results, k);
    assert Segment(k + 1, results[k]) == Segment(page, results[page - 1]);
  }

  /** The document opens with page 1's body: no marker precedes it. */
  lemma FirstPageUnmarked(results: seq<PageResult>)
    requires |results| > 0
    ensures Text.StartsWith(Assemble(results), Body(1, results[0]))
  {
    SegmentAt(results, 0);
    assert Segments(results, 1)[..0] == [];
  }

  /**
    Every page after the first has its marker at the start of its slot, with its body
    right after it.
   */
  lemma LaterPageMarked(results: seq<PageResult>, page: nat)
    requires 2 <= page <= |results|
    ensures Text.OccursAt(Assemble(results), Marker(page), Offset(results, page - 1))
    ensures Text.OccursAt(Assemble(results), Body(page, results[page - 1]), Offset(results, page - 1) + |Marker(page)|)
  {
    var doc, r, at := Assemble(results), results[page - 1], Offset(results, page - 1);
    SlotAt(results, page);
    MarkedSlot(doc, page, r, at);
  }

  /** Where a later page's slot occurs, its marker occurs, followed by its body. */
  lemma MarkedSlot(doc: string, page: nat, r: PageResult, at: nat)
    requires page != 1 && Text.OccursAt(doc, Segment(page, r), at)
    ensures Text.OccursAt(doc, Marker(page), at)
    ensures Text.OccursAt(doc, Body(page, r), at + |Marker(page)|)
  {
    assert Segment(page, r) == Marker(page) + Body(page, r);
    Text.OccursSplit(doc, Marker(page), Body(page, r), at);
  }

  /** A body is never empty when a text result is never blank, so neither is a document with pages. */
  lemma AssembleEmpty(results: seq<PageResult>)
    requires forall i :: 0 <= i < |results| && results[i].PageText? ==> Text.Strip(results[i].text) != ""
    ensures Assemble(results) == "" <==> results == []
  {
    if results != [] {
      SegmentAt(results, 0);
      if results[0].PageText? {
        assert results[0].text != "";
      }
    }
  }

  /** The number of pages whose result is text. */
  function Successful(results: seq<PageResult>): (n: nat)
    ensures n <= |results|
  {
    if results == [] then 0
    else Successful(results[..|results| - 1]) + (if results[|results| - 1].PageText? then 1 else 0)
  }

  /** `failed_pages`: the numbers of the pages without text, in page order. */
  function FailedPages(results: seq<PageResult>): (f: seq<nat>)
  {
    if results == [] then []
    else FailedPages(results[..|results| - 1]) + (if results[|results| - 1].PageText? then [] else [|results|])
  }

  /**
    The failed pages are exactly the pages without text, listed once each in increasing
    order, and together with the successful ones they account for every page.
   */
  lemma {:induction false} FailedPagesExact(results: seq<PageResult>)
    ensures var f := FailedPages(results);
      && Successful(results) + |f| == |results|
      && (forall j :: 0 <= j < |f| ==> 1 <= f[j] <= |results| && !results[f[j] - 1].PageText?)
      && (forall j, k :: 0 <= j < k < |f| ==> f[j] < f[k])
      && (forall p :: 1 <= p <= |results| && !results[p - 1].PageText? ==> p in f)
    decreases |results|
  {
    if results != [] {
      var init := results[..|results| - 1];
      FailedPagesExact(init);
      assert forall i :: 0 <= i < |init| ==> init[i] == results[i];
    }
  }

  /** One more page moves exactly one of the two counters. */
  lemma CountersSnoc(results: seq<PageResult>, r: PageResult)
    ensures Successful(results + [r]) == Successful(results) + (if r.PageText? then 1 else 0)
    ensures FailedPages(results + [r]) == FailedPages(results) + (if r.PageText? then [] else [|results| + 1])
  {
    assert (results + [r])[..|results|] == results;
  }

  /** The number of pages, or why there is no page loop at all. */
  function PageCount(file: PdfFile): Option<nat> {
    if file.Readable? then Some(|file.pages|) else None
  }

  /**
    `process_pdf_to_text`: None when the file is missing or cannot be read, and also
    when it has no page (an empty `all_text`); otherwise the assembled document.
   */
  function ProcessPdfToText(rec: Recogniser, file: PdfFile, s: Script): (r: Step<Option<string>>)
    ensures r.value.Some? <==> file.Readable? && file.pages != []
  {
    match file
    case Missing => Step(None, s, [])
    case Unreadable(_) => Step(None, s, [])
    case Readable(pages) =>
      var p := RecognisePages(rec, pages, s);
      Step(if pages == [] then None else Some(Assemble(p.value)), p.rest, p.log)
  }

  /** The file `process_pdf` writes: none when the file is missing or unreadable. */
  function WrittenFile(rec: Recogniser, file: PdfFile, s: Script): Option<string> {
    if file.Readable? then Some(Assemble(RecognisePages(rec, file.pages, s).value)) else None
  }

  /**
    The two entry points agree: `process_pdf_to_text` returns what `process_pdf` writes,
    except that it returns None for a PDF of no pages, where `process_pdf` writes an empty file.
   */
  lemma ToTextMatchesWritten(rec: Recogniser, file: PdfFile, s: Script)
    ensures var w := WrittenFile(rec, file, s);
      ProcessPdfToText(rec, file, s).value == (if w == Some("") then None else w)
  {
    if file.Readable? {
      var p := RecognisePages(rec, file.pages, s);
      RecognisePagesErrors(rec, file.pages, s);
      AssembleEmpty(p.value);
    }
  }

  /** One more page of the loop: its result joins the results, the document and the counters. */
  lemma PageAppended(rec: Recogniser, pages: seq<PageSource>, s: Script,
                     results: seq<PageResult>, rest: Script, log: seq<Event>, number: nat)
    requires number == |results| + 1 <= |pages|
    requires RecognisePages(rec, pages[..|results|], s) == Step(results, rest, log)
    ensures var page := RecognisePageSource(rec, pages[|results|], rest);
      && RecognisePages(rec, pages[..number], s) == Step(results + [page.value], page.rest, log + page.log)
      && Assemble(results + [page.value]) == Assemble(results) + Segment(number, page.value)
      && Successful(results + [page.value]) == Successful(results) + (if page.value.PageText? then 1 else 0)
      && FailedPages(results + [page.value]) == FailedPages(results) + (if page.value.PageText? then [] else [number])
  {
    var page := RecognisePageSource(rec, pages[|results|], rest);
    EachPrefix(PageStep(rec), pages, |results|, s);
    AssembleSnoc(results, page.value);
    CountersSnoc(results, page.value);
  }

  /**
    The page loop of `process_pdf`: recognises each page in turn, appends its slot to the
    output and keeps the counters. It writes the document `WrittenFile` describes, and
    its counters are those of the page results.
   */
  method ProcessPdf(rec: Recogniser, file: PdfFile, s: Script)
    returns (written: Option<string>, successful: nat, failedPages: seq<nat>, rest: Script, log: seq<Event>)
    ensures written == WrittenFile(rec, file, s)
    ensures file.Readable? ==> var p := RecognisePages(rec, file.pages, s);
      && successful == Successful(p.value) && failedPages == FailedPages(p.value)
      && rest == p.rest && log == p.log
    ensures file.Readable? ==> successful + |failedPages| == |file.pages|
    ensures !file.Readable? ==> successful == 0 && failedPages == [] && rest == s && log == []
  {
    written, successful, failedPages, rest, log := None, 0, [], s, [];
    if !file.Readable? {
      return;
    }
    var pages := file.pages;
    var out := "";
    var results: seq<PageResult> := [];
    var i := 0;
    while i < |pages|
      invariant 0 <= i <= |pages| && |results| == i
      invariant RecognisePages(rec, pages[..i], s) == Step(results, rest, log)
      invariant out == Assemble(results)
      invariant successful == Successful(results) && failedPages == FailedPages(results)
    {
      var page := RecognisePageSource(rec, pages[i], rest);
      var number := i + 1;
      PageAppended(rec, pages, s, results, rest, log, number);
      out := out + Segment(number, page.value);
      if page.value.PageText? {
        successful := successful + 1;
      } else {
        failedPages := failedPages + [number];
      }
      results := results + [page.value];
      rest, log := page.rest, log + page.log;
      i := i + 1;
    }
    assert pages[..i] == pages;
    FailedPagesExact(results);
    written := Some(out);
  }
}

=== FILE: audio_paths.dfy ===
/**
  File names in the audio transcriber: `pathlib` suffixes and stems, the table of
  supported formats and their MIME types, the sorted list of input files, and the
  name and layout of the transcription file written for each input.
 */
module AudioPaths {
  import opened Wrappers
  import Text

  /** The index of the last `c` in `s` (`str.rfind`), None when there is none. */
  function LastIndexOf(s: string, c: char): (r: Option<nat>)
    ensures r.Some? ==> r.value < |s| && s[r.value] == c && c !in s[r.value + 1..]
    ensures r.None? <==> c !in s
  {
    if s == [] then None
    else if s[|s| - 1] == c then Some(|s| - 1)
    else
      var r := LastIndexOf(s[..|s| - 1], c);
      assert s == s[..|s| - 1] + [s[|s| - 1]];
      if r.Some? then
        assert s[r.value + 1..] == s[..|s| - 1][r.value + 1..] + [s[|s| - 1]];
        r
      else r
  }

  /**
    The dot that starts `PurePath.suffix`: the last dot, provided it is neither the first
    character (a hidden file) nor the last one.
   */
  function SuffixDot(name: string): (r: Option<nat>)
    ensures r.Some? ==> 0 < r.value < |name| - 1 && name[r.value] == '.'
  {
    var i := LastIndexOf(name, '.');
    if i.Some? && 0 < i.value < |name| - 1 then i else None
  }

  /** `PurePath.suffix`: from the last dot on, or `""`. */
  function Suffix(name: string): string {
    match SuffixDot(name)
    case Some(i) => name[i..]
    case None => ""
  }

  /** `PurePath.stem`: the name without its suffix. */
  function Stem(name: string): string {
    match SuffixDot(name)
    case Some(i) => name[..i]
    case None => name
  }

  /**
    A name is its stem followed by its suffix. A suffix is empty or a dot followed by at
    least one character and no further dot; the stem of a non-empty name is non-empty.
   */
  lemma StemSuffix(name: string)
    ensures Stem(name) + Suffix(name) == name
    ensures Suffix(name) == "" || (|Suffix(name)| >= 2 && Suffix(name)[0] == '.' && '.' !in Suffix(name)[1..])
    ensures name != "" ==> Stem(name) != ""
  {
    var d := SuffixDot(name);
    if d.Some? {
      var i := d.value;
      assert name[..i] + name[i..] == name;
      var r := LastIndexOf(name, '.');
      assert name[i..][1..] == name[i + 1..];
    }
  }

  /** `supported_formats`: lower-case extension to MIME type. */
  const SupportedFormats: map<string, string> := map[
    ".mp3" := "audio/mpeg",
    ".wav" := "audio/wav",
    ".m4a" := "audio/mp4",
    ".flac" := "audio/flac",
    ".ogg" := "audio/ogg",
    ".webm" := "audio/webm",
    ".mp4" := "audio/mp4",
    ".aac" := "audio/aac"
  ]

  /** The lower-cased suffix is one of the supported formats. */
  predicate IsAudio(name: string) {
    Text.Lower(Suffix(name)) in SupportedFormats
  }

  /**
    The MIME type `prepare_audio_for_api` sends: the table's entry for the lower-cased
    suffix. The `mimetypes` fallback is not modelled and reads as no type.
   */
  function MimeType(name: string): (m: Option<string>)
    ensures m.Some? <==> IsAudio(name)
    ensures m.Some? ==> m.value in SupportedFormats.Values
  {
    var e := Text.Lower(Suffix(name));
    if e in SupportedFormats then Some(SupportedFormats[e]) else None
  }

  /** Every supported type is an `audio/` type, and `.m4a` goes out as `audio/mp4`. */
  lemma MimeTypesAudio(name: string)
    requires IsAudio(name)
    ensures Text.StartsWith(MimeType(name).value, "audio/")
    ensures Text.Lower(Suffix(name)) == ".m4a" ==> MimeType(name) == Some("audio/mp4")
  {
  }

  /** Python's `<=` on strings: lexicographic by code point, a prefix first. */
  predicate Below(a: string, b: string)
    decreases |a|
  {
    if a == [] then true
    else if b == [] then false
    else if a[0] != b[0] then a[0] < b[0]
    else Below(a[1..], b[1..])
  }

  /** Any two names are ordered one way or the other. */
  lemma {:induction false} BelowTotal(a: string, b: string)
    ensures Below(a, b) || Below(b, a)
    decreases |a|
  {
    if a != [] && b != [] && a[0] == b[0] {
      BelowTotal(a[1..], b[1..]);
    }
  }

  lemma {:induction false} BelowTrans(a: string, b: string, c: string)
    requires Below(a, b) && Below(b, c)
    ensures Below(a, c)
    decreases |a|
  {
    if a != [] && b != [] && c != [] && a[0] == b[0] && b[0] == c[0] {
      BelowTrans(a[1..], b[1..], c[1..]);
    }
  }

  /** Names in non-decreasing order. */
  predicate Ordered(xs: seq<string>) {
    forall i :: 0 < i < |xs| ==> Below(xs[i - 1], xs[i])
  }

  /** Inserts `x` before the first element it is below. */
  function Insert(x: string, xs: seq<string>): (r: seq<string>)
    ensures multiset(r) == multiset(xs) + multiset{x}
    ensures |r| > 0 && (r[0] == x || (xs != [] && r[0] == xs[0]))
  {
    if xs == [] || Below(x, xs[0]) then [x] + xs
    else
      assert xs == [xs[0]] + xs[1..];
      [xs[0]] + Insert(x, xs[1..])
  }

  /** Inserting into an ordered list keeps it ordered. */
  lemma {:induction false} InsertOrdered(x: string, xs: seq<string>)
    requires Ordered(xs)
    ensures Ordered(Insert(x, xs))
  {
    if xs != [] && !Below(x, xs[0]) {
      BelowTotal(x, xs[0]);
      InsertOrdered(x, xs[1..]);
      var r := Insert(x, xs);
      var rest := Insert(x, xs[1..]);
      assert r == [xs[0]] + rest;
      assert Below(xs[0], rest[0]);
      forall i | 0 < i < |r|
        ensures Below(r[i - 1], r[i])
      {
        if i > 1 {
          assert r[i - 1] == rest[i - 2] && r[i] == rest[i - 1];
        }
      }
    }
  }

  /** `sorted(...)` on names. */
  function SortNames(xs: seq<string>): (r: seq<string>)
    ensures multiset(r) == multiset(xs)
    ensures Ordered(r)
  {
    if xs == [] then []
    else
      assert xs == [xs[0]] + xs[1..];
      InsertOrdered(xs[0], SortNames(xs[1..]));
      Insert(xs[0], SortNames(xs[1..]))
  }

  /** The listed names that are supported audio files, in listing order. */
  function AudioOnly(names: seq<string>): (r: seq<string>)
    ensures forall x :: x in r <==> x in names && IsAudio(x)
    ensures multiset(r) <= multiset(names)
  {
    if names == [] then []
    else
      assert names == [names[0]] + names[1..];
      (if IsAudio(names[0]) then [names[0]] else []) + AudioOnly(names[1..])
  }

  /**
    `get_audio_files`: the folder's file names whose lower-cased suffix is supported,
    sorted; none when the folder does not exist (`listing` is None).
   */
  function AudioFiles(listing: Option<seq<string>>): (r: seq<string>)
    ensures Ordered(r)
    ensures listing.None? ==> r == []
  {
    if listing.None? then [] else SortNames(AudioOnly(listing.value))
  }

  /**
    The input files are exactly the supported files of the folder, each as often as it
    is listed, in sorted order.
   */
  lemma AudioFilesExact(listing: Option<seq<string>>)
    ensures Ordered(AudioFiles(listing))
    ensures listing.None? ==> AudioFiles(listing) == []
    ensures listing.Some? ==> forall x :: x in AudioFiles(listing) <==> x in listing.value && IsAudio(x)
    ensures listing.Some? ==> multiset(AudioFiles(listing)) == multiset(AudioOnly(listing.value))
  {
    if listing.Some? {
      var r := AudioFiles(listing);
      forall x
        ensures x in r <==> x in AudioOnly(listing.value)
      {
        assert x in r <==> x in multiset(r);
      }
    }
  }

  const TranscriptionSuffix: string := "_transcription.txt"

  /** `stem + "_transcription.txt"`. */
  function OutputName(name: string): (r: string)
    ensures Text.EndsWith(r, TranscriptionSuffix)
    ensures r[..|r| - |TranscriptionSuffix|] == Stem(name)
  {
    Stem(name) + TranscriptionSuffix
  }

  /** Inputs that differ only in their suffix write the same transcription file. */
  lemma OutputNameIgnoresSuffix(a: string, b: string)
    requires Stem(a) == Stem(b)
    ensures OutputName(a) == OutputName(b)
  {
  }

  /** The last `c` is at `i` when `s[i]` is `c` and no `c` follows it. */
  lemma {:induction false} LastIndexOfAt(s: string, c: char, i: nat)
    requires i < |s| && s[i] == c && c !in s[i + 1..]
    ensures LastIndexOf(s, c) == Some(i)
    decreases |s|
  {
    if i < |s| - 1 {
      assert s[|s| - 1] in s[i + 1..];
      var t := s[..|s| - 1];
      assert t[i + 1..] == s[i + 1..|s| - 1];
      LastIndexOfAt(t, c, i);
    }
  }

  /** A stem followed by a dotted extension without further dots splits back into the two. */
  lemma StemOfJoined(stem: string, ext: string)
    requires stem != "" && |ext| >= 2 && ext[0] == '.' && '.' !in ext[1..]
    ensures Stem(stem + ext) == stem && Suffix(stem + ext) == ext
  {
    var name := stem + ext;
    assert name[|stem| + 1..] == ext[1..];
    LastIndexOfAt(name, '.', |stem|);
    assert name[..|stem|] == stem && name[|stem|..] == ext;
  }

  /**
    The metadata lines `save_transcription` writes before the text: the input's name, the
    model on the next line, then a rule of fifty `=` and a blank line.
   */
  function Header(name: string, model: string): (h: string)
    ensures Text.StartsWith(h, "Transcription of: " + name + "\n")
    ensures Text.OccursAt(h, "Generated using: Google " + model + "\n", 19 + |name|)
    ensures Text.EndsWith(h, Text.Repeat('=', 50) + "\n\n")
    ensures |h| == 96 + |name| + |model|
  {
    var first := "Transcription of: " + name + "\n";
    var second := "Generated using: Google " + model + "\n";
    var rule := Text.Repeat('=', 50) + "\n\n";
    var h := first + second + rule;
    assert h[..|first|] == first;
    assert h[|first|..|first| + |second|] == second;
    assert h[|h| - |rule|..] == rule;
    h
  }

  /** The contents of the transcription file: the header, then exactly the transcription. */
  function TranscriptFile(name: string, model: string, text: string): (r: string)
    ensures TranscriptText(r, name, model) == Some(text)
  {
    var h := Header(name, model);
    assert (h + text)[..|h|] == h;
    h + text
  }

  /** Reads the text back out of a transcription file written for `name` and `model`. */
  function TranscriptText(body: string, name: string, model: string): (r: Option<string>)
    ensures r.Some? ==> body == Header(name, model) + r.value
  {
    var h := Header(name, model);
    if Text.StartsWith(body, h) then
      assert body == body[..|h|] + body[|h|..];
      Some(body[|h|..])
    else None
  }
}

=== FILE: audio_prompts.dfy ===
/**
  Prompt files of the audio transcriber: the numbered `.md` files of the prompts folder,
  the prompt text a file holds, and the choice between them, which also decides whether
  recordings are split.
 */
module AudioPrompts {
  import opened Wrappers
  import Text
  import Decimal
  import AudioPaths

  /** `default_prompt`: used when no prompt file is chosen, or a chosen one cannot be read. */
  const DefaultPrompt: string :=
    "\n        Please transcribe the audio content accurately. \n        Include proper punctuation and formatting.\n        If there are multiple speakers, indicate speaker changes.\n        Provide a clear, readable transcription of the spoken content.\n        "

  /** A prompt file: its number (0 when its name has none), its description and its file name. */
  datatype PromptFile = PromptFile(number: int, description: string, file: string)

  /**
    `name.replace('_', ' ').title()`: every `_` becomes a space, a letter that starts a
    word (no letter before it) becomes upper case, any other letter lower case, and every
    other character is kept.
   */
  function Describe(name: string): (r: string)
    ensures |r| == |name| && '_' !in r
    ensures forall i :: 0 <= i < |name| && name[i] == '_' ==> r[i] == ' '
    ensures forall i :: 0 <= i < |name| && !Text.IsLetter(name[i]) && name[i] != '_' ==> r[i] == name[i]
    ensures forall i :: 0 <= i < |name| ==> Text.LowerChar(r[i]) == Text.LowerChar(name[i]) || name[i] == '_'
    ensures forall i :: 0 <= i < |name| && Text.WordStart(name, i) ==> Text.IsUpper(r[i])
    ensures forall i :: 0 <= i < |name| && Text.IsLetter(name[i]) && !Text.WordStart(name, i) ==> Text.IsLower(r[i])
  {
    var spaced := Text.ReplaceChar(name, '_', ' ');
    var r := Text.Title(spaced);
    assert forall i :: 0 <= i < |name| ==> Text.WordStart(spaced, i) == Text.WordStart(name, i) by {
      forall i | 0 <= i < |name|
        ensures Text.WordStart(spaced, i) == Text.WordStart(name, i)
      {
        assert Text.IsLetter(spaced[i]) == Text.IsLetter(name[i]);
        if i > 0 {
          assert Text.IsLetter(spaced[i - 1]) == Text.IsLetter(name[i - 1]);
        }
      }
    }
    assert forall i :: 0 <= i < |r| ==> r[i] != '_' by {
      forall i | 0 <= i < |r|
        ensures r[i] != '_'
      {
        if Text.IsLetter(spaced[i]) {
          assert Text.IsLetter(r[i]);
        } else {
          assert r[i] == spaced[i];
        }
      }
    }
    r
  }

  /**
    The number and description `get_available_prompts` reads from a file stem: split at
    the first `_`, a prefix that `int` accepts is the number and the rest is described;
    otherwise the number is 0 and the whole stem is described.
   */
  function ParseStem(stem: string): (r: (int, string))
    ensures '_' !in stem ==> r == (0, Describe(stem))
  {
    var k := Text.IndexOf(stem, '_');
    if k == |stem| then (0, Describe(stem))
    else match Decimal.ParseInt(stem[..k])
      case Some(n) => (n, Describe(stem[k + 1..]))
      case None => (0, Describe(stem))
  }

  /** The first `c` of `a + [c] + b` is the one after `a` when `a` has none. */
  lemma IndexOfJoined(a: string, c: char, b: string)
    requires c !in a
    ensures Text.IndexOf(a + [c] + b, c) == |a|
  {
    var s := a + [c] + b;
    assert s[|a|] == c;
    assert s[..|a|] == a;
    assert forall i :: 0 <= i < |a| ==> s[i] == a[i];
  }

  /**
    A stem with a `_` splits at its first one: a prefix `int` accepts is the number and
    the rest is described; any other prefix leaves number 0 and the whole stem described.
   */
  lemma ParseStemSplit(a: string, b: string)
    requires '_' !in a
    ensures Decimal.ParseInt(a).Some? ==> ParseStem(a + "_" + b) == (Decimal.ParseInt(a).value, Describe(b))
    ensures Decimal.ParseInt(a).None? ==> ParseStem(a + "_" + b) == (0, Describe(a + "_" + b))
  {
    var stem := a + "_" + b;
    assert stem == a + ['_'] + b;
    IndexOfJoined(a, '_', b);
    assert stem[..|a|] == a;
    assert stem[|a| + 1..] == b;
  }

  /** A stem numbered `n` reads back as `n` and the description of what follows the `_`. */
  lemma ParseStemNumbered(n: nat, rest: string)
    ensures ParseStem(Decimal.NatToString(n) + "_" + rest) == (n, Describe(rest))
  {
    var digits := Decimal.NatToString(n);
    var stem := digits + "_" + rest;
    assert '_' !in digits by {
      forall i | 0 <= i < |digits|
        ensures digits[i] != '_'
      {
        assert Decimal.IsDigit(digits[i]);
      }
    }
    assert stem == digits + ['_'] + rest;
    IndexOfJoined(digits, '_', rest);
    assert stem[..|digits|] == digits;
    assert stem[|digits| + 1..] == rest;
    Decimal.ParseNatToString(n);
  }

  /** A file of the prompts folder is a prompt file when its lower-cased suffix is `.md`. */
  predicate IsPromptFile(name: string) {
    Text.Lower(AudioPaths.Suffix(name)) == ".md"
  }

  /** The entry for a prompt file: the number and description its stem gives. */
  function Entry(name: string): PromptFile {
    var p := ParseStem(AudioPaths.Stem(name));
    PromptFile(p.0, p.1, name)
  }

  /** The prompt files among the folder's files, in listing order, each read from its stem. */
  function Entries(names: seq<string>): (r: seq<PromptFile>)
    ensures |r| <= |names|
    ensures forall i :: 0 <= i < |r| ==>
      && r[i].file in names && IsPromptFile(r[i].file)
      && (r[i].number, r[i].description) == ParseStem(AudioPaths.Stem(r[i].file))
  {
    if names == [] then []
    else
      Listed(names[0]) + Entries(names[1..])
  }

  /** What one file contributes: its entry when it is a prompt file, nothing otherwise. */
  function Listed(name: string): (r: seq<PromptFile>)
    ensures |r| <= 1
  {
    if IsPromptFile(name) then [Entry(name)] else []
  }

  /** `f` applied to every element, the results concatenated in order. */
  function FlatMap<A, B>(xs: seq<A>, f: A -> seq<B>): seq<B> {
    if xs == [] then [] else f(xs[0]) + FlatMap(xs[1..], f)
  }

  lemma {:induction false} FlatMapAppend<A, B>(a: seq<A>, b: seq<A>, f: A -> seq<B>)
    ensures FlatMap(a + b, f) == FlatMap(a, f) + FlatMap(b, f)
  {
    if a != [] {
      FlatMapAppend(a[1..], b, f);
      assert (a + b)[0] == a[0];
      assert (a + b)[1..] == a[1..] + b;
    } else {
      assert a + b == b;
    }
  }

  /** The element at `i` contributes between what the elements before and after it do. */
  lemma {:induction false} FlatMapAt<A, B>(xs: seq<A>, f: A -> seq<B>, i: nat)
    requires i < |xs|
    ensures FlatMap(xs, f) == FlatMap(xs[..i], f) + f(xs[i]) + FlatMap(xs[i + 1..], f)
  {
    var rest := [xs[i]] + xs[i + 1..];
    assert xs == xs[..i] + rest;
    FlatMapAppend(xs[..i], rest, f);
    assert FlatMap(rest, f) == f(xs[i]) + FlatMap(xs[i + 1..], f) by {
      assert rest != [] && rest[0] == xs[i] && rest[1..] == xs[i + 1..];
    }
  }

  /** The entries are what each listed file contributes, in listing order. */
  lemma {:induction false} EntriesFlat(names: seq<string>)
    ensures Entries(names) == FlatMap(names, Listed)
  {
    if names != [] {
      EntriesFlat(names[1..]);
    }
  }

  /** Listing more files appends their entries after the earlier ones. */
  lemma {:induction false} EntriesAppend(a: seq<string>, b: seq<string>)
    ensures Entries(a + b) == Entries(a) + Entries(b)
  {
    EntriesFlat(a + b);
    EntriesFlat(a);
    EntriesFlat(b);
    FlatMapAppend(a, b, Listed);
  }

  /**
    Every file of the listing contributes its entry, when it is a prompt file, after the
    entries of the files listed before it and before those of the files listed after it.
   */
  lemma {:induction false} EntriesAt(names: seq<string>, i: nat)
    requires i < |names|
    ensures Entries(names) == Entries(names[..i]) + Listed(names[i]) + Entries(names[i + 1..])
    ensures IsPromptFile(names[i]) ==> Entry(names[i]) in Entries(names)
  {
    FlatMapAt(names, Listed, i);
    EntriesFlat(names);
    EntriesFlat(names[..i]);
    EntriesFlat(names[i + 1..]);
  }

  /** Places `p` before the first entry whose number is not below its own. */
  function InsertByNumber(p: PromptFile, xs: seq<PromptFile>): (r: seq<PromptFile>)
    ensures |r| == |xs| + 1 && (r[0] == p || (xs != [] && r[0] == xs[0]))
  {
    if xs == [] || p.number <= xs[0].number then [p] + xs
    else [xs[0]] + InsertByNumber(p, xs[1..])
  }

  /** `sorted(prompt_files, key=lambda x: x[0])`: an insertion sort by number. */
  function SortByNumber(xs: seq<PromptFile>): (r: seq<PromptFile>)
    ensures |r| == |xs|
  {
    if xs == [] then [] else InsertByNumber(xs[0], SortByNumber(xs[1..]))
  }

  /** Inserting adds `p` and loses nothing. */
  lemma {:induction false} InsertByNumberPerm(p: PromptFile, xs: seq<PromptFile>)
    ensures multiset(InsertByNumber(p, xs)) == multiset(xs) + multiset{p}
  {
    if xs != [] && p.number > xs[0].number {
      InsertByNumberPerm(p, xs[1..]);
      assert xs == [xs[0]] + xs[1..];
    }
  }

  /** The sort is a permutation of its input. */
  lemma {:induction false} SortByNumberPerm(xs: seq<PromptFile>)
    ensures multiset(SortByNumber(xs)) == multiset(xs)
  {
    if xs != [] {
      SortByNumberPerm(xs[1..]);
      InsertByNumberPerm(xs[0], SortByNumber(xs[1..]));
      assert xs == [xs[0]] + xs[1..];
    }
  }

  /** Numbers never decrease along the list. */
  predicate ByNumber(xs: seq<PromptFile>) {
    forall i :: 0 < i < |xs| ==> xs[i - 1].number <= xs[i].number
  }

  /** The entries numbered `n`, in order. */
  function WithNumber(xs: seq<PromptFile>, n: int): seq<PromptFile> {
    if xs == [] then []
    else (if xs[0].number == n then [xs[0]] else []) + WithNumber(xs[1..], n)
  }

  lemma {:induction false} InsertByNumberSorted(p: PromptFile, xs: seq<PromptFile>)
    requires ByNumber(xs)
    ensures ByNumber(InsertByNumber(p, xs))
  {
    if xs != [] && p.number > xs[0].number {
      InsertByNumberSorted(p, xs[1..]);
      var r := InsertByNumber(p, xs);
      var rest := InsertByNumber(p, xs[1..]);
      assert r == [xs[0]] + rest;
      forall i | 0 < i < |r|
        ensures r[i - 1].number <= r[i].number
      {
        if i > 1 {
          assert r[i - 1] == rest[i - 2] && r[i] == rest[i - 1];
        } else if |xs| > 1 && rest[0] == xs[1..][0] {
          assert xs[0].number <= xs[1].number;
        }
      }
    }
  }

  /** Inserting `p` puts it ahead of every entry with its number. */
  lemma {:induction false} InsertByNumberStable(p: PromptFile, xs: seq<PromptFile>, n: int)
    ensures WithNumber(InsertByNumber(p, xs), n) == (if p.number == n then [p] else []) + WithNumber(xs, n)
  {
    var mine: seq<PromptFile> := if p.number == n then [p] else [];
    if xs == [] || p.number <= xs[0].number {
      WithNumberCons(p, xs, n);
    } else {
      var x, tail := xs[0], xs[1..];
      var rest := InsertByNumber(p, tail);
      InsertByNumberStable(p, tail, n);
      assert InsertByNumber(p, xs) == [x] + rest;
      assert xs == [x] + tail;
      WithNumberCons(x, rest, n);
      WithNumberCons(x, tail, n);
      var first: seq<PromptFile> := if x.number == n then [x] else [];
      assert first == [] || mine == [];
      assert first + (mine + WithNumber(tail, n)) == mine + (first + WithNumber(tail, n));
    }
  }

  lemma WithNumberCons(x: PromptFile, xs: seq<PromptFile>, n: int)
    ensures WithNumber([x] + xs, n) == (if x.number == n then [x] else []) + WithNumber(xs, n)
  {
    assert ([x] + xs)[1..] == xs;
  }

  /**
    The sort orders the entries by number and is stable: the entries with any one
    number keep their listing order.
   */
  lemma {:induction false} SortByNumberStable(xs: seq<PromptFile>, n: int)
    ensures ByNumber(SortByNumber(xs))
    ensures WithNumber(SortByNumber(xs), n) == WithNumber(xs, n)
  {
    if xs != [] {
      SortByNumberStable(xs[1..], n);
      InsertByNumberSorted(xs[0], SortByNumber(xs[1..]));
      InsertByNumberStable(xs[0], SortByNumber(xs[1..]), n);
    }
  }

  /**
    `get_available_prompts` over the folder's file names in iteration order; none when
    the folder does not exist (`listing` is None).
   */
  function AvailablePrompts(listing: Option<seq<string>>): (r: seq<PromptFile>)
    ensures listing.None? ==> r == []
    ensures listing.Some? ==> |r| == |Entries(listing.value)|
    ensures ByNumber(r)
  {
    match listing
    case None => []
    case Some(names) =>
      SortByNumberStable(Entries(names), 0);
      SortByNumber(Entries(names))
  }

  /**
    The available prompts are the folder's prompt files, each with the number and
    description its stem gives, ordered by number, ties in listing order.
   */
  lemma AvailablePromptsExact(listing: Option<seq<string>>, n: int)
    ensures var ps := AvailablePrompts(listing);
      && (listing.None? ==> ps == [])
      && ByNumber(ps)
      && (listing.Some? ==> multiset(ps) == multiset(Entries(listing.value)))
      && (listing.Some? ==> WithNumber(ps, n) == WithNumber(Entries(listing.value), n))
  {
    if listing.Some? {
      SortByNumberStable(Entries(listing.value), n);
      SortByNumberPerm(Entries(listing.value));
    }
  }

  /** The prompts the menu offers: those numbered above zero, in order. */
  function Numbered(ps: seq<PromptFile>): (r: seq<PromptFile>)
    ensures |r| <= |ps|
    ensures forall i :: 0 <= i < |r| ==> r[i].number > 0 && r[i] in ps
    ensures forall p :: p in ps && p.number > 0 ==> p in r
  {
    if ps == [] then []
    else
      assert forall p :: p in ps ==> p == ps[0] || p in ps[1..];
      Offered(ps[0]) + Numbered(ps[1..])
  }

  /** What one prompt contributes to the menu: itself when numbered above zero. */
  function Offered(p: PromptFile): (r: seq<PromptFile>)
    ensures r == [] || r == [p]
  {
    if p.number > 0 then [p] else []
  }

  /** The menu is what each available prompt contributes, in order. */
  lemma {:induction false} NumberedFlat(ps: seq<PromptFile>)
    ensures Numbered(ps) == FlatMap(ps, Offered)
  {
    if ps != [] {
      NumberedFlat(ps[1..]);
    }
  }

  /** Filtering a concatenation filters each part, in order. */
  lemma {:induction false} NumberedAppend(a: seq<PromptFile>, b: seq<PromptFile>)
    ensures Numbered(a + b) == Numbered(a) + Numbered(b)
  {
    NumberedFlat(a + b);
    NumberedFlat(a);
    NumberedFlat(b);
    FlatMapAppend(a, b, Offered);
  }

  /**
    The menu keeps the order of the available prompts: each prompt numbered above zero
    comes after the kept prompts before it and ahead of the kept prompts after it.
   */
  lemma {:induction false} NumberedAt(ps: seq<PromptFile>, i: nat)
    requires i < |ps|
    ensures Numbered(ps) == Numbered(ps[..i]) + Offered(ps[i]) + Numbered(ps[i + 1..])
  {
    FlatMapAt(ps, Offered, i);
    NumberedFlat(ps);
    NumberedFlat(ps[..i]);
    NumberedFlat(ps[i + 1..]);
  }

  /** `line.startswith('# ')`: a level-one Markdown header. */
  predicate IsHeader(line: string) {
    |line| >= 2 && line[0] == '#' && line[1] == ' '
  }

  /** `IsHeader` is `line.startswith('# ')`, written as a test of the first two characters. */
  lemma IsHeaderStartsWith(line: string)
    ensures IsHeader(line) <==> Text.StartsWith(line, "# ")
  {
    if |line| >= 2 {
      assert line[..2] == [line[0], line[1]];
    }
  }

  /** The index of the first line that starts with `# `, or the number of lines. */
  function HeaderLine(lines: seq<string>): (h: nat)
    ensures h <= |lines|
    ensures forall i :: 0 <= i < h ==> !IsHeader(lines[i])
    ensures h < |lines| ==> IsHeader(lines[h])
  {
    if lines == [] then 0
    else if IsHeader(lines[0]) then 0
    else 1 + HeaderLine(lines[1..])
  }

  /** The lines that are not blank (`line.strip()` is non-empty), in order. */
  function NonBlank(lines: seq<string>): (r: seq<string>)
    ensures |r| <= |lines|
  {
    if lines == [] then []
    else NonBlank(lines[..|lines| - 1]) + (if Text.Blank(lines[|lines| - 1]) then [] else [lines[|lines| - 1]])
  }

  /** A line is kept exactly when it is one of the lines and is not blank. */
  lemma {:induction false} NonBlankExact(lines: seq<string>)
    ensures forall x :: x in NonBlank(lines) <==> x in lines && !Text.Blank(x)
  {
    if lines != [] {
      var init, last := lines[..|lines| - 1], lines[|lines| - 1];
      NonBlankExact(init);
      assert lines == init + [last];
    }
  }

  /** The lines `load_prompt_content` keeps: the non-blank lines after the first header. */
  function BodyLines(content: string): seq<string> {
    var lines := Text.Split(content, '\n');
    var h := HeaderLine(lines);
    if h < |lines| then NonBlank(lines[h + 1..]) else []
  }

  /**
    The prompt a file holds: its kept lines joined by newlines and stripped, or, when
    none is kept, the whole content stripped.
   */
  function PromptBody(content: string): (r: string)
    ensures Text.Trimmed(r)
  {
    var kept := BodyLines(content);
    if kept != [] then Text.Strip(Text.Join(kept, "\n")) else Text.Strip(content)
  }

  /** `load_prompt_content`: the prompt a file holds, or the default when it cannot be read. */
  function LoadPrompt(content: Option<string>): (r: string)
    ensures r == DefaultPrompt <==> content.None?
  {
    assert DefaultPrompt[|DefaultPrompt| - 1] == ' ';
    assert !Text.Trimmed(DefaultPrompt);
    match content
    case None => DefaultPrompt
    case Some(c) => PromptBody(c)
  }

  /** Without a header line the whole content, stripped, is the prompt. */
  lemma PromptBodyNoHeader(content: string)
    requires forall i :: 0 <= i < |Text.Split(content, '\n')| ==> !IsHeader(Text.Split(content, '\n')[i])
    ensures PromptBody(content) == Text.Strip(content)
  {
  }

  /**
    A header followed only by blank lines is not dropped: the prompt is then the whole
    content, header line included, stripped.
   */
  lemma PromptBodyHeaderOnly(content: string)
    requires var lines := Text.Split(content, '\n');
      var h := HeaderLine(lines);
      h < |lines| && forall i :: h < i < |lines| ==> Text.Blank(lines[i])
    ensures PromptBody(content) == Text.Strip(content)
  {
    var lines := Text.Split(content, '\n');
    var h := HeaderLine(lines);
    var after := lines[h + 1..];
    forall i | 0 <= i < |after|
      ensures Text.Blank(after[i])
    {
      assert after[i] == lines[h + 1 + i];
    }
    NonBlankAllBlank(after);
    assert BodyLines(content) == [];
  }

  /** Only blank lines leave nothing to keep. */
  lemma {:induction false} NonBlankAllBlank(lines: seq<string>)
    requires forall i :: 0 <= i < |lines| ==> Text.Blank(lines[i])
    ensures NonBlank(lines) == []
  {
    if lines != [] {
      NonBlankAllBlank(lines[..|lines| - 1]);
    }
  }

  /** The loop of `load_prompt_content` over the lines, as written. */
  method ExtractPrompt(content: string) returns (prompt: string)
    ensures prompt == PromptBody(content)
  {
    var promptLines := KeepAfterHeader(Text.Split(content, '\n'));
    if promptLines != [] {
      prompt := Text.Strip(Text.Join(promptLines, "\n"));
    } else {
      prompt := Text.Strip(content);
    }
  }

  /**
    The line loop itself: it skips lines until the first header, then keeps every
    later line that is not blank, giving the lines `BodyLines` names.
   */
  method KeepAfterHeader(lines: seq<string>) returns (promptLines: seq<string>)
    ensures var h := HeaderLine(lines);
      promptLines == if h < |lines| then NonBlank(lines[h + 1..]) else []
  {
    var h := HeaderLine(lines);
    promptLines := [];
    var foundHeader := false;
    var i := 0;
    while i < |lines|
      invariant 0 <= i <= |lines|
      invariant foundHeader <==> h < i
      invariant promptLines == if foundHeader then NonBlank(lines[h + 1..i]) else []
    {
      var line := lines[i];
      if IsHeader(line) && !foundHeader {
        foundHeader := true;
        assert lines[h + 1..i + 1] == [];
      } else {
        if foundHeader {
          NonBlankSnoc(lines, h + 1, i);
        }
        if foundHeader && !Text.Blank(line) {
          promptLines := promptLines + [line];
        }
      }
      i := i + 1;
    }
    assert foundHeader ==> lines[h + 1..i] == lines[h + 1..];
  }

  /** Extending a window of lines by one line keeps that line exactly when it is not blank. */
  lemma NonBlankSnoc(lines: seq<string>, from: nat, i: nat)
    requires from <= i < |lines|
    ensures NonBlank(lines[from..i + 1]) == NonBlank(lines[from..i]) + (if Text.Blank(lines[i]) then [] else [lines[i]])
  {
    assert lines[from..i + 1][..i - from] == lines[from..i];
  }

  /** One answer at the menu. */
  datatype Input = Line(text: string) | Interrupt

  /** The outcome of `select_prompt`: the prompt text and whether splitting is switched on. */
  datatype Choice = Choice(prompt: string, autoSplit: bool)

  const DefaultChoice: Choice := Choice(DefaultPrompt, false)

  /** The first prompt numbered `n`. */
  function FindNumber(ps: seq<PromptFile>, n: int): (r: Option<PromptFile>)
    ensures r.Some? ==> r.value in ps && r.value.number == n
    ensures r.None? <==> forall i :: 0 <= i < |ps| ==> ps[i].number != n
  {
    if ps == [] then None
    else if ps[0].number == n then Some(ps[0])
    else FindNumber(ps[1..], n)
  }

  /** The search stops at the first prompt with the number: later ones are never chosen. */
  lemma {:induction false} FindNumberFirst(ps: seq<PromptFile>, n: int, i: nat)
    requires i < |ps| && ps[i].number == n
    requires forall j :: 0 <= j < i ==> ps[j].number != n
    ensures FindNumber(ps, n) == Some(ps[i])
  {
    if i > 0 {
      assert ps[0].number != n;
      assert forall j :: 0 <= j < i - 1 ==> ps[1..][j] == ps[j + 1];
      FindNumberFirst(ps[1..], n, i - 1);
    }
  }

  /**
    How one answer is taken; None asks again. Ctrl-C and an empty answer choose the
    default; an answer that is not a number, or a number no offered prompt has, asks
    again; otherwise the first prompt with that number is loaded, and splitting is on
    exactly when that number is 1.
   */
  function Answer(numbered: seq<PromptFile>, input: Input, load: string -> Option<string>): (d: Option<Choice>)
    ensures input.Interrupt? ==> d == Some(DefaultChoice)
    ensures input.Line? && Text.Strip(input.text) == "" ==> d == Some(DefaultChoice)
    ensures input.Line? && Text.Strip(input.text) != "" ==>
      && (d.Some? <==> exists n :: Decimal.ParseInt(Text.Strip(input.text)) == Some(n) && FindNumber(numbered, n).Some?)
      && (d.Some? ==> d.value.autoSplit == (Decimal.ParseInt(Text.Strip(input.text)) == Some(1)))
    ensures input.Line? && Text.Strip(input.text) != "" && d.Some? ==>
      var n := Decimal.ParseInt(Text.Strip(input.text)).value;
      FindNumber(numbered, n).Some? && d.value.prompt == LoadPrompt(load(FindNumber(numbered, n).value.file))
    ensures d.Some? && d.value.autoSplit ==>
      FindNumber(numbered, 1).Some? && d.value.prompt == LoadPrompt(load(FindNumber(numbered, 1).value.file))
  {
    match input
    case Interrupt => Some(DefaultChoice)
    case Line(text) =>
      var choice := Text.Strip(text);
      if choice == "" then Some(DefaultChoice)
      else match Decimal.ParseInt(choice)
        case None => None
        case Some(n) =>
          match FindNumber(numbered, n)
          case None => None
          case Some(p) => Some(Choice(LoadPrompt(load(p.file)), p.number == 1))
  }

  /** The `while True` loop: answers are taken until one decides. Running out of input aborts (None). */
  function Ask(numbered: seq<PromptFile>, inputs: seq<Input>, load: string -> Option<string>): (r: Option<Choice>)
    ensures r.Some? ==> exists j :: 0 <= j < |inputs| && Answer(numbered, inputs[j], load) == r
    decreases |inputs|
  {
    if inputs == [] then None
    else
      var d := Answer(numbered, inputs[0], load);
      if d.Some? then d
      else
        var r := Ask(numbered, inputs[1..], load);
        assert forall j :: 0 <= j < |inputs| - 1 ==> inputs[1..][j] == inputs[j + 1];
        r
  }

  /** The first deciding answer decides. */
  lemma {:induction false} AskFirstDecisive(numbered: seq<PromptFile>, inputs: seq<Input>, load: string -> Option<string>, k: nat)
    requires k < |inputs| && Answer(numbered, inputs[k], load).Some?
    requires forall j :: 0 <= j < k ==> Answer(numbered, inputs[j], load).None?
    ensures Ask(numbered, inputs, load) == Answer(numbered, inputs[k], load)
  {
    if k > 0 {
      assert Answer(numbered, inputs[0], load).None?;
      assert forall j :: 0 <= j < k - 1 ==> inputs[1..][j] == inputs[j + 1];
      AskFirstDecisive(numbered, inputs[1..], load, k - 1);
    }
  }

  /** Input runs out, and the selection aborts, exactly when no answer decides. */
  lemma {:induction false} AskAborts(numbered: seq<PromptFile>, inputs: seq<Input>, load: string -> Option<string>)
    ensures Ask(numbered, inputs, load).None? <==> forall j :: 0 <= j < |inputs| ==> Answer(numbered, inputs[j], load).None?
  {
    if inputs != [] {
      AskAborts(numbered, inputs[1..], load);
      assert forall j :: 1 <= j < |inputs| ==> inputs[j] == inputs[1..][j - 1];
    }
  }

  /** Splitting is switched on only by choosing the first prompt numbered 1, and its text is that prompt's. */
  lemma {:induction false} AskAutoSplit(numbered: seq<PromptFile>, inputs: seq<Input>, load: string -> Option<string>)
    ensures var r := Ask(numbered, inputs, load);
      r.Some? && r.value.autoSplit ==>
        FindNumber(numbered, 1).Some? && r.value.prompt == LoadPrompt(load(FindNumber(numbered, 1).value.file))
  {
    if inputs != [] {
      AskAutoSplit(numbered, inputs[1..], load);
    }
  }

  /**
    `select_prompt`: with no prompt file, or none numbered above zero, the default is used
    without asking; otherwise the menu of numbered prompts is asked.
   */
  function SelectPrompt(prompts: seq<PromptFile>, inputs: seq<Input>, load: string -> Option<string>): (r: Option<Choice>)
    ensures Numbered(prompts) == [] ==> r == Some(DefaultChoice)
    ensures r.Some? && r.value.autoSplit ==>
      FindNumber(Numbered(prompts), 1).Some? && r.value.prompt == LoadPrompt(load(FindNumber(Numbered(prompts), 1).value.file))
  {
    var numbered := Numbered(prompts);
    if prompts == [] || numbered == [] then Some(DefaultChoice)
    else
      AskAutoSplit(numbered, inputs, load);
      Ask(numbered, inputs, load)
  }

  /**
    With a numbered prompt the menu is asked: an empty first answer or Ctrl-C chooses the
    default, and the selection aborts exactly when no answer decides.
   */
  lemma SelectPromptAsks(prompts: seq<PromptFile>, inputs: seq<Input>, load: string -> Option<string>)
    requires Numbered(prompts) != []
    ensures var r := SelectPrompt(prompts, inputs, load);
      && (inputs != [] && (inputs[0].Interrupt? || Text.Strip(inputs[0].text) == "") ==> r == Some(DefaultChoice))
      && (r.None? <==> forall j :: 0 <= j < |inputs| ==> Answer(Numbered(prompts), inputs[j], load).None?)
  {
    AskAborts(Numbered(prompts), inputs, load);
  }

  /** With a numbered prompt, the first answer that decides is the selection. */
  lemma SelectPromptFirstDecisive(prompts: seq<PromptFile>, inputs: seq<Input>, load: string -> Option<string>, k: nat)
    requires Numbered(prompts) != []
    requires k < |inputs| && Answer(Numbered(prompts), inputs[k], load).Some?
    requires forall j :: 0 <= j < k ==> Answer(Numbered(prompts), inputs[j], load).None?
    ensures SelectPrompt(prompts, inputs, load) == Answer(Numbered(prompts), inputs[k], load)
  {
    AskFirstDecisive(Numbered(prompts), inputs, load, k);
  }

  /** A prompt numbered zero or below can never be chosen: asking for its number asks again. */
  lemma UnnumberedNotOffered(prompts: seq<PromptFile>, text: string, load: string -> Option<string>, n: int)
    requires Decimal.ParseInt(Text.Strip(text)) == Some(n) && n <= 0 && Text.Strip(text) != ""
    ensures Answer(Numbered(prompts), Line(text), load).None?
  {
    assert FindNumber(Numbered(prompts), n).None?;
  }

  /**
    Whether `main` splits recordings: prompt 1 switches splitting on without asking;
    otherwise the answer `y` or `yes` (stripped, lower-cased) does. Either way splitting
    needs pydub.
   */
  function SplitSegments(autoSplit: bool, pydub: bool, answer: string): (r: bool)
    ensures r ==> pydub
    ensures autoSplit ==> (r <==> pydub)
    ensures !autoSplit ==>
      (r <==> pydub && (Text.Lower(Text.Strip(answer)) == "y" || Text.Lower(Text.Strip(answer)) == "yes"))
  {
    var a := Text.Lower(Text.Strip(answer));
    var wanted := autoSplit || a == "y" || a == "yes";
    wanted && pydub
  }
}

=== FILE: audio_split.dfy ===
/**
  `split_audio_file`: cutting a recording into fixed-length segments. Durations are
  pydub lengths in milliseconds. Each segment is exported under a zero-padded name in a
  format derived from the original suffix.
 */
module AudioSplit {
  import opened Wrappers
  import Text
  import Decimal
  import AudioPaths

  /** `segment_minutes * 60 * 1000`. */
  function SegmentMs(minutes: int): int {
    minutes * 60000
  }

  /**
    The spans `range(start, length, step)` cuts: each starts at a multiple of `step`
    past `start` and ends at `min(start + step, length)`.
   */
  function Spans(start: nat, length: nat, step: nat): (r: seq<(nat, nat)>)
    requires step > 0
    decreases length - start
  {
    if start >= length then []
    else [(start, if start + step < length then start + step else length)] + Spans(start + step, length, step)
  }

  /**
    The spans tile `[start, length)`: the first starts at `start`, each ends where the
    next begins, the last ends at `length`; each is non-empty and at most `step` long,
    all but the last exactly `step`.
   */
  lemma {:induction false} SpansTile(start: nat, length: nat, step: nat)
    requires step > 0
    ensures var r := Spans(start, length, step);
      && (start >= length <==> r == [])
      && (r != [] ==> r[0].0 == start && r[|r| - 1].1 == length)
      && (forall i :: 0 <= i < |r| - 1 ==> r[i].1 == r[i + 1].0)
      && (forall i :: 0 <= i < |r| ==> r[i].0 < r[i].1 <= r[i].0 + step)
      && (forall i :: 0 <= i < |r| - 1 ==> r[i].1 == r[i].0 + step)
    decreases length - start
  {
    if start < length {
      var r := Spans(start, length, step);
      var more := Spans(start + step, length, step);
      SpansTile(start + step, length, step);
      assert r == [r[0]] + more;
    }
  }

  /** Span `i` starts at `start + i * step`, as `range(start, length, step)` yields. */
  lemma {:induction false} SpansStart(start: nat, length: nat, step: nat)
    requires step > 0
    ensures forall i :: 0 <= i < |Spans(start, length, step)| ==> Spans(start, length, step)[i].0 == start + i * step
    decreases length - start
  {
    if start < length {
      var r := Spans(start, length, step);
      var more := Spans(start + step, length, step);
      SpansStart(start + step, length, step);
      assert r == [r[0]] + more;
      forall i | 1 <= i < |r|
        ensures r[i].0 == start + i * step
      {
        var j := i - 1;
        assert r[i] == more[j];
        assert (j + 1) * step == j * step + step;
      }
    }
  }

  /** `ceil(total / step)`, by repeated subtraction. */
  function CeilDiv(total: nat, step: nat): (n: nat)
    requires step > 0
    ensures total == 0 <==> n == 0
    ensures total > step ==> n >= 2
    decreases total
  {
    if total == 0 then 0
    else if total <= step then 1
    else 1 + CeilDiv(total - step, step)
  }

  /** `CeilDiv` is the ceiling of the quotient: the least `n` with `n * step >= total`. */
  lemma {:induction false} CeilDivBounds(total: nat, step: nat)
    requires step > 0
    ensures total > 0 ==> (CeilDiv(total, step) - 1) * step < total <= CeilDiv(total, step) * step
    decreases total
  {
    if total > step {
      var m := CeilDiv(total - step, step);
      CeilDivBounds(total - step, step);
      MulSucc(m - 1, step);
      MulSucc(m, step);
    }
  }

  lemma MulSucc(m: int, step: int)
    ensures (m + 1) * step == m * step + step
  {
  }

  /** There are `ceil((length - start) / step)` spans. */
  lemma {:induction false} SpansCount(start: nat, length: nat, step: nat)
    requires step > 0 && start <= length
    ensures |Spans(start, length, step)| == CeilDiv(length - start, step)
    decreases length - start
  {
    if start < length && start + step < length {
      SpansCount(start + step, length, step);
    }
  }

  /** `f"segment_{i:02d}{suffix}"`. */
  function SegmentName(i: nat, suffix: string): string {
    "segment_" + Decimal.Pad2(i) + suffix
  }

  /** Distinct segment numbers give distinct file names. */
  lemma SegmentNameInjective(i: nat, j: nat, suffix: string)
    requires SegmentName(i, suffix) == SegmentName(j, suffix)
    ensures i == j
  {
    var a := SegmentName(i, suffix);
    var b := SegmentName(j, suffix);
    assert a[8..|a| - |suffix|] == Decimal.Pad2(i);
    assert b[8..|b| - |suffix|] == Decimal.Pad2(j);
    Decimal.ParsePad2(i);
    Decimal.ParsePad2(j);
  }

  /** `s.lstrip('.')`. */
  function LStripDots(s: string): (r: string)
    ensures |r| <= |s| && r == s[|s| - |r|..]
    ensures r == [] || r[0] != '.'
    ensures forall k :: 0 <= k < |s| - |r| ==> s[k] == '.'
  {
    if s != [] && s[0] == '.' then
      var r := LStripDots(s[1..]);
      assert forall k :: 1 <= k < |s| ==> s[k] == s[1..][k - 1];
      r
    else s
  }

  /** The ffmpeg format a segment is exported in: the lower-cased extension, with m4a as mp4. */
  function ExportFormat(suffix: string): string {
    var ext := Text.Lower(LStripDots(suffix));
    if ext == "m4a" then "mp4" else ext
  }

  /**
    A dot and a lower-case extension export as that extension, except `m4a`, which
    exports as `mp4`; this covers every entry of the format table.
   */
  lemma ExportFormatPlain(ext: string)
    requires ext == [] || ext[0] != '.'
    requires forall k :: 0 <= k < |ext| ==> !Text.IsUpper(ext[k])
    ensures ExportFormat("." + ext) == (if ext == "m4a" then "mp4" else ext)
  {
    assert ("." + ext)[1..] == ext;
    assert Text.Lower(ext) == ext;
  }

  /** An upper-case extension exports in the same format as its lower-case form. */
  lemma ExportFormatIgnoresCase(suffix: string)
    ensures ExportFormat(suffix) == ExportFormat(Text.Lower(suffix))
  {
    var stripped := LStripDots(suffix);
    LStripDotsLower(suffix);
    Text.LowerIdempotent(stripped);
    assert Text.Lower(LStripDots(Text.Lower(suffix))) == Text.Lower(stripped);
  }

  lemma {:induction false} LStripDotsLower(s: string)
    ensures Text.Lower(LStripDots(s)) == LStripDots(Text.Lower(s))
    decreases |s|
  {
    if s != [] {
      assert Text.Lower(s)[1..] == Text.Lower(s[1..]);
      if s[0] == '.' {
        LStripDotsLower(s[1..]);
      }
    }
  }

  /** One exported segment: its file name, its span in milliseconds and its export format. */
  datatype Chunk = Chunk(name: string, start: nat, end: nat, format: string)

  /** The original file is kept whole, or these segments replace it. */
  datatype Split = Original | Segments(chunks: seq<Chunk>)

  /**
    The segments of a recording of `length` ms, numbered from 1, each named after its
    number and `suffix` and exported in `format`.
   */
  function Chunks(length: nat, step: nat, suffix: string, format: string): (c: seq<Chunk>)
    requires step > 0
    ensures |c| == |Spans(0, length, step)|
  {
    var spans := Spans(0, length, step);
    seq(|spans|, i requires 0 <= i < |spans| =>
      Chunk(SegmentName(i + 1, suffix), spans[i].0, spans[i].1, format))
  }

  /**
    `split_audio_file` for a file called `name`. The original is kept whole when pydub
    or ffmpeg is unavailable (`tools` false), when decoding fails (`duration` None), when
    the recording is no longer than one segment, and when the segment length is zero
    (`range` raises). A negative segment length yields no segment at all.
   */
  function SplitAudio(tools: bool, duration: Option<nat>, minutes: int, name: string): (r: Split)
    ensures !tools || duration.None? ==> r == Original
    ensures r.Segments? ==> tools && duration.Some? && duration.value > SegmentMs(minutes) && minutes != 0
    ensures r.Segments? && r.chunks != [] ==> minutes > 0
  {
    var ms := SegmentMs(minutes);
    if !tools || duration.None? then Original
    else if duration.value <= ms then Original
    else if ms == 0 then Original
    else if ms < 0 then Segments([])
    else
      var suffix := AudioPaths.Suffix(name);
      Segments(Chunks(duration.value, ms, suffix, ExportFormat(suffix)))
  }

  /** The outcomes as the segment length and the recording decide them. */
  lemma SplitAudioCases(tools: bool, duration: Option<nat>, minutes: int, name: string)
    ensures var r := SplitAudio(tools, duration, minutes, name);
      && (r == Original <==> !tools || duration.None? || duration.value <= SegmentMs(minutes) || minutes == 0)
      && (r == Segments([]) <==> tools && duration.Some? && minutes < 0)
  {
    var r := SplitAudio(tools, duration, minutes, name);
    if tools && duration.Some? && minutes > 0 && duration.value > SegmentMs(minutes) {
      SpansTile(0, duration.value, SegmentMs(minutes));
    }
  }

  /**
    The segments tile the recording from 0 to its length: each ends where the next
    begins, each lasts exactly one step except the last, which is no longer.
   */
  predicate Tiles(c: seq<Chunk>, length: nat, step: nat) {
    && c != [] && c[0].start == 0 && c[|c| - 1].end == length
    && (forall i :: 0 <= i < |c| - 1 ==> c[i].end == c[i + 1].start)
    && (forall i :: 0 <= i < |c| - 1 ==> c[i].end - c[i].start == step)
    && (forall i :: 0 <= i < |c| ==> 0 < c[i].end - c[i].start <= step)
  }

  /** Segment `i` is named `segment_<i, two digits><suffix>` and exported in `format`. */
  predicate Named(c: seq<Chunk>, suffix: string, format: string) {
    forall i :: 0 <= i < |c| ==> c[i].name == SegmentName(i + 1, suffix) && c[i].format == format
  }

  /** A recording longer than one step is cut into `ceil(length / step)` tiling segments. */
  lemma ChunksTile(length: nat, step: nat, suffix: string, format: string)
    requires step > 0 && length > step
    ensures var c := Chunks(length, step, suffix, format);
      |c| == CeilDiv(length, step) >= 2 && Tiles(c, length, step)
  {
    SpansCount(0, length, step);
    ChunksSpans(length, step, suffix, format);
    SpansTile(0, length, step);
  }

  /** Segment `i` covers span `i`. */
  lemma ChunksSpans(length: nat, step: nat, suffix: string, format: string)
    requires step > 0
    ensures var c := Chunks(length, step, suffix, format);
      var spans := Spans(0, length, step);
      forall i :: 0 <= i < |c| ==> c[i].start == spans[i].0 && c[i].end == spans[i].1
  {
  }

  lemma ChunksNamed(length: nat, step: nat, suffix: string, format: string)
    requires step > 0
    ensures Named(Chunks(length, step, suffix, format), suffix, format)
  {
  }

  /**
    A split recording is cut into `ceil(length / segment)` segments, at least two, that
    tile it from 0 to its length; each lasts exactly one segment except the last, which
    is no longer; segment `i` is named `segment_<i, two digits><suffix>` and exported in
    the suffix's format.
   */
  lemma SplitAudioSegments(duration: nat, minutes: int, name: string)
    requires minutes > 0 && duration > SegmentMs(minutes)
    ensures var r := SplitAudio(true, Some(duration), minutes, name);
      && r.Segments?
      && |r.chunks| == CeilDiv(duration, SegmentMs(minutes)) >= 2
      && Tiles(r.chunks, duration, SegmentMs(minutes))
      && Named(r.chunks, AudioPaths.Suffix(name), ExportFormat(AudioPaths.Suffix(name)))
  {
    var ms := SegmentMs(minutes);
    var suffix := AudioPaths.Suffix(name);
    var format := ExportFormat(suffix);
    var c := Chunks(duration, ms, suffix, format);
    assert SplitAudio(true, Some(duration), minutes, name) == Segments(c);
    ChunksTile(duration, ms, suffix, format);
    ChunksNamed(duration, ms, suffix, format);
  }
}

=== FILE: audio_transcribe.dfy ===
/**
  The audio transcriber's per-file work: one `generate_content` call per file or per
  segment, the segment transcripts combined into one text, the transcription file
  written for it, and the run's success and failure counters.
 */
module AudioTranscribe {
  import opened Wrappers
  import opened Service
  import Text
  import Decimal
  import AudioPaths
  import AudioSplit

  /**
    A file as `prepare_audio_for_api` sees it: its name and whether reading it gave any
    bytes. An unreadable file and an empty one both give none.
   */
  datatype Clip = Clip(name: string, hasBytes: bool)

  /**
    `response.text.strip()`: None when the call raised, when there is no candidate, or
    when the candidate has no parts (`response.text` is None and `strip` raises);
    otherwise the stripped concatenation of the parts.
   */
  function ReplyText(r: Response): (t: Option<string>)
    ensures t.Some? <==> r.Candidate? && r.parts != []
    ensures t.Some? ==> Text.Trimmed(t.value) && (t.value == "" <==> Text.Blank(Text.Concat(r.parts)))
  {
    match r
    case Candidate(parts, _) => if parts == [] then None else Some(Text.Strip(Text.Concat(parts)))
    case _ => None
  }

  /**
    `transcribe_audio`: a file without bytes or without a known MIME type is answered
    with None and no call; otherwise one inline request with the prompt, read as
    `ReplyText`.
   */
  function Transcribe(prompt: string, clip: Clip, s: Script): (r: Step<Option<string>>)
    ensures !clip.hasBytes || !AudioPaths.IsAudio(clip.name) ==> r == Step(None, s, [])
    ensures clip.hasBytes && AudioPaths.IsAudio(clip.name) ==>
      && r.value == ReplyText(ReplyAt(s, 0))
      && r.rest == DropReplies(s, 1)
      && r.log == [Generate(InlinePart, prompt)]
    ensures r.value.Some? ==> Text.Trimmed(r.value.value)
  {
    if !clip.hasBytes || AudioPaths.MimeType(clip.name).None? then Step(None, s, [])
    else
      var (reply, rest) := NextReply(s);
      Step(ReplyText(reply), rest, [Generate(InlinePart, prompt)])
  }

  function TranscribeStep(prompt: string): (Clip, Script) -> Step<Option<string>> {
    (clip: Clip, t: Script) => Transcribe(prompt, clip, t)
  }

  /** A segment counts as transcribed when its text is non-empty (`if seg_transcription`). */
  predicate Succeeded(t: Option<string>) {
    t.Some? && t.value != ""
  }

  /** `f"[Segment {idx}]"`. */
  function SegmentLabel(idx: nat): string {
    "[Segment " + Decimal.NatToString(idx) + "]"
  }

  const FailedTail: string := " TRANSCRIPTION FAILED"

  /**
    What segment `idx` of `count` contributes before joining: a transcribed segment is
    its text between newlines, labelled only when there is more than one segment; a
    failed one is its label and the failure notice.
   */
  function SegmentPart(idx: nat, count: nat, t: Option<string>): string {
    if Succeeded(t) then (if count > 1 then SegmentLabel(idx) else "") + "\n" + t.value + "\n"
    else SegmentLabel(idx) + FailedTail
  }

  /**
    A transcribed segment's part ends with its text between newlines and is only that
    when it is the one segment; a failed segment's part, and any part among several,
    opens with the segment's label; a failed one ends with the failure notice.
   */
  lemma SegmentPartShape(idx: nat, count: nat, t: Option<string>)
    ensures var p := SegmentPart(idx, count, t);
      && (Succeeded(t) ==> Text.EndsWith(p, "\n" + t.value + "\n"))
      && (Succeeded(t) && count <= 1 ==> p == "\n" + t.value + "\n")
      && (!Succeeded(t) || count > 1 ==> Text.StartsWith(p, SegmentLabel(idx)))
      && (!Succeeded(t) ==> Text.EndsWith(p, FailedTail))
      && (!Succeeded(t) ==> |p| == |SegmentLabel(idx)| + |FailedTail|)
      && (Succeeded(t) && count > 1 ==> |p| == |SegmentLabel(idx)| + |t.value| + 2)
  {
    var p, tag := SegmentPart(idx, count, t), SegmentLabel(idx);
    if Succeeded(t) {
      var lead := if count > 1 then tag else "";
      assert p == lead + "\n" + t.value + "\n";
      assert p[|p| - |"\n" + t.value + "\n"|..] == "\n" + t.value + "\n";
      assert p[..|lead|] == lead;
    } else {
      assert p[..|tag|] == tag && p[|p| - |FailedTail|..] == FailedTail;
    }
  }

  function Parts(ts: seq<Option<string>>): (p: seq<string>)
    ensures |p| == |ts|
  {
    seq(|ts|, i requires 0 <= i < |ts| => SegmentPart(i + 1, |ts|, ts[i]))
  }

  /** `"\n".join(combined_transcription_parts).strip()`: no white space at either end. */
  function Combine(ts: seq<Option<string>>): (r: string)
    ensures Text.Trimmed(r)
    ensures ts == [] ==> r == ""
  {
    Text.Strip(Text.Join(Parts(ts), "\n"))
  }

  /** The segment files are removed when there was more than one and every one succeeded. */
  predicate CleansUp(ts: seq<Option<string>>) {
    |ts| > 1 && forall i :: 0 <= i < |ts| ==> Succeeded(ts[i])
  }

  /** Where part `i` starts in the joined text. */
  function JoinOffset(parts: seq<string>, sep: string, i: nat): nat
    requires i < |parts|
  {
    if i == 0 then 0 else |parts[0]| + |sep| + JoinOffset(parts[1..], sep, i - 1)
  }

  /** Every part occurs in the joined text, at its offset. */
  lemma {:induction false} JoinOccurs(parts: seq<string>, sep: string, i: nat)
    requires i < |parts|
    ensures Text.OccursAt(Text.Join(parts, sep), parts[i], JoinOffset(parts, sep, i))
    decreases i
  {
    var j := Text.Join(parts, sep);
    if |parts| > 1 {
      assert j == parts[0] + sep + Text.Join(parts[1..], sep);
      if i == 0 {
        assert j[..|parts[0]|] == parts[0];
      } else {
        var rest := Text.Join(parts[1..], sep);
        JoinOccurs(parts[1..], sep, i - 1);
        var k := JoinOffset(parts[1..], sep, i - 1);
        var n := |parts[0]| + |sep|;
        assert j[n + k..n + k + |parts[i]|] == rest[k..k + |parts[i]|];
      }
    }
  }

  /** A piece of `s` that neither starts nor ends with white space survives stripping. */
  lemma StripKeepsInner(s: string, sub: string, k: int)
    requires Text.OccursAt(s, sub, k)
    requires sub != [] && !Text.IsSpace(sub[0]) && !Text.IsSpace(sub[|sub| - 1])
    ensures Text.OccursAt(Text.Strip(s), sub, k - Text.StripStart(s))
  {
    Text.StripSlice(s);
    Text.StripCutsSpace(s);
    WindowKeepsInner(s, Text.Strip(s), Text.StripStart(s), sub, k);
  }

  /** The same for any window of `s` outside which there is only white space. */
  lemma WindowKeepsInner(s: string, r: string, st: nat, sub: string, k: int)
    requires st + |r| <= |s| && r == s[st..st + |r|]
    requires forall i :: 0 <= i < st ==> Text.IsSpace(s[i])
    requires forall i :: st + |r| <= i < |s| ==> Text.IsSpace(s[i])
    requires Text.OccursAt(s, sub, k)
    requires sub != [] && !Text.IsSpace(sub[0]) && !Text.IsSpace(sub[|sub| - 1])
    ensures Text.OccursAt(r, sub, k - st)
  {
    assert s[k] == sub[0];
    assert s[k + |sub| - 1] == sub[|sub| - 1];
    assert st <= k && k + |sub| <= st + |r|;
    forall m | 0 <= m < |sub|
      ensures r[k - st + m] == sub[m]
    {
      assert r[k - st + m] == s[k + m];
    }
  }

  /** An occurrence inside an occurrence. */
  lemma OccursWithin(s: string, part: string, sub: string, i: int, j: int)
    requires Text.OccursAt(s, part, i) && Text.OccursAt(part, sub, j)
    ensures Text.OccursAt(s, sub, i + j)
  {
    forall k | 0 <= k < |sub|
      ensures s[i + j + k] == sub[k]
    {
      assert sub[k] == part[j + k];
      assert part[j + k] == s[i..i + |part|][j + k];
    }
  }

  /**
    A piece of segment `i`'s part that neither starts nor ends with white space is in
    the combined text.
   */
  lemma PieceCombined(ts: seq<Option<string>>, i: nat, sub: string, j: int)
    requires i < |ts| && Text.OccursAt(Parts(ts)[i], sub, j)
    requires sub != [] && !Text.IsSpace(sub[0]) && !Text.IsSpace(sub[|sub| - 1])
    ensures Text.Contains(Combine(ts), sub)
  {
    PieceJoined(Parts(ts), "\n", i, sub, j);
  }

  /** The same for any part of any joined text. */
  lemma PieceJoined(parts: seq<string>, sep: string, i: nat, sub: string, j: int)
    requires i < |parts| && Text.OccursAt(parts[i], sub, j)
    requires sub != [] && !Text.IsSpace(sub[0]) && !Text.IsSpace(sub[|sub| - 1])
    ensures Text.Contains(Text.Strip(Text.Join(parts, sep)), sub)
  {
    var joined := Text.Join(parts, sep);
    var at := JoinOffset(parts, sep, i);
    JoinOccurs(parts, sep, i);
    OccursWithin(joined, parts[i], sub, at, j);
    StripKeepsInner(joined, sub, at + j);
    Text.ContainsOccurs(Text.Strip(joined), sub);
  }

  /** A failed segment leaves its label and the failure notice in the combined text. */
  lemma FailureReported(ts: seq<Option<string>>, i: nat)
    requires i < |ts| && !Succeeded(ts[i])
    ensures Text.Contains(Combine(ts), SegmentLabel(i + 1) + FailedTail)
  {
    var sub := SegmentLabel(i + 1) + FailedTail;
    assert sub[0] == '[';
    assert sub[|sub| - 1] == FailedTail[|FailedTail| - 1] == 'D';
    assert Text.OccursAt(Parts(ts)[i], sub, 0);
    PieceCombined(ts, i, sub, 0);
  }

  /**
    Among several segments, a transcribed one leaves its label, a newline and its
    stripped text in the combined text.
   */
  lemma SuccessReported(ts: seq<Option<string>>, i: nat)
    requires i < |ts| && |ts| > 1 && Succeeded(ts[i]) && Text.Trimmed(ts[i].value)
    ensures Text.Contains(Combine(ts), SegmentLabel(i + 1) + "\n" + ts[i].value)
  {
    var t := ts[i].value;
    var sub := SegmentLabel(i + 1) + "\n" + t;
    var part := Parts(ts)[i];
    assert part == sub + "\n";
    assert sub[0] == '[';
    assert sub[|sub| - 1] == t[|t| - 1];
    assert part[..|sub|] == sub;
    PieceCombined(ts, i, sub, 0);
  }

  /** A lone segment's stripped, non-empty transcript is the whole combined text, unlabelled. */
  lemma CombineSingle(t: string)
    requires t != "" && Text.Trimmed(t)
    ensures Combine([Some(t)]) == t
  {
    var part := "\n" + t + "\n";
    assert "" + "\n" == "\n";
    assert SegmentPart(1, 1, Some(t)) == part;
    assert Parts([Some(t)])[0] == part;
    assert Parts([Some(t)]) == [part];
    assert Text.Join([part], "\n") == part;
    var u := t + "\n";
    assert part[0] == '\n' && part[1..] == u;
    assert Text.Strip(part) == Text.Strip(u);
    assert u[0] == t[0] && u[|u| - 1] == '\n' && u[..|u| - 1] == t;
    assert Text.Strip(u) == Text.Strip(t);
    Text.StripTrimmed(t);
  }

  /**
    With stripped transcripts, the combined text is empty exactly when there are no
    segments: every segment leaves either its text or its label behind.
   */
  lemma CombineEmpty(ts: seq<Option<string>>)
    requires forall i :: 0 <= i < |ts| && ts[i].Some? ==> Text.Trimmed(ts[i].value)
    ensures Combine(ts) == "" <==> ts == []
  {
    if ts != [] {
      if !Succeeded(ts[0]) {
        FailureReported(ts, 0);
        Text.ContainsOccurs(Combine(ts), SegmentLabel(1) + FailedTail);
      } else if |ts| > 1 {
        SuccessReported(ts, 0);
        Text.ContainsOccurs(Combine(ts), SegmentLabel(1) + "\n" + ts[0].value);
      } else {
        assert ts == [Some(ts[0].value)];
        CombineSingle(ts[0].value);
      }
    } else {
      assert Parts(ts) == [];
    }
  }

  /**
    What the folder holds under a name: whether reading it gives any bytes, its length
    in ms as pydub decodes it (None when decoding fails), and whether writing its
    transcription file succeeds.
   */
  datatype Recording = Recording(hasBytes: bool, duration: Option<nat>, saves: bool)

  /**
    The run's choices: the prompt (`custom_prompt or` the default, already resolved), the
    model named in the file header, whether to split, whether pydub and ffmpeg are
    available, and the segment length in minutes.
   */
  datatype Settings = Settings(prompt: string, model: string, split: bool, tools: bool, minutes: int)

  /** The clips a file is transcribed from when splitting: the file itself, or its segments. */
  function Clips(name: string, rec: Recording, split: AudioSplit.Split): (c: seq<Clip>)
    ensures split.Segments? ==> |c| == |split.chunks|
  {
    match split
    case Original => [Clip(name, rec.hasBytes)]
    case Segments(chunks) => seq(|chunks|, i requires 0 <= i < |chunks| => Clip(chunks[i].name, true))
  }

  /**
    One file's outcome: the transcription (None when the call failed), the transcription
    file written (None when there was nothing to write or writing failed), and whether
    the segment files were removed.
   */
  datatype FileResult = FileResult(transcription: Option<string>, written: Option<string>, cleanedUp: bool)

  /** A file counts as successful when its transcription file was written. */
  predicate Successful(r: FileResult) {
    r.written.Some?
  }

  /** A non-empty transcription is saved; the file read back gives the transcription. */
  function Outcome(settings: Settings, name: string, rec: Recording, t: Option<string>, cleaned: bool): (o: FileResult)
    ensures o.transcription == t && o.cleanedUp == cleaned
    ensures o.written.Some? <==> t.Some? && t.value != "" && rec.saves
    ensures o.written.Some? ==> AudioPaths.TranscriptText(o.written.value, name, settings.model) == t
  {
    if t.Some? && t.value != "" && rec.saves then
      FileResult(t, Some(AudioPaths.TranscriptFile(name, settings.model, t.value)), cleaned)
    else FileResult(t, None, cleaned)
  }

  /**
    The body of the per-file loop in `transcribe_all_audio_files`: without splitting, one
    call for the file; with splitting, one call per clip and the combined text, the
    segments removed when there were several and all were transcribed. A non-empty
    transcription is saved.
   */
  function ProcessFile(settings: Settings, name: string, rec: Recording, s: Script): (r: Step<FileResult>)
    ensures r.value.written.Some? ==> r.value.transcription.Some? && r.value.transcription.value != "" && rec.saves
    ensures r.value.written.Some? ==>
      AudioPaths.TranscriptText(r.value.written.value, name, settings.model) == r.value.transcription
    ensures r.value.cleanedUp ==> settings.split
  {
    if !settings.split then
      var t := Transcribe(settings.prompt, Clip(name, rec.hasBytes), s);
      Step(Outcome(settings, name, rec, t.value, false), t.rest, t.log)
    else
      var clips := Clips(name, rec, AudioSplit.SplitAudio(settings.tools, rec.duration, settings.minutes, name));
      var e := Each(TranscribeStep(settings.prompt), clips, s);
      Step(Outcome(settings, name, rec, Some(Combine(e.value)), CleansUp(e.value)), e.rest, e.log)
  }

  /**
    Without splitting, a file is successful exactly when it has bytes and a supported
    suffix, the reply has parts whose text is not blank, and saving succeeds; the file
    written holds the stripped reply. At most one call is made.
   */
  lemma ProcessFileDirect(settings: Settings, name: string, rec: Recording, s: Script)
    requires !settings.split
    ensures var r := ProcessFile(settings, name, rec, s);
      var reply := ReplyAt(s, 0);
      && (Successful(r.value) <==>
            && rec.hasBytes && AudioPaths.IsAudio(name) && rec.saves
            && reply.Candidate? && reply.parts != [] && !Text.Blank(Text.Concat(reply.parts)))
      && (Successful(r.value) ==> r.value.transcription == Some(Text.Strip(Text.Concat(reply.parts))))
      && |r.log| <= 1
      && !r.value.cleanedUp
  {
  }

  /** Every transcript `Transcribe` returns is stripped. */
  lemma TranscriptsTrimmed(prompt: string, clips: seq<Clip>, s: Script)
    ensures var ts := Each(TranscribeStep(prompt), clips, s).value;
      forall i :: 0 <= i < |ts| && ts[i].Some? ==> Text.Trimmed(ts[i].value)
  {
    var p := (c: Clip, t: Option<string>) => t.Some? ==> Text.Trimmed(t.value);
    EachKeeps(TranscribeStep(prompt), p, clips, s);
  }

  /** The combined transcripts of some clips are empty exactly when there are no clips. */
  lemma CombineTranscripts(prompt: string, clips: seq<Clip>, s: Script)
    ensures Combine(Each(TranscribeStep(prompt), clips, s).value) == "" <==> clips == []
  {
    var ts := Each(TranscribeStep(prompt), clips, s).value;
    TranscriptsTrimmed(prompt, clips, s);
    CombineEmpty(ts);
  }

  /**
    With splitting, a file cut into no segment (a negative segment length) fails; any
    other file has a non-empty combined text, so it is successful exactly when saving
    succeeds, even when every one of its segments failed.
   */
  lemma ProcessFileSplit(settings: Settings, name: string, rec: Recording, s: Script)
    requires settings.split
    ensures var r := ProcessFile(settings, name, rec, s);
      var split := AudioSplit.SplitAudio(settings.tools, rec.duration, settings.minutes, name);
      && (split == AudioSplit.Segments([]) ==> !Successful(r.value))
      && (split != AudioSplit.Segments([]) ==> (Successful(r.value) <==> rec.saves))
  {
    var split := AudioSplit.SplitAudio(settings.tools, rec.duration, settings.minutes, name);
    var clips := Clips(name, rec, split);
    var ts := Each(TranscribeStep(settings.prompt), clips, s).value;
    assert ProcessFile(settings, name, rec, s).value == Outcome(settings, name, rec, Some(Combine(ts)), CleansUp(ts));
    CombineTranscripts(settings.prompt, clips, s);
    assert split == AudioSplit.Segments([]) <==> clips == [];
  }

  /**
    A file that is not cut up reads the same with or without splitting when its one call
    succeeds: the lone transcript is the whole combined text, with no label.
   */
  lemma ProcessFileUnsplit(settings: Settings, name: string, rec: Recording, s: Script)
    requires settings.split
    requires AudioSplit.SplitAudio(settings.tools, rec.duration, settings.minutes, name) == AudioSplit.Original
    requires Succeeded(Transcribe(settings.prompt, Clip(name, rec.hasBytes), s).value)
    ensures ProcessFile(settings, name, rec, s) == ProcessFile(settings.(split := false), name, rec, s)
  {
    var c := Clip(name, rec.hasBytes);
    var t := Transcribe(settings.prompt, c, s);
    assert Clips(name, rec, AudioSplit.Original) == [c];
    assert [c][1..] == [];
    assert TranscribeStep(settings.prompt)(c, s) == t;
    assert [t.value] + [] == [t.value];
    assert Each(TranscribeStep(settings.prompt), [], t.rest) == Step([], t.rest, []);
    assert Each(TranscribeStep(settings.prompt), [c], s) == Step([t.value], t.rest, t.log + []);
    assert t.log + [] == t.log;
    assert [t.value] == [Some(t.value.value)];
    CombineSingle(t.value.value);
  }

  /** The number of successful results. */
  function CountSuccessful(results: seq<FileResult>): (n: nat)
    ensures n <= |results|
  {
    if results == [] then 0
    else CountSuccessful(results[..|results| - 1]) + (if Successful(results[|results| - 1]) then 1 else 0)
  }

  /** Every file succeeded exactly when the count reaches the number of files; none did when it is zero. */
  lemma {:induction false} CountSuccessfulBounds(results: seq<FileResult>)
    ensures CountSuccessful(results) == |results| <==> forall i :: 0 <= i < |results| ==> Successful(results[i])
    ensures CountSuccessful(results) == 0 <==> forall i :: 0 <= i < |results| ==> !Successful(results[i])
    decreases |results|
  {
    if results != [] {
      var init := results[..|results| - 1];
      CountSuccessfulBounds(init);
      assert forall i :: 0 <= i < |init| ==> init[i] == results[i];
    }
  }

  /** The counters `transcribe_all_audio_files` prints. */
  datatype Summary = Summary(total: nat, successful: nat, failed: nat)

  function FileStep(settings: Settings, disk: string -> Recording): (string, Script) -> Step<FileResult> {
    (name: string, t: Script) => ProcessFile(settings, name, disk(name), t)
  }

  /** The file loop for any per-file step: counts each file as successful or failed. */
  method CountFiles(step: (string, Script) -> Step<FileResult>, files: seq<string>, s: Script)
    returns (successful: nat, failed: nat, rest: Script, log: seq<Event>)
    ensures var p := Each(step, files, s);
      && successful == CountSuccessful(p.value)
      && successful + failed == |files|
      && rest == p.rest && log == p.log
  {
    var results: seq<FileResult> := [];
    successful, failed := 0, 0;
    rest, log := s, [];
    var i := 0;
    while i < |files|
      invariant 0 <= i <= |files|
      invariant Each(step, files[..i], s) == Step(results, rest, log)
      invariant successful == CountSuccessful(results) && successful + failed == i
    {
      var r := step(files[i], rest);
      EachPrefix(step, files, i, s);
      assert (results + [r.value])[..|results|] == results;
      if Successful(r.value) {
        successful := successful + 1;
      } else {
        failed := failed + 1;
      }
      results := results + [r.value];
      rest, log := r.rest, log + r.log;
      i := i + 1;
    }
    assert files[..i] == files;
  }

  /**
    `transcribe_all_audio_files`: with no supported file in the folder nothing is called
    and no summary is printed; otherwise the files are processed in sorted order and
    every file is counted once, as successful when its transcription file was written.
   */
  method TranscribeAll(settings: Settings, folder: Option<seq<string>>, disk: string -> Recording, s: Script)
    returns (summary: Option<Summary>, rest: Script, log: seq<Event>)
    ensures var files := AudioPaths.AudioFiles(folder);
      && (summary.None? <==> files == [])
      && (summary.None? ==> rest == s && log == [])
      && (summary.Some? ==>
            var p := Each(FileStep(settings, disk), files, s);
            && summary.value.total == |files|
            && summary.value.successful + summary.value.failed == |files|
            && summary.value.successful == CountSuccessful(p.value)
            && rest == p.rest && log == p.log)
  {
    var files := AudioPaths.AudioFiles(folder);
    if files == [] {
      return None, s, [];
    }
    var successful, failed;
    successful, failed, rest, log := CountFiles(FileStep(settings, disk), files, s);
    summary := Some(Summary(|files|, successful, failed));
  }
}

=== FILE: decimal.dfy ===
/**
  Decimal numerals: Python's `str(n)` and `f"{n:02d}"` for naturals, and `int(s)`
  restricted to an optionally signed run of ASCII digits with white space around it.
 */
module Decimal {
  import opened Wrappers
  import Text

  predicate IsDigit(c: char) { '0' <= c <= '9' }

  predicate AllDigits(s: string) {
    forall i :: 0 <= i < |s| ==> IsDigit(s[i])
  }

  function DigitChar(d: nat): (c: char)
    requires d < 10
    ensures IsDigit(c) && c as int - '0' as int == d
  {
    ('0' as int + d) as char
  }

  function DigitValue(c: char): nat
    requires IsDigit(c)
  {
    c as int - '0' as int
  }

  /** The value of a run of digits read most-significant first. */
  function DigitsValue(s: string): nat
    requires AllDigits(s)
  {
    if |s| == 0 then 0 else 10 * DigitsValue(s[..|s| - 1]) + DigitValue(s[|s| - 1])
  }

  /** `str(n)`: the shortest decimal numeral of `n`. */
  function NatToString(n: nat): (r: string)
    ensures 1 <= |r| && AllDigits(r)
    ensures |r| > 1 ==> r[0] != '0'
    ensures n < 10 <==> |r| == 1
  {
    if n < 10 then [DigitChar(n)] else NatToString(n / 10) + [DigitChar(n % 10)]
  }

  /** Reading back the numeral of `n` gives `n`. */
  lemma {:induction false} NatToStringValue(n: nat)
    ensures DigitsValue(NatToString(n)) == n
  {
    if n >= 10 {
      var r := NatToString(n);
      assert r[..|r| - 1] == NatToString(n / 10);
      NatToStringValue(n / 10);
    }
  }

  /** Distinct naturals have distinct numerals. */
  lemma NatToStringInjective(m: nat, n: nat)
    requires NatToString(m) == NatToString(n)
    ensures m == n
  {
    NatToStringValue(m);
    NatToStringValue(n);
  }

  /** `f"{n:02d}"`: the numeral of `n`, left-padded with one zero when it has a single digit. */
  function Pad2(n: nat): (r: string)
    ensures |r| >= 2 && AllDigits(r)
    ensures n < 10 ==> r == ['0', DigitChar(n)]
    ensures n >= 10 ==> r == NatToString(n)
  {
    var d := NatToString(n);
    if |d| < 2 then "0" + d else d
  }

  /** Leading zeros do not change the value of a digit run. */
  lemma {:induction false} LeadingZeroValue(s: string)
    requires AllDigits(s)
    ensures DigitsValue("0" + s) == DigitsValue(s)
    decreases |s|
  {
    if |s| > 0 {
      assert ("0" + s)[..|"0" + s| - 1] == "0" + s[..|s| - 1];
      LeadingZeroValue(s[..|s| - 1]);
    }
  }

  /** Reading back a padded numeral gives the number. */
  lemma Pad2Value(n: nat)
    ensures DigitsValue(Pad2(n)) == n
  {
    NatToStringValue(n);
    if n < 10 {
      LeadingZeroValue(NatToString(n));
    }
  }

  /**
    `int(s)`: after stripping white space, an optional `+` or `-` followed by one or
    more digits; anything else is Python's ValueError, here None.
   */
  function ParseInt(s: string): (r: Option<int>)
    ensures r.Some? ==> var t := Text.Strip(s); |t| > 0 && IsDigit(t[|t| - 1])
    ensures r.Some? && r.value < 0 ==> Text.Strip(s)[0] == '-'
  {
    var t := Text.Strip(s);
    if |t| > 0 && (t[0] == '+' || t[0] == '-') then
      var body := t[1..];
      if |body| > 0 && AllDigits(body) then
        var v: int := DigitsValue(body);
        Some(if t[0] == '-' then -v else v)
      else None
    else if |t| > 0 && AllDigits(t) then Some(DigitsValue(t))
    else None
  }

  /** A digit run with no white space around it parses to its value. */
  lemma ParseDigits(s: string)
    requires |s| > 0 && AllDigits(s)
    ensures ParseInt(s) == Some(DigitsValue(s))
  {
    assert IsDigit(s[0]) && IsDigit(s[|s| - 1]);
    Text.StripTrimmed(s);
  }

  /** Concatenation regroups. */
  lemma Regroup(a: string, b: string, c: string, d: string)
    ensures a + b + c + d == a + (b + c) + d
  {
  }

  /** A stripped text of an optional sign and a digit run parses to the run's value, negated after a `-`. */
  lemma ParseSignedRun(s: string, sign: string, digits: string)
    requires Text.Strip(s) == sign + digits
    requires sign == "" || sign == "+" || sign == "-"
    requires |digits| > 0 && AllDigits(digits)
    ensures ParseInt(s) == Some(if sign == "-" then -(DigitsValue(digits) as int) else DigitsValue(digits) as int)
  {
    var t := Text.Strip(s);
    assert IsDigit(digits[0]);
    if sign == "" {
      assert t == digits;
      assert t[0] != '+' && t[0] != '-';
    } else {
      assert t[0] == sign[0];
      assert t[1..] == digits;
    }
  }

  /**
    `int(s)` of white space, an optional sign, a digit run and white space is the
    run's value, negated after a `-`.
   */
  lemma ParseSigned(pre: string, sign: string, digits: string, post: string)
    requires Text.Blank(pre) && Text.Blank(post)
    requires sign == "" || sign == "+" || sign == "-"
    requires |digits| > 0 && AllDigits(digits)
    ensures ParseInt(pre + sign + digits + post) ==
      Some(if sign == "-" then -(DigitsValue(digits) as int) else DigitsValue(digits) as int)
  {
    var m := sign + digits;
    Regroup(pre, sign, digits, post);
    assert m[|m| - 1] == digits[|digits| - 1];
    assert !Text.IsSpace(m[0]) by {
      if sign == "" { assert m[0] == digits[0]; } else { assert m[0] == sign[0]; }
    }
    assert Text.Trimmed(m);
    Text.StripPadded(pre, m, post);
    ParseSignedRun(pre + m + post, sign, digits);
  }

  /** `int(str(n)) == n`. */
  lemma ParseNatToString(n: nat)
    ensures ParseInt(NatToString(n)) == Some(n)
  {
    ParseDigits(NatToString(n));
    NatToStringValue(n);
  }

  /** `int(f"{n:02d}") == n`. */
  lemma ParsePad2(n: nat)
    ensures ParseInt(Pad2(n)) == Some(n)
  {
    ParseDigits(Pad2(n));
    Pad2Value(n);
  }

  /** A string with no digit at all never parses. */
  lemma ParseNeedsDigit(s: string)
    requires forall i :: 0 <= i < |s| ==> !IsDigit(s[i])
    ensures ParseInt(s) == None
  {
    var t := Text.Strip(s);
    Text.StripSlice(s);
    var k := Text.StripStart(s);
    if |t| > 1 {
      assert t[1] == s[k + 1];
    }
    if |t| > 0 {
      assert t[0] == s[k];
    }
  }
}

=== FILE: requests.dfy ===
/**
  What the HTR and OCR processors are configured with and the prompts they send:
  the thinking budget, the primary request and the three alternative framings used
  after a RECITATION refusal.
 */
module Requests {
  import Text

  /** Which processor: handwritten (HTR) or general OCR. */
  datatype Flavour = Htr | Ocr

  /**
    What a processor is built with. `language` is read by the HTR processor only
    ("french", "arabic" or "multilingual"; anything else reads as French).
    `systemPrompt` is the text of the system prompt file.
   */
  datatype Config = Config(flavour: Flavour, model: string, language: string, systemPrompt: string)

  const ProThinkingBudget: nat := 128

  /**
    The thinking budget of the generation config: 128 for a "pro" model, else 0.
    The HTR processor recognises only "2.5-pro"; the OCR processor also "3-pro".
   */
  function ThinkingBudget(flavour: Flavour, model: string): (b: nat)
    ensures b == ProThinkingBudget || b == 0
    ensures b == ProThinkingBudget <==>
      (exists i :: Text.OccursAt(Text.Lower(model), "2.5-pro", i)) ||
      (flavour == Ocr && exists i :: Text.OccursAt(Text.Lower(model), "3-pro", i))
  {
    var m := Text.Lower(model);
    Text.ContainsOccurs(m, "2.5-pro");
    Text.ContainsOccurs(m, "3-pro");
    if Text.Contains(m, "2.5-pro") || (flavour == Ocr && Text.Contains(m, "3-pro")) then ProThinkingBudget else 0
  }

  /**
    The HTR language phrases: the first goes into the primary prompt, the second into
    the alternative prompts. They differ only for "multilingual".
   */
  function LanguageDescriptions(language: string): (d: (string, string))
    ensures d.0 == d.1 <==> language != "multilingual"
    ensures language == "arabic" ==> d.0 == "Arabic"
    ensures language != "arabic" && language != "multilingual" ==> d.0 == "French"
  {
    if language == "multilingual" then
      ("text (detect language automatically)", "text (automatically detecting language)")
    else if language == "arabic" then ("Arabic", "Arabic")
    else ("French", "French")
  }

  const HtrRequestHead: string :=
    "This is a legitimate handwritten text transcription (HTR) request for academic research and archival preservation. Transcribe ALL handwritten "
  const HtrRequestTail: string :=
    " text with exact wording, spacing rules, accents, and WITHOUT summarizing or omitting any zones."
  const OcrRequest: string :=
    "Please perform complete OCR transcription of this single page. Extract all visible text maintaining original formatting and structure."

  /** The request that follows the system prompt in the inline and upload calls. */
  function Request(cfg: Config): string {
    match cfg.flavour
    case Htr => HtrRequestHead + LanguageDescriptions(cfg.language).0 + HtrRequestTail
    case Ocr => OcrRequest
  }

  /** The prompt of the inline and upload calls: system prompt, a blank line, then the request. */
  function PrimaryPrompt(cfg: Config): (p: string)
    ensures Text.StartsWith(p, cfg.systemPrompt + "\n\n")
    ensures Text.EndsWith(p, Request(cfg))
  {
    var head := cfg.systemPrompt + "\n\n";
    assert (head + Request(cfg))[..|head|] == head;
    assert (head + Request(cfg))[|head|..] == Request(cfg);
    head + Request(cfg)
  }

  /** The HTR request names the primary language phrase right after its fixed head. */
  lemma HtrRequestLanguage(cfg: Config)
    requires cfg.flavour == Htr
    ensures Text.OccursAt(Request(cfg), LanguageDescriptions(cfg.language).0, |HtrRequestHead|)
    ensures Text.StartsWith(Request(cfg), HtrRequestHead) && Text.EndsWith(Request(cfg), HtrRequestTail)
  {
    var d := LanguageDescriptions(cfg.language).0;
    var r := HtrRequestHead + d + HtrRequestTail;
    assert r[..|HtrRequestHead|] == HtrRequestHead;
    assert r[|HtrRequestHead|..|HtrRequestHead| + |d|] == d;
    assert r[|r| - |HtrRequestTail|..] == HtrRequestTail;
  }

  /** A named alternative framing of the request. */
  datatype Alternative = Alternative(name: string, prompt: string)

  const AcademicName: string := "Academic Fair Use Request"
  const HtrEducationalName: string := "Educational HTR Request"
  const HtrTechnicalName: string := "Technical HTR Analysis"
  const OcrEducationalName: string := "Educational OCR Request"
  const OcrTechnicalName: string := "Technical OCR Analysis"

  const HtrAcademicHead: string :=
    "This is a legitimate academic research request for historical document preservation and scholarly analysis. Under fair use principles, please perform HTR text extraction from this historical handwritten page. The purpose is archival preservation and academic research, not commercial reproduction. Please transcribe all visible handwritten "
  const HtrAcademicTail: string :=
    " text while maintaining original formatting and structure."
  const HtrEducationalHead: string :=
    "Please assist with educational HTR processing of this historical handwritten document page. Transcribe the handwritten "
  const HtrEducationalTail: string :=
    " text content for research and educational purposes. Focus on accuracy and completeness of the text transcription."
  const HtrTechnicalHead: string :=
    "Perform technical handwritten text recognition analysis on this "
  const HtrTechnicalTail: string :=
    " document page. Output the detected text content with preserved formatting. This is for document digitization and preservation purposes."
  const OcrAcademicPrompt: string :=
    "This is a legitimate academic research request for historical document preservation and scholarly analysis. Under fair use principles, please perform OCR text extraction from this historical page. The purpose is archival preservation and academic research, not commercial reproduction. Please extract all visible text while maintaining original formatting and structure."
  const OcrEducationalPrompt: string :=
    "Please assist with educational OCR processing of this historical document page. Extract the text content for research and educational purposes. Focus on accuracy and completeness of the text transcription."
  const OcrTechnicalPrompt: string :=
    "Perform technical optical character recognition analysis on this document page. Output the detected text content with preserved formatting. This is for document digitization and preservation purposes."

  /**
    The three alternative prompts, in the order they are tried. The HTR ones carry the
    alternative language phrase; the OCR ones are fixed.
   */
  function Alternatives(cfg: Config): (alts: seq<Alternative>)
    ensures |alts| == 3
    ensures alts[0].name == AcademicName
    ensures alts[1].name == (if cfg.flavour == Htr then HtrEducationalName else OcrEducationalName)
    ensures alts[2].name == (if cfg.flavour == Htr then HtrTechnicalName else OcrTechnicalName)
    ensures cfg.flavour == Ocr ==> alts[0].prompt == OcrAcademicPrompt && alts[1].prompt == OcrEducationalPrompt && alts[2].prompt == OcrTechnicalPrompt
  {
    match cfg.flavour
    case Htr =>
      var d := LanguageDescriptions(cfg.language).1;
      [ Alternative(AcademicName, HtrAcademicHead + d + HtrAcademicTail),
        Alternative(HtrEducationalName, HtrEducationalHead + d + HtrEducationalTail),
        Alternative(HtrTechnicalName, HtrTechnicalHead + d + HtrTechnicalTail) ]
    case Ocr =>
      [ Alternative(AcademicName, OcrAcademicPrompt),
        Alternative(OcrEducationalName, OcrEducationalPrompt),
        Alternative(OcrTechnicalName, OcrTechnicalPrompt) ]
  }

  /** A phrase framed by a head and a tail sits right after the head. */
  lemma Framed(head: string, phrase: string, tail: string)
    ensures var p := head + phrase + tail;
      && |p| == |head| + |phrase| + |tail|
      && Text.StartsWith(p, head) && Text.OccursAt(p, phrase, |head|) && Text.EndsWith(p, tail)
  {
    var p := head + phrase + tail;
    assert p[..|head|] == head;
    assert p[|head|..|head| + |phrase|] == phrase;
    assert p[|p| - |tail|..] == tail;
  }

  /** The first HTR alternative is its fixed head, the alternative language phrase and its fixed tail. */
  lemma HtrAcademicLanguage(cfg: Config)
    requires cfg.flavour == Htr
    ensures var p, d := Alternatives(cfg)[0].prompt, LanguageDescriptions(cfg.language).1;
      && |p| == |HtrAcademicHead| + |d| + |HtrAcademicTail|
      && Text.StartsWith(p, HtrAcademicHead) && Text.OccursAt(p, d, |HtrAcademicHead|) && Text.EndsWith(p, HtrAcademicTail)
  {
    Framed(HtrAcademicHead, LanguageDescriptions(cfg.language).1, HtrAcademicTail);
  }

  /** The second HTR alternative is its fixed head, the alternative language phrase and its fixed tail. */
  lemma HtrEducationalLanguage(cfg: Config)
    requires cfg.flavour == Htr
    ensures var p, d := Alternatives(cfg)[1].prompt, LanguageDescriptions(cfg.language).1;
      && |p| == |HtrEducationalHead| + |d| + |HtrEducationalTail|
      && Text.StartsWith(p, HtrEducationalHead) && Text.OccursAt(p, d, |HtrEducationalHead|) && Text.EndsWith(p, HtrEducationalTail)
  {
    Framed(HtrEducationalHead, LanguageDescriptions(cfg.language).1, HtrEducationalTail);
  }

  /** The third HTR alternative is its fixed head, the alternative language phrase and its fixed tail. */
  lemma HtrTechnicalLanguage(cfg: Config)
    requires cfg.flavour == Htr
    ensures var p, d := Alternatives(cfg)[2].prompt, LanguageDescriptions(cfg.language).1;
      && |p| == |HtrTechnicalHead| + |d| + |HtrTechnicalTail|
      && Text.StartsWith(p, HtrTechnicalHead) && Text.OccursAt(p, d, |HtrTechnicalHead|) && Text.EndsWith(p, HtrTechnicalTail)
  {
    Framed(HtrTechnicalHead, LanguageDescriptions(cfg.language).1, HtrTechnicalTail);
  }

  /** The prompts a processor sends: the primary prompt and the alternatives in order. */
  datatype Prompting = Prompting(primary: string, alternatives: seq<Alternative>)

  /** The prompts of a configured processor. */
  function PromptingFor(cfg: Config): (p: Prompting)
    ensures |p.alternatives| == 3
    ensures Text.StartsWith(p.primary, cfg.systemPrompt + "\n\n")
  {
    Prompting(PrimaryPrompt(cfg), Alternatives(cfg))
  }
}

=== FILE: service.dfy ===
/**
  The recognition service as a script. Three queues stand in for the remote calls:
  - `generate_content` replies;
  - `files.upload` results;
  - `files.get` states.
  Each call takes the head of its queue. A call past the end of its queue behaves like
  a failing service: the reply raises, the upload fails, and the file state is FAILED.
  Every call is also recorded in an event log, together with every `time.sleep`.
 */
module Service {
  import opened Wrappers
  import Text

  /** A candidate's finish reason; only RECITATION is acted upon. */
  datatype FinishReason = Recitation | OtherReason(name: string)

  /**
    One `generate_content` reply:
    - `Raises`: the call raised;
    - `NoCandidates`: the reply held no candidate;
    - `Candidate`: the first candidate, with the text of each of its content parts
      (`""` for a part without text) and its finish reason. A candidate without
      content is `Candidate([], reason)`.
   */
  datatype Response =
    | Raises(error: string)
    | NoCandidates
    | Candidate(parts: seq<string>, finish: FinishReason)

  /** `files.get(...).state.name`. */
  datatype FileState = Active | Processing | FailedState | OtherState(name: string)

  /** Replies, upload outcomes (true: a file with a name came back) and file states, consumed in order. */
  datatype Script = Script(replies: seq<Response>, uploads: seq<bool>, states: seq<FileState>)

  /** What a prompt was sent with: the page bytes inline, or the uploaded file. */
  datatype Target = InlinePart | UploadedFile

  /** One observable interaction: a service call or a sleep (a poll sleep is `time.sleep(1)`). */
  datatype Event =
    | Generate(target: Target, prompt: string)
    | Upload
    | StatusCheck
    | PollSleep
    | Backoff(seconds: nat)

  /** The value a stage computes, the script left for later stages, and the events of this stage. */
  datatype Step<+T> = Step(value: T, rest: Script, log: seq<Event>)

  /** The `k`-th reply still to come. */
  function ReplyAt(s: Script, k: nat): Response {
    if k < |s.replies| then s.replies[k] else Raises("no scripted reply")
  }

  /** The `k`-th file state still to come. */
  function StateAt(s: Script, k: nat): FileState {
    if k < |s.states| then s.states[k] else FailedState
  }

  /** The script after `k` replies have been consumed. */
  function DropReplies(s: Script, k: nat): Script {
    if k <= |s.replies| then s.(replies := s.replies[k..]) else s.(replies := [])
  }

  function NextReply(s: Script): (Response, Script) {
    (ReplyAt(s, 0), DropReplies(s, 1))
  }

  function NextUpload(s: Script): (bool, Script) {
    if |s.uploads| == 0 then (false, s) else (s.uploads[0], s.(uploads := s.uploads[1..]))
  }

  function NextState(s: Script): (FileState, Script) {
    if |s.states| == 0 then (FailedState, s) else (s.states[0], s.(states := s.states[1..]))
  }

  lemma DropRepliesAdd(s: Script, j: nat, k: nat)
    ensures DropReplies(DropReplies(s, j), k) == DropReplies(s, j + k)
    ensures ReplyAt(DropReplies(s, j), k) == ReplyAt(s, j + k)
  {
  }

  /** Runs `f` on each item in order, each call on the script the calls before it left. */
  function Each<A, B>(f: (A, Script) -> Step<B>, xs: seq<A>, s: Script): (r: Step<seq<B>>)
    ensures |r.value| == |xs|
    decreases |xs|
  {
    if xs == [] then Step([], s, [])
    else
      var first := f(xs[0], s);
      var more := Each(f, xs[1..], first.rest);
      Step([first.value] + more.value, more.rest, first.log + more.log)
  }

  /** Running one more item extends the results, the script and the log by that item's call alone. */
  lemma {:induction false} EachSnoc<A, B>(f: (A, Script) -> Step<B>, xs: seq<A>, x: A, s: Script)
    ensures var a := Each(f, xs, s);
      var b := f(x, a.rest);
      Each(f, xs + [x], s) == Step(a.value + [b.value], b.rest, a.log + b.log)
    decreases |xs|
  {
    if xs == [] {
      assert xs + [x] == [x];
      var b := f(x, s);
      assert [x][1..] == [];
      assert Each(f, [x][1..], b.rest) == Step([], b.rest, []);
      assert [b.value] + [] == [] + [b.value];
      assert b.log + [] == [] + b.log;
    } else {
      var first := f(xs[0], s);
      assert (xs + [x])[0] == xs[0];
      assert (xs + [x])[1..] == xs[1..] + [x];
      EachSnoc(f, xs[1..], x, first.rest);
      var a' := Each(f, xs[1..], first.rest);
      var b := f(x, a'.rest);
      assert [first.value] + (a'.value + [b.value]) == ([first.value] + a'.value) + [b.value];
      assert first.log + (a'.log + b.log) == (first.log + a'.log) + b.log;
    }
  }

  /** The items up to `i + 1` are the items up to `i` and then item `i`. */
  lemma EachPrefix<A, B>(f: (A, Script) -> Step<B>, xs: seq<A>, i: nat, s: Script)
    requires i < |xs|
    ensures var a := Each(f, xs[..i], s);
      var b := f(xs[i], a.rest);
      Each(f, xs[..i + 1], s) == Step(a.value + [b.value], b.rest, a.log + b.log)
  {
    assert xs[..i + 1] == xs[..i] + [xs[i]];
    EachSnoc(f, xs[..i], xs[i], s);
  }

  /** A relation every call of `f` keeps between its item and its value holds of every result. */
  lemma {:induction false} EachKeeps<A, B>(f: (A, Script) -> Step<B>, p: (A, B) -> bool, xs: seq<A>, s: Script)
    requires forall x, t :: p(x, f(x, t).value)
    ensures forall i :: 0 <= i < |xs| ==> p(xs[i], Each(f, xs, s).value[i])
    decreases |xs|
  {
    if xs != [] {
      var first := f(xs[0], s);
      EachKeeps(f, p, xs[1..], first.rest);
      var r := Each(f, xs, s).value;
      forall i | 0 <= i < |xs|
        ensures p(xs[i], r[i])
      {
        if i > 0 {
          assert r[i] == Each(f, xs[1..], first.rest).value[i - 1];
          assert xs[i] == xs[1..][i - 1];
        }
      }
    }
  }

  /** U+00A0, the no-break space the pipelines turn into a plain space. */
  const NBSP: char := '\U{A0}'

  /** `text.replace('\xa0', ' ').strip()`. */
  function Normalise(text: string): (r: string)
    ensures Text.Trimmed(r)
    ensures NBSP !in r
    ensures r == "" <==> Text.Blank(Text.ReplaceChar(text, NBSP, ' '))
  {
    var spaced := Text.ReplaceChar(text, NBSP, ' ');
    Text.StripKeepsOut(spaced, NBSP);
    Text.Strip(spaced)
  }

  /** A usable recognition result: non-empty, free of no-break spaces, and trimmed. */
  predicate IsNormal(t: string) {
    t != "" && Text.Trimmed(t) && NBSP !in t
  }

  /** Normalising normal text changes nothing. */
  lemma NormaliseNormal(t: string)
    requires IsNormal(t)
    ensures Normalise(t) == t
  {
    assert Text.ReplaceChar(t, NBSP, ' ') == t;
    Text.StripTrimmed(t);
  }

  /** The texts the OCR processor keeps: parts whose text is non-empty. */
  function TextParts(parts: seq<string>): (r: seq<string>)
    ensures |r| <= |parts|
    ensures forall i :: 0 <= i < |r| ==> r[i] != ""
  {
    if parts == [] then []
    else if parts[0] == "" then TextParts(parts[1..])
    else [parts[0]] + TextParts(parts[1..])
  }

  /**
    Dropping the empty parts does not change the concatenation, so the OCR processor's
    explicit join and the HTR processor's `response.text` read the same string.
   */
  lemma {:induction false} TextPartsConcat(parts: seq<string>)
    ensures Text.Concat(TextParts(parts)) == Text.Concat(parts)
  {
    if parts != [] {
      TextPartsConcat(parts[1..]);
    }
  }

  /** How a pipeline reads one reply. */
  datatype Reading =
    | Recognised(text: string)  // normalised, non-empty text
    | Recited                   // no content parts and finish reason RECITATION
    | Unusable                  // raised, no candidate, no parts for another reason, or empty text

  /**
    One reply as both processors read it: no candidate, or an exception, is unusable;
    a candidate without parts is recited when its finish reason is RECITATION;
    otherwise the joined, normalised text counts only when it is non-empty.
   */
  function Read(r: Response): (d: Reading)
    ensures d.Recognised? ==> IsNormal(d.text)
    ensures d.Recited? <==> r.Candidate? && r.parts == [] && r.finish == Recitation
  {
    match r
    case Raises(_) => Unusable
    case NoCandidates => Unusable
    case Candidate(parts, finish) =>
      if parts == [] then
        if finish == Recitation then Recited else Unusable
      else
        var joined := Text.Concat(TextParts(parts));
        TextPartsConcat(parts);
        var t := Normalise(joined);
        if t == "" then Unusable else Recognised(t)
  }

  /** A reply is recognised exactly when it has parts whose joined, normalised text is non-empty. */
  lemma ReadRecognised(r: Response)
    ensures Read(r).Recognised? <==> r.Candidate? && r.parts != [] && Normalise(Text.Concat(r.parts)) != ""
    ensures Read(r).Recognised? ==> Read(r).text == Normalise(Text.Concat(r.parts))
  {
    if r.Candidate? && r.parts != [] {
      TextPartsConcat(r.parts);
    }
  }

  /** The backoff delays of a log, in order. */
  function Backoffs(log: seq<Event>): seq<nat> {
    if log == [] then []
    else if log[0].Backoff? then [log[0].seconds] + Backoffs(log[1..])
    else Backoffs(log[1..])
  }

  /** The number of `Upload` events. */
  function Uploads(log: seq<Event>): nat {
    if log == [] then 0 else (if log[0] == Upload then 1 else 0) + Uploads(log[1..])
  }

  /** The number of `StatusCheck` events. */
  function Checks(log: seq<Event>): nat {
    if log == [] then 0 else (if log[0] == StatusCheck then 1 else 0) + Checks(log[1..])
  }

  /** The number of poll sleeps. */
  function PollSleeps(log: seq<Event>): nat {
    if log == [] then 0 else (if log[0] == PollSleep then 1 else 0) + PollSleeps(log[1..])
  }

  /** The prompts sent, in order. */
  function Prompts(log: seq<Event>): seq<string> {
    if log == [] then []
    else if log[0].Generate? then [log[0].prompt] + Prompts(log[1..])
    else Prompts(log[1..])
  }

  lemma {:induction false} BackoffsAppend(a: seq<Event>, b: seq<Event>)
    ensures Backoffs(a + b) == Backoffs(a) + Backoffs(b)
  {
    if a == [] {
      assert a + b == b;
    } else {
      assert (a + b)[1..] == a[1..] + b;
      BackoffsAppend(a[1..], b);
    }
  }

  lemma {:induction false} UploadsAppend(a: seq<Event>, b: seq<Event>)
    ensures Uploads(a + b) == Uploads(a) + Uploads(b)
  {
    if a == [] {
      assert a + b == b;
    } else {
      assert (a + b)[1..] == a[1..] + b;
      UploadsAppend(a[1..], b);
    }
  }

  lemma {:induction false} ChecksAppend(a: seq<Event>, b: seq<Event>)
    ensures Checks(a + b) == Checks(a) + Checks(b)
  {
    if a == [] {
      assert a + b == b;
    } else {
      assert (a + b)[1..] == a[1..] + b;
      ChecksAppend(a[1..], b);
    }
  }

  lemma {:induction false} PollSleepsAppend(a: seq<Event>, b: seq<Event>)
    ensures PollSleeps(a + b) == PollSleeps(a) + PollSleeps(b)
  {
    if a == [] {
      assert a + b == b;
    } else {
      assert (a + b)[1..] == a[1..] + b;
      PollSleepsAppend(a[1..], b);
    }
  }

  lemma {:induction false} PromptsAppend(a: seq<Event>, b: seq<Event>)
    ensures Prompts(a + b) == Prompts(a) + Prompts(b)
  {
    if a == [] {
      assert a + b == b;
    } else {
      assert (a + b)[1..] == a[1..] + b;
      PromptsAppend(a[1..], b);
    }
  }

  /** A log of nothing but status checks and sleeps. */
  predicate PollingOnly(log: seq<Event>) {
    forall k :: 0 <= k < |log| ==> log[k].StatusCheck? || log[k].PollSleep?
  }

  /** Such a log uploads nothing, backs off never and sends no prompt. */
  lemma {:induction false} PollingOnlyCounts(log: seq<Event>)
    requires PollingOnly(log)
    ensures Uploads(log) == 0 && Backoffs(log) == [] && Prompts(log) == []
    decreases |log|
  {
    if log != [] {
      assert forall k :: 0 <= k < |log| - 1 ==> log[1..][k] == log[k + 1];
      PollingOnlyCounts(log[1..]);
    }
  }

  /** A log of nothing but prompts sent. */
  predicate GeneratesOnly(log: seq<Event>) {
    forall k :: 0 <= k < |log| ==> log[k].Generate?
  }

  /** Such a log uploads nothing, polls never and backs off never. */
  lemma {:induction false} GeneratesOnlyCounts(log: seq<Event>)
    requires GeneratesOnly(log)
    ensures Uploads(log) == 0 && Checks(log) == 0 && PollSleeps(log) == 0 && Backoffs(log) == []
    decreases |log|
  {
    if log != [] {
      assert forall k :: 0 <= k < |log| - 1 ==> log[1..][k] == log[k + 1];
      GeneratesOnlyCounts(log[1..]);
    }
  }

  lemma LogAppend(a: seq<Event>, b: seq<Event>)
    ensures Backoffs(a + b) == Backoffs(a) + Backoffs(b)
    ensures Uploads(a + b) == Uploads(a) + Uploads(b)
    ensures Checks(a + b) == Checks(a) + Checks(b)
    ensures PollSleeps(a + b) == PollSleeps(a) + PollSleeps(b)
    ensures Prompts(a + b) == Prompts(a) + Prompts(b)
  {
    BackoffsAppend(a, b);
    UploadsAppend(a, b);
    ChecksAppend(a, b);
    PollSleepsAppend(a, b);
    PromptsAppend(a, b);
  }
}

=== FILE: spreadsheet.dfy ===
/**
  Spreadsheet mode, `process_with_spreadsheet` of both processors. The rows' `filename`
  cells are read in order. Each row is classified as exactly one of:
  - skipped for having no file name;
  - skipped for naming no existing file;
  - processed;
  - failed.
  Every row's result cell (column `HTR` or `OCR`) is written.
 */
module Spreadsheet {
  import opened Wrappers
  import opened Service
  import Text
  import Requests
  import opened Assembly

  /** The result column, and the word in its failure message. */
  function ColumnName(flavour: Requests.Flavour): string {
    match flavour
    case Htr => "HTR"
    case Ocr => "OCR"
  }

  /**
    The PDF directory: the file names present in it, and what each file reads as.
    A name that is not a key does not exist.
   */
  type Directory = map<string, PdfFile>

  /**
    Which file a stripped file name refers to: the name itself when it exists; otherwise
    the name with `.pdf` appended, tried only when the lower-cased name does not
    already end in `.pdf`; None when neither exists.
   */
  function ResolvePdf(dir: Directory, name: string): (r: Option<string>)
    ensures r.Some? ==> r.value in dir
  {
    if name in dir then Some(name)
    else if !Text.EndsWith(Text.Lower(name), ".pdf") && name + ".pdf" in dir then Some(name + ".pdf")
    else None
  }

  /**
    The name found is the given one when that exists; `.pdf` is appended only to a name
    that does not exist and does not end in `.pdf` in any letter case.
   */
  lemma ResolvePdfCases(dir: Directory, name: string)
    ensures name in dir ==> ResolvePdf(dir, name) == Some(name)
    ensures ResolvePdf(dir, name) == Some(name + ".pdf") ==>
      name !in dir && !Text.EndsWith(Text.Lower(name), ".pdf")
    ensures ResolvePdf(dir, name).None? <==>
      name !in dir && (Text.EndsWith(Text.Lower(name), ".pdf") || name + ".pdf" !in dir)
  {
    if name in dir {
      assert name != name + ".pdf" by { assert |name + ".pdf"| == |name| + 4; }
    }
  }

  /** Where a row ends up. */
  datatype RowOutcome = SkippedEmpty | SkippedMissing | Processed | Failed

  /** A row's outcome and the text written to its result cell. */
  datatype RowResult = RowResult(outcome: RowOutcome, cell: string)

  const SkippedCell: string := "[SKIPPED: No filename provided]"

  function NotFoundCell(name: string): string {
    "[ERROR: File not found - " + name + "]"
  }

  function FailedCell(flavour: Requests.Flavour): string {
    "[ERROR: " + ColumnName(flavour) + " processing failed]"
  }

  /**
    One row. A missing (NaN) or blank file name is skipped; otherwise the stripped name
    is resolved in the directory, and a name that resolves is converted with
    `process_pdf_to_text`, whose non-empty text is the cell.
   */
  function ProcessRow(rec: Recogniser, flavour: Requests.Flavour, dir: Directory, cell: Option<string>, s: Script)
    : (r: Step<RowResult>)
    ensures RowFits(flavour, cell, r.value)
    ensures r.value.outcome in {SkippedEmpty, SkippedMissing} ==> r.rest == s && r.log == []
  {
    if cell.None? || Text.Strip(cell.value) == "" then Step(RowResult(SkippedEmpty, SkippedCell), s, [])
    else
      var name := Text.Strip(cell.value);
      match ResolvePdf(dir, name)
      case None => Step(RowResult(SkippedMissing, NotFoundCell(name)), s, [])
      case Some(path) =>
        var p := ProcessPdfToText(rec, dir[path], s);
        if p.value.Some? && p.value.value != "" then Step(RowResult(Processed, p.value.value), p.rest, p.log)
        else Step(RowResult(Failed, FailedCell(flavour)), p.rest, p.log)
  }

  /**
    A row is processed exactly when its name resolves to a readable PDF with pages, and
    then its cell is that PDF's document.
   */
  lemma ProcessRowProcessed(rec: Recogniser, flavour: Requests.Flavour, dir: Directory, cell: Option<string>, s: Script)
    requires cell.Some? && Text.Strip(cell.value) != ""
    ensures var path := ResolvePdf(dir, Text.Strip(cell.value));
      var r := ProcessRow(rec, flavour, dir, cell, s);
      && (r.value.outcome == SkippedMissing <==> path.None?)
      && (r.value.outcome == Processed <==>
            path.Some? && dir[path.value].Readable? && dir[path.value].pages != [])
      && (r.value.outcome == Processed ==>
            r.value.cell == Assemble(RecognisePages(rec, dir[path.value].pages, s).value))
  {
    var path := ResolvePdf(dir, Text.Strip(cell.value));
    if path.Some? && dir[path.value].Readable? && dir[path.value].pages != [] {
      var pages := dir[path.value].pages;
      var p := RecognisePages(rec, pages, s);
      RecognisePagesErrors(rec, pages, s);
      AssembleEmpty(p.value);
    }
  }

  /** The loop body as a step over rows. */
  function RowStep(rec: Recogniser, flavour: Requests.Flavour, dir: Directory): (Option<string>, Script) -> Step<RowResult> {
    (cell: Option<string>, t: Script) => ProcessRow(rec, flavour, dir, cell, t)
  }

  /** Every row in order, each on the script the earlier rows left. */
  function ProcessRows(rec: Recogniser, flavour: Requests.Flavour, dir: Directory, cells: seq<Option<string>>, s: Script)
    : (r: Step<seq<RowResult>>)
    ensures |r.value| == |cells|
  {
    Each(RowStep(rec, flavour, dir), cells, s)
  }

  /** What a row's result may be, given its file-name cell, whatever the files hold. */
  predicate RowFits(flavour: Requests.Flavour, cell: Option<string>, r: RowResult) {
    && (r.outcome == SkippedEmpty <==> cell.None? || Text.Strip(cell.value) == "")
    && (r.outcome == SkippedEmpty ==> r.cell == SkippedCell)
    && (r.outcome == SkippedMissing ==> r.cell == NotFoundCell(Text.Strip(cell.value)))
    && (r.outcome == Failed ==> r.cell == FailedCell(flavour))
    && (r.outcome == Processed ==> r.cell != "")
  }

  /**
    Row by row, the written cell matches the row's outcome: the skip text for a blank
    name, the not-found text naming the stripped name, the failure text of the column,
    or a non-empty document.
   */
  lemma ProcessRowsCells(rec: Recogniser, flavour: Requests.Flavour, dir: Directory, cells: seq<Option<string>>, s: Script)
    ensures var r := ProcessRows(rec, flavour, dir, cells, s).value;
      forall i :: 0 <= i < |cells| ==> RowFits(flavour, cells[i], r[i])
  {
    forall cell, t
      ensures RowFits(flavour, cell, RowStep(rec, flavour, dir)(cell, t).value)
    {
      var r := ProcessRow(rec, flavour, dir, cell, t);
    }
    EachKeeps(RowStep(rec, flavour, dir), (cell, r) => RowFits(flavour, cell, r), cells, s);
  }

  /** The summary counters. */
  datatype Stats = Stats(totalRows: nat, processed: nat, skippedEmpty: nat, skippedMissing: nat, failed: nat)

  /** The number of results with outcome `o`. */
  function CountOutcome(results: seq<RowResult>, o: RowOutcome): (n: nat)
    ensures n <= |results|
  {
    if results == [] then 0
    else CountOutcome(results[..|results| - 1], o) + (if results[|results| - 1].outcome == o then 1 else 0)
  }

  /** The counters as the row results determine them: one row per result, none counted twice. */
  function Tally(results: seq<RowResult>): (t: Stats)
    ensures t.totalRows == |results|
    ensures t.processed <= |results| && t.skippedEmpty <= |results|
    ensures t.skippedMissing <= |results| && t.failed <= |results|
    ensures results == [] ==> t == Stats(0, 0, 0, 0, 0)
  {
    Stats(|results|, CountOutcome(results, Processed), CountOutcome(results, SkippedEmpty),
          CountOutcome(results, SkippedMissing), CountOutcome(results, Failed))
  }

  /** Every row lands in exactly one counter, so the four counters sum to the row count. */
  lemma {:induction false} TallyPartition(results: seq<RowResult>)
    ensures var t := Tally(results);
      t.processed + t.skippedEmpty + t.skippedMissing + t.failed == t.totalRows
    decreases |results|
  {
    if results != [] {
      TallyPartition(results[..|results| - 1]);
    }
  }

  /** One more row adds one to exactly the counter of its outcome. */
  lemma CountOutcomeSnoc(results: seq<RowResult>, r: RowResult, o: RowOutcome)
    ensures CountOutcome(results + [r], o) == CountOutcome(results, o) + (if r.outcome == o then 1 else 0)
  {
    assert (results + [r])[..|results|] == results;
  }

  /** The updated sheet: the result column, one cell per row, and the counters. */
  datatype Sheet = Sheet(column: seq<string>, stats: Stats)

  /**
    The row loop for any row step: writes each row's cell in row order and counts each
    row under its outcome.
   */
  method TallyRows(step: (Option<string>, Script) -> Step<RowResult>, rows: seq<Option<string>>, s: Script)
    returns (sheet: Sheet, rest: Script, log: seq<Event>)
    ensures var p := Each(step, rows, s);
      && |sheet.column| == |rows|
      && (forall i :: 0 <= i < |rows| ==> sheet.column[i] == p.value[i].cell)
      && sheet.stats == Tally(p.value)
      && rest == p.rest && log == p.log
  {
    var column: seq<string> := [];
    var results: seq<RowResult> := [];
    var stats := Stats(|rows|, 0, 0, 0, 0);
    rest, log := s, [];
    var i := 0;
    while i < |rows|
      invariant 0 <= i <= |rows|
      invariant Each(step, rows[..i], s) == Step(results, rest, log)
      invariant |column| == i && forall k :: 0 <= k < i ==> column[k] == results[k].cell
      invariant stats == Tally(results).(totalRows := |rows|)
    {
      var row := step(rows[i], rest);
      EachPrefix(step, rows, i, s);
      CountOutcomeSnoc(results, row.value, Processed);
      CountOutcomeSnoc(results, row.value, SkippedEmpty);
      CountOutcomeSnoc(results, row.value, SkippedMissing);
      CountOutcomeSnoc(results, row.value, Failed);
      column := column + [row.value.cell];
      match row.value.outcome {
        case SkippedEmpty => stats := stats.(skippedEmpty := stats.skippedEmpty + 1);
        case SkippedMissing => stats := stats.(skippedMissing := stats.skippedMissing + 1);
        case Processed => stats := stats.(processed := stats.processed + 1);
        case Failed => stats := stats.(failed := stats.failed + 1);
      }
      results := results + [row.value];
      rest, log := row.rest, log + row.log;
      i := i + 1;
    }
    assert rows[..i] == rows;
    sheet := Sheet(column, stats);
  }

  /**
    `process_with_spreadsheet`. With no `filename` column (`cells` is None) nothing is
    processed and nothing saved. Otherwise every row's cell is written in row order, and
    the counters are the tally of the rows' outcomes, which sum to the row count.
   */
  method ProcessSpreadsheet(rec: Recogniser, flavour: Requests.Flavour, dir: Directory,
                            cells: Option<seq<Option<string>>>, s: Script)
    returns (sheet: Option<Sheet>, rest: Script, log: seq<Event>)
    ensures sheet.None? <==> cells.None?
    ensures cells.None? ==> rest == s && log == []
    ensures cells.Some? ==> var p := ProcessRows(rec, flavour, dir, cells.value, s);
      && |sheet.value.column| == |cells.value|
      && (forall i :: 0 <= i < |cells.value| ==> sheet.value.column[i] == p.value[i].cell)
      && sheet.value.stats == Tally(p.value)
      && rest == p.rest && log == p.log
    ensures cells.Some? ==> var t := sheet.value.stats;
      t.totalRows == |cells.value| && t.processed + t.skippedEmpty + t.skippedMissing + t.failed == t.totalRows
  {
    if cells.None? {
      return None, s, [];
    }
    var done;
    done, rest, log := TallyRows(RowStep(rec, flavour, dir), cells.value, s);
    TallyPartition(ProcessRows(rec, flavour, dir, cells.value, s).value);
    sheet := Some(done);
  }
}

=== FILE: text.dfy ===
/**
  String helpers standing in for the Python `str` methods the pipelines call.
  Python works on Unicode; these are ASCII simplifications:
  - `IsSpace` is `str.isspace` restricted to ASCII;
  - `Lower`, `Upper` and `Title` change ASCII letters only.
 */
module Text {

  /** `str.isspace` on ASCII: tab, LF, VT, FF, CR, the separators 0x1C-0x1F, and space. */
  predicate IsSpace(c: char) {
    ('\t' <= c <= '\r') || ('\U{1C}' <= c <= ' ')
  }

  /** Every character is white space (the empty string included). */
  predicate Blank(s: string) {
    forall i :: 0 <= i < |s| ==> IsSpace(s[i])
  }

  /** Neither end of `s` is white space. */
  predicate Trimmed(s: string) {
    s == [] || (!IsSpace(s[0]) && !IsSpace(s[|s| - 1]))
  }

  /** `s.strip()`: white space cut from both ends, one character at a time. */
  function Strip(s: string): (r: string)
    ensures Trimmed(r)
    ensures r == [] <==> Blank(s)
    decreases |s|
  {
    if s == [] then []
    else if IsSpace(s[0]) then Strip(s[1..])
    else if IsSpace(s[|s| - 1]) then Strip(s[..|s| - 1])
    else s
  }

  /** Where the strip of `s` starts in `s`. */
  function StripStart(s: string): (i: nat)
    ensures i + |Strip(s)| <= |s|
    decreases |s|
  {
    if s == [] then 0
    else if IsSpace(s[0]) then 1 + StripStart(s[1..])
    else if IsSpace(s[|s| - 1]) then StripStart(s[..|s| - 1])
    else 0
  }

  /** The strip of `s` is a contiguous piece of `s`. */
  lemma {:induction false} StripSlice(s: string)
    ensures Strip(s) == s[StripStart(s)..StripStart(s) + |Strip(s)|]
    decreases |s|
  {
    if s != [] && IsSpace(s[0]) {
      var t := s[1..];
      StripSlice(t);
      assert t[StripStart(t)..StripStart(t) + |Strip(t)|] == s[StripStart(s)..StripStart(s) + |Strip(s)|];
    } else if s != [] && IsSpace(s[|s| - 1]) {
      var t := s[..|s| - 1];
      StripSlice(t);
      assert t[StripStart(t)..StripStart(t) + |Strip(t)|] == s[StripStart(s)..StripStart(s) + |Strip(s)|];
    }
  }

  /** Only white space lies outside the strip of `s`. */
  lemma {:induction false} StripCutsSpace(s: string)
    ensures forall k :: 0 <= k < StripStart(s) ==> IsSpace(s[k])
    ensures forall k :: StripStart(s) + |Strip(s)| <= k < |s| ==> IsSpace(s[k])
    decreases |s|
  {
    if s != [] && IsSpace(s[0]) {
      var t := s[1..];
      StripCutsSpace(t);
      forall k | 0 < k < |s| && (k < StripStart(s) || StripStart(s) + |Strip(s)| <= k)
        ensures IsSpace(s[k])
      {
        assert s[k] == t[k - 1];
      }
    } else if s != [] && IsSpace(s[|s| - 1]) {
      var t := s[..|s| - 1];
      StripCutsSpace(t);
      forall k | 0 <= k < |s| - 1 && (k < StripStart(s) || StripStart(s) + |Strip(s)| <= k)
        ensures IsSpace(s[k])
      {
        assert s[k] == t[k];
      }
    }
  }

  /** Stripping adds no character. */
  lemma StripKeepsOut(s: string, c: char)
    requires c !in s
    ensures c !in Strip(s)
  {
    StripSlice(s);
    var i := StripStart(s);
    var r := Strip(s);
    assert forall k :: 0 <= k < |r| ==> r[k] == s[i + k];
  }

  /** A trimmed string is its own strip. */
  lemma StripTrimmed(s: string)
    requires Trimmed(s)
    ensures Strip(s) == s
  {

  }

  /** White space around a trimmed string is exactly what `strip()` removes. */
  lemma {:induction false} StripPadded(pre: string, m: string, post: string)
    requires Blank(pre) && Blank(post) && Trimmed(m)
    ensures Strip(pre + m + post) == m
    decreases |pre| + |post|
  {
    var s := pre + m + post;
    if m == [] {
      assert Blank(s) by {
        forall i | 0 <= i < |s|
          ensures IsSpace(s[i])
        {
          if i < |pre| { assert s[i] == pre[i]; } else { assert s[i] == post[i - |pre|]; }
        }
      }
    } else if pre != [] {
      assert s[0] == pre[0];
      assert s[1..] == pre[1..] + m + post;
      StripPadded(pre[1..], m, post);
    } else if post != [] {
      assert s == m + post;
      assert s[0] == m[0] && s[|s| - 1] == post[|post| - 1];
      assert s[..|s| - 1] == pre + m + post[..|post| - 1];
      StripPadded(pre, m, post[..|post| - 1]);
    } else {
      assert s == m;
    }
  }

  /** Stripping twice is stripping once. */
  lemma StripIdempotent(s: string)
    ensures Strip(Strip(s)) == Strip(s)
  {
    StripTrimmed(Strip(s));
  }

  /** `s.replace(a, b)` for single characters. */
  function ReplaceChar(s: string, a: char, b: char): (r: string)
    ensures |r| == |s|
    ensures a != b ==> a !in r
    ensures forall i :: 0 <= i < |s| && s[i] != a ==> r[i] == s[i]
    ensures forall i :: 0 <= i < |s| && s[i] == a ==> r[i] == b
  {
    if s == [] then [] else [if s[0] == a then b else s[0]] + ReplaceChar(s[1..], a, b)
  }

  /** `''.join(parts)`. */
  function Concat(parts: seq<string>): (r: string)
    ensures |parts| == 1 ==> r == parts[0]
  {
    if parts == [] then "" else parts[0] + Concat(parts[1..])
  }

  lemma {:induction false} ConcatAppend(a: seq<string>, b: seq<string>)
    ensures Concat(a + b) == Concat(a) + Concat(b)
  {
    if a == [] {
      assert a + b == b;
    } else {
      assert (a + b)[1..] == a[1..] + b;
      ConcatAppend(a[1..], b);
    }
  }

  /** Part `k` of a concatenation starts where the parts before it end. */
  lemma ConcatAt(parts: seq<string>, k: nat)
    requires k < |parts|
    ensures |Concat(parts[..k + 1])| == |Concat(parts[..k])| + |parts[k]|
    ensures OccursAt(Concat(parts), parts[k], |Concat(parts[..k])|)
  {
    var pre, part, post := parts[..k], parts[k], parts[k + 1..];
    assert parts == pre + [part] + post;
    assert parts[..k + 1] == pre + [part];
    ConcatAppend(pre + [part], post);
    ConcatAppend(pre, [part]);
    var doc := Concat(parts);
    assert doc == Concat(pre) + part + Concat(post);
    assert doc[|Concat(pre)|..|Concat(pre)| + |part|] == part;
  }

  /** `sep.join(parts)`. */
  function Join(parts: seq<string>, sep: string): string
  {
    if |parts| == 0 then ""
    else if |parts| == 1 then parts[0]
    else parts[0] + sep + Join(parts[1..], sep)
  }

  /** Index of the first `c` in `s`, or `|s|` when there is none. */
  function IndexOf(s: string, c: char): (k: nat)
    ensures k <= |s|
    ensures c !in s[..k]
    ensures k < |s| <==> c in s
    ensures k < |s| ==> s[k] == c
  {
    if |s| == 0 then 0
    else if s[0] == c then 0
    else 1 + IndexOf(s[1..], c)
  }

  /** `s.split(c)`: the maximal `c`-free pieces, in order; always at least one piece. */
  function Split(s: string, c: char): (r: seq<string>)
    ensures |r| >= 1
    ensures forall i :: 0 <= i < |r| ==> c !in r[i]
    ensures Join(r, [c]) == s
    decreases |s|
  {
    var k := IndexOf(s, c);
    if k == |s| then [s]
    else
      var rest := Split(s[k + 1..], c);
      assert s == s[..k] + [c] + s[k + 1..];
      [s[..k]] + rest
  }

  function StartsWith(s: string, prefix: string): bool {
    |prefix| <= |s| && s[..|prefix|] == prefix
  }

  function EndsWith(s: string, suffix: string): bool {
    |suffix| <= |s| && s[|s| - |suffix|..] == suffix
  }

  /** A suffix of `b` is a suffix of anything ending in `b`. */
  lemma EndsWithAppend(a: string, b: string, suffix: string)
    requires EndsWith(b, suffix)
    ensures EndsWith(a + b, suffix)
  {
    assert (a + b)[|a + b| - |suffix|..] == b[|b| - |suffix|..];
  }

  /** `sub` occurs in `s` starting at index `i`. */
  predicate OccursAt(s: string, sub: string, i: int) {
    0 <= i && i + |sub| <= |s| && s[i..i + |sub|] == sub
  }

  /** An occurrence of `a + b` is an occurrence of `a` followed by one of `b`. */
  lemma OccursSplit(s: string, a: string, b: string, i: int)
    requires OccursAt(s, a + b, i)
    ensures OccursAt(s, a, i) && OccursAt(s, b, i + |a|)
  {
    assert s[i..i + |a|] == (a + b)[..|a|];
    assert s[i + |a|..i + |a| + |b|] == (a + b)[|a|..];
  }

  /** `sub in s` for strings, scanning start positions left to right. */
  function Contains(s: string, sub: string): bool
    decreases |s|
  {
    if StartsWith(s, sub) then true
    else if |s| <= |sub| then false
    else Contains(s[1..], sub)
  }

  /** The scan finds `sub` exactly when it occurs at some position. */
  lemma {:induction false} ContainsOccurs(s: string, sub: string)
    ensures Contains(s, sub) <==> exists i :: OccursAt(s, sub, i)
    decreases |s|
  {
    if StartsWith(s, sub) {
      assert OccursAt(s, sub, 0);
    } else if |s| <= |sub| {
    } else {
      ContainsOccurs(s[1..], sub);
      if i :| OccursAt(s, sub, i) {
        assert i != 0;
        assert s[1..][i - 1..i - 1 + |sub|] == s[i..i + |sub|];
        assert OccursAt(s[1..], sub, i - 1);
      }
      if i :| OccursAt(s[1..], sub, i) {
        assert s[1..][i..i + |sub|] == s[i + 1..i + 1 + |sub|];
        assert OccursAt(s, sub, i + 1);
      }
    }
  }

  predicate IsUpper(c: char) { 'A' <= c <= 'Z' }
  predicate IsLower(c: char) { 'a' <= c <= 'z' }
  predicate IsLetter(c: char) { IsUpper(c) || IsLower(c) }

  function LowerChar(c: char): char {
    if IsUpper(c) then (c as int + 32) as char else c
  }

  function UpperChar(c: char): char {
    if IsLower(c) then (c as int - 32) as char else c
  }

  /** `s.lower()` on ASCII letters. */
  function Lower(s: string): (r: string)
    ensures |r| == |s|
    ensures forall i :: 0 <= i < |s| ==> !IsUpper(r[i])
    ensures forall i :: 0 <= i < |s| && !IsUpper(s[i]) ==> r[i] == s[i]
    ensures forall i :: 0 <= i < |s| && IsUpper(s[i]) ==> IsLower(r[i]) && UpperChar(r[i]) == s[i]
  {
    seq(|s|, i requires 0 <= i < |s| => LowerChar(s[i]))
  }

  /** Lower-casing twice is lower-casing once. */
  lemma LowerIdempotent(s: string)
    ensures Lower(Lower(s)) == Lower(s)
  {
  }

  /** True at the start of a word: a letter not preceded by a letter. */
  predicate WordStart(s: string, i: int)
    requires 0 <= i < |s|
  {
    IsLetter(s[i]) && (i == 0 || !IsLetter(s[i - 1]))
  }

  /**
    `s.title()` on ASCII: the first letter of every run of letters is upper case,
    the other letters lower case, everything else unchanged.
   */
  function Title(s: string): (r: string)
    ensures |r| == |s|
    ensures forall i :: 0 <= i < |s| ==> (IsLetter(r[i]) <==> IsLetter(s[i]))
    ensures forall i :: 0 <= i < |s| && !IsLetter(s[i]) ==> r[i] == s[i]
    ensures forall i :: 0 <= i < |s| && WordStart(s, i) ==> IsUpper(r[i])
    ensures forall i :: 0 <= i < |s| && IsLetter(s[i]) && !WordStart(s, i) ==> IsLower(r[i])
    ensures forall i :: 0 <= i < |s| ==> LowerChar(r[i]) == LowerChar(s[i])
  {
    seq(|s|, i requires 0 <= i < |s| => if WordStart(s, i) then UpperChar(s[i]) else LowerChar(s[i]))
  }

  /** Title-casing a title-cased string changes nothing. */
  lemma TitleIdempotent(s: string)
    ensures Title(Title(s)) == Title(s)
  {
    var t := Title(s);
    forall i | 0 <= i < |s|
      ensures Title(t)[i] == t[i]
    {
      assert WordStart(t, i) == WordStart(s, i);
    }
  }

  /** `c * n`. */
  function Repeat(c: char, n: nat): (r: string)
    ensures |r| == n
    ensures forall i :: 0 <= i < n ==> r[i] == c
  {
    seq(n, _ => c)
  }
}

=== FILE: tiers.dfy ===
/**
  The per-page recognition tiers shared by the HTR and OCR processors:
  an inline attempt for pages under 20 MB, then an upload with readiness polling and
  up to three attempts with exponential backoff, and on a RECITATION refusal the
  alternative prompts tried in order.
 */
module Tiers {
  import opened Wrappers
  import opened Service
  import opened Requests

  /** Pages of fewer bytes than this go inline: `len/(1024*1024) < 20` on integers. */
  const InlineLimit: nat := 20 * 1024 * 1024
  const MaxRetries: nat := 3
  const BaseDelay: nat := 2
  const MaxChecks: nat := 60

  /** The `k`-th reply still to come reads as text. */
  predicate Recognises(s: Script, k: nat) {
    Read(ReplyAt(s, k)).Recognised?
  }

  /**
    `_try_alternative_prompts`: sends each alternative once, in order, against the same
    content, and returns the first recognised text; an exception, a reply without parts
    or an empty text moves on to the next. None when all fail.
   */
  function TryAlternatives(alts: seq<Alternative>, target: Target, s: Script): (r: Step<Option<string>>)
    ensures |r.log| <= |alts|
    ensures r.value.Some? ==> |r.log| >= 1 && IsNormal(r.value.value)
    decreases |alts|
  {
    if alts == [] then Step(None, s, [])
    else
      var (reply, s1) := NextReply(s);
      var ev := Generate(target, alts[0].prompt);
      match Read(reply)
      case Recognised(t) => Step(Some(t), s1, [ev])
      case _ =>
        var more := TryAlternatives(alts[1..], target, s1);
        Step(more.value, more.rest, [ev] + more.log)
  }

  /** Dropping the head reply shifts every later reply down by one. */
  lemma RecognisesShift(s: Script)
    ensures forall k: nat :: Recognises(DropReplies(s, 1), k) == Recognises(s, k + 1)
  {
    forall k: nat
      ensures ReplyAt(DropReplies(s, 1), k) == ReplyAt(s, k + 1)
    {
      DropRepliesAdd(s, 1, k);
    }
  }

  /** One step of the alternatives: stop on text, otherwise go on with the next reply. */
  lemma TryAlternativesStep(alts: seq<Alternative>, target: Target, s: Script)
    requires alts != []
    ensures var r := TryAlternatives(alts, target, s);
      var more := TryAlternatives(alts[1..], target, DropReplies(s, 1));
      && (Recognises(s, 0) ==> r.value == Some(Read(ReplyAt(s, 0)).text) && |r.log| == 1)
      && (!Recognises(s, 0) ==> r.value == more.value && |r.log| == 1 + |more.log|)
      && (!Recognises(s, 0) ==> r.rest == more.rest && r.log == [Generate(target, alts[0].prompt)] + more.log)
  {
  }

  /** The alternatives give None exactly when none of the `|alts|` replies reads as text, after trying them all. */
  lemma {:induction false} TryAlternativesNone(alts: seq<Alternative>, target: Target, s: Script)
    ensures TryAlternatives(alts, target, s).value.None? <==> forall k :: 0 <= k < |alts| ==> !Recognises(s, k)
    ensures TryAlternatives(alts, target, s).value.None? ==> |TryAlternatives(alts, target, s).log| == |alts|
    decreases |alts|
  {
    if alts != [] {
      TryAlternativesStep(alts, target, s);
      if !Recognises(s, 0) {
        var s1 := DropReplies(s, 1);
        TryAlternativesNone(alts[1..], target, s1);
        RecognisesShift(s);
        if forall k :: 0 <= k < |alts| - 1 ==> !Recognises(s1, k) {
          forall k | 0 < k < |alts|
            ensures !Recognises(s, k)
          {
            assert !Recognises(s1, k - 1);
          }
        }
      }
    }
  }

  /**
    When the alternatives give text, it is the text of the last reply they consumed,
    and no earlier reply read as text.
   */
  lemma {:induction false} TryAlternativesSome(alts: seq<Alternative>, target: Target, s: Script)
    ensures var r := TryAlternatives(alts, target, s);
      r.value.Some? ==>
        && Recognises(s, |r.log| - 1)
        && Read(ReplyAt(s, |r.log| - 1)).text == r.value.value
        && forall k :: 0 <= k < |r.log| - 1 ==> !Recognises(s, k)
    decreases |alts|
  {
    if alts != [] {
      TryAlternativesStep(alts, target, s);
      if !Recognises(s, 0) {
        var s1 := DropReplies(s, 1);
        var more := TryAlternatives(alts[1..], target, s1);
        TryAlternativesSome(alts[1..], target, s1);
        RecognisesShift(s);
        if more.value.Some? {
          var j := |more.log| - 1;
          var r := TryAlternatives(alts, target, s);
          assert r.value == more.value && |r.log| - 1 == j + 1;
          DropRepliesAdd(s, 1, j);
          assert ReplyAt(s, j + 1) == ReplyAt(s1, j);
          forall k | 0 < k < j + 1
            ensures !Recognises(s, k)
          {
            assert !Recognises(s1, k - 1);
          }
        }
      }
    }
  }

  /** After a refusal at the head, the alternatives give text exactly when one of the next `|alts|` replies reads as text. */
  lemma AlternativesAfterRefusal(alts: seq<Alternative>, target: Target, s: Script)
    ensures TryAlternatives(alts, target, DropReplies(s, 1)).value.Some? <==>
      exists k :: 1 <= k <= |alts| && Recognises(s, k)
  {
    var s1 := DropReplies(s, 1);
    TryAlternativesNone(alts, target, s1);
    RecognisesShift(s);
    if k :| 1 <= k <= |alts| && Recognises(s, k) {
      assert Recognises(s1, k - 1);
    }
  }

  /** The alternatives send one prompt per reply consumed, in order, to the same target. */
  lemma {:induction false} TryAlternativesEvents(alts: seq<Alternative>, target: Target, s: Script)
    ensures var r := TryAlternatives(alts, target, s);
      forall k :: 0 <= k < |r.log| ==> r.log[k] == Generate(target, alts[k].prompt)
    decreases |alts|
  {
    if alts != [] && !Recognises(s, 0) {
      var s1 := DropReplies(s, 1);
      var more := TryAlternatives(alts[1..], target, s1);
      TryAlternativesEvents(alts[1..], target, s1);
      TryAlternativesStep(alts, target, s);
      var log := [Generate(target, alts[0].prompt)] + more.log;
      assert forall k :: 1 <= k < |log| ==> log[k] == more.log[k - 1] && alts[1..][k - 1] == alts[k];
    }
  }

  /** The alternatives leave the script past the replies they consumed, one per prompt. */
  lemma {:induction false} TryAlternativesRest(alts: seq<Alternative>, target: Target, s: Script)
    ensures var r := TryAlternatives(alts, target, s);
      r.rest == DropReplies(s, |r.log|)
    decreases |alts|
  {
    if alts != [] && !Recognises(s, 0) {
      var s1 := DropReplies(s, 1);
      var more := TryAlternatives(alts[1..], target, s1);
      TryAlternativesRest(alts[1..], target, s1);
      TryAlternativesStep(alts, target, s);
      DropRepliesAdd(s, 1, |more.log|);
    }
  }

  /**
    The alternatives send one prompt per reply consumed, in order, to the same target,
    and neither upload, poll nor sleep.
   */
  lemma TryAlternativesLog(alts: seq<Alternative>, target: Target, s: Script)
    ensures var r := TryAlternatives(alts, target, s);
      && (forall k :: 0 <= k < |r.log| ==> r.log[k] == Generate(target, alts[k].prompt))
      && r.rest == DropReplies(s, |r.log|)
      && Uploads(r.log) == 0 && Checks(r.log) == 0 && PollSleeps(r.log) == 0 && Backoffs(r.log) == []
  {
    TryAlternativesEvents(alts, target, s);
    TryAlternativesRest(alts, target, s);
    GeneratesOnlyCounts(TryAlternatives(alts, target, s).log);
  }

  /**
    `process_pdf_page_inline`: one call with the page bytes inline. A recognised reply
    is the result; a RECITATION refusal hands over to the alternatives, whose result
    (None included) is returned as is; anything else is None.
   */
  function Inline(pr: Prompting, s: Script): (r: Step<Option<string>>)
    ensures |r.log| >= 1 && r.log[0] == Generate(InlinePart, pr.primary)
    ensures r.value.Some? ==> IsNormal(r.value.value)
  {
    var (reply, s1) := NextReply(s);
    var ev := Generate(InlinePart, pr.primary);
    match Read(reply)
    case Recognised(t) => Step(Some(t), s1, [ev])
    case Unusable => Step(None, s1, [ev])
    case Recited =>
      var alt := TryAlternatives(pr.alternatives, InlinePart, s1);
      Step(alt.value, alt.rest, [ev] + alt.log)
  }

  /** The `k`-th reply still to come is a RECITATION refusal. */
  predicate RecitesAt(s: Script, k: nat) {
    Read(ReplyAt(s, k)).Recited?
  }

  /**
    The inline tier gives text exactly when the first reply reads as text, or when it is a
    RECITATION refusal and one of the next three replies reads as text; the text is that
    of the first reply that reads as text.
   */
  lemma InlineOutcome(pr: Prompting, s: Script)
    ensures Inline(pr, s).value.Some? <==>
      Recognises(s, 0) || (RecitesAt(s, 0) && exists k :: 1 <= k <= |pr.alternatives| && Recognises(s, k))
    ensures Recognises(s, 0) ==> Inline(pr, s).value == Some(Read(ReplyAt(s, 0)).text)
  {
    if RecitesAt(s, 0) {
      var alt := TryAlternatives(pr.alternatives, InlinePart, DropReplies(s, 1));
      assert Inline(pr, s).value == alt.value;
      AlternativesAfterRefusal(pr.alternatives, InlinePart, s);
    }
  }

  /** The inline tier only generates, always against the inline page, and never uploads or sleeps. */
  lemma InlineLog(pr: Prompting, s: Script)
    ensures var r := Inline(pr, s);
      && (forall k :: 0 <= k < |r.log| ==> r.log[k].Generate? && r.log[k].target == InlinePart)
      && Uploads(r.log) == 0 && Checks(r.log) == 0 && PollSleeps(r.log) == 0 && Backoffs(r.log) == []
  {
    var s1 := DropReplies(s, 1);
    var ev := Generate(InlinePart, pr.primary);
    if RecitesAt(s, 0) {
      var alt := TryAlternatives(pr.alternatives, InlinePart, s1);
      TryAlternativesLog(pr.alternatives, InlinePart, s1);
      LogAppend([ev], alt.log);
    }
  }

  /** The outcome of waiting for an uploaded file. */
  datatype Readiness = Ready | ProcessingFailed | Unexpected(state: string) | TimedOut

  /** The number of PROCESSING states at the head of the queue. */
  function LeadingProcessing(states: seq<FileState>): (n: nat)
    ensures n <= |states|
    ensures forall k :: 0 <= k < n ==> states[k] == Processing
    ensures n < |states| ==> states[n] != Processing
  {
    if states != [] && states[0] == Processing then 1 + LeadingProcessing(states[1..]) else 0
  }

  /** What a state other than PROCESSING means to the polling loop. */
  function Verdict(st: FileState): Readiness {
    match st
    case Active => Ready
    case FailedState => ProcessingFailed
    case OtherState(name) => Unexpected(name)
    case Processing => TimedOut  // never consulted: the loop sleeps and polls again
  }

  /**
    The readiness loop with `left` checks still allowed: each PROCESSING state is followed
    by a one-second sleep; ACTIVE proceeds, FAILED or any other state fails, and running
    out of checks times out.
   */
  function Poll(s: Script, left: nat): (r: Step<Readiness>)
    ensures r.rest.replies == s.replies && r.rest.uploads == s.uploads
    decreases left
  {
    if left == 0 then Step(TimedOut, s, [])
    else
      var (st, s1) := NextState(s);
      match st
      case Processing =>
        var more := Poll(s1, left - 1);
        Step(more.value, more.rest, [StatusCheck, PollSleep] + more.log)
      case _ => Step(Verdict(st), s1, [StatusCheck])
  }

  /** A PROCESSING state costs one check and one sleep, then polling goes on with one check fewer. */
  lemma PollProcessing(s: Script, left: nat)
    requires left > 0 && s.states != [] && s.states[0] == Processing
    ensures var more := Poll(s.(states := s.states[1..]), left - 1);
      Poll(s, left) == Step(more.value, more.rest, [StatusCheck, PollSleep] + more.log)
  {
  }

  /** What one round of polling on a PROCESSING state logs. */
  lemma ProcessingRound()
    ensures var round := [StatusCheck, PollSleep];
      && Uploads(round) == 0 && Backoffs(round) == [] && Prompts(round) == []
      && Checks(round) == 1 && PollSleeps(round) == 1
  {
    var round := [StatusCheck, PollSleep];
    assert round[1..] == [PollSleep];
    assert round[1..][1..] == [];
  }

  /** Polling only checks the file state and sleeps. */
  lemma {:induction false} PollPolls(s: Script, left: nat)
    ensures PollingOnly(Poll(s, left).log)
    decreases left
  {
    if left > 0 && s.states != [] && s.states[0] == Processing {
      var s1 := s.(states := s.states[1..]);
      var more := Poll(s1, left - 1);
      var log := [StatusCheck, PollSleep] + more.log;
      PollProcessing(s, left);
      PollPolls(s1, left - 1);
      assert forall k :: 2 <= k < |log| ==> log[k] == more.log[k - 2];
    }
  }

  /** Polling only checks and sleeps: no upload, no backoff, no prompt. */
  lemma PollLog(s: Script, left: nat)
    ensures Uploads(Poll(s, left).log) == 0
    ensures Backoffs(Poll(s, left).log) == []
    ensures Prompts(Poll(s, left).log) == []
  {
    PollPolls(s, left);
    PollingOnlyCounts(Poll(s, left).log);
  }

  /** The log of `n` PROCESSING rounds: a check and a sleep each. */
  function Rounds(n: nat): (log: seq<Event>)
    ensures |log| == 2 * n
  {
    if n == 0 then [] else [StatusCheck, PollSleep] + Rounds(n - 1)
  }

  /** `n` rounds are `n` checks and `n` sleeps. */
  lemma {:induction false} RoundsCount(n: nat)
    ensures Checks(Rounds(n)) == n && PollSleeps(Rounds(n)) == n
  {
    if n > 0 {
      RoundsCount(n - 1);
      ProcessingRound();
      ChecksAppend([StatusCheck, PollSleep], Rounds(n - 1));
      PollSleepsAppend([StatusCheck, PollSleep], Rounds(n - 1));
    }
  }

  /**
    Polling with `left` checks goes one round per leading PROCESSING state; it times out
    after `left` rounds, or else makes one last check and reports the state it found.
   */
  lemma {:induction false} PollShape(s: Script, left: nat)
    ensures LeadingProcessing(s.states) >= left ==>
      Poll(s, left).value == TimedOut && Poll(s, left).log == Rounds(left)
    ensures LeadingProcessing(s.states) < left ==>
      && Poll(s, left).value == Verdict(StateAt(s, LeadingProcessing(s.states)))
      && Poll(s, left).log == Rounds(LeadingProcessing(s.states)) + [StatusCheck]
    decreases left
  {
    if left > 0 && s.states != [] && s.states[0] == Processing {
      var s1 := s.(states := s.states[1..]);
      var more := Poll(s1, left - 1);
      PollShape(s1, left - 1);
      PollProcessing(s, left);
      var n1 := LeadingProcessing(s1.states);
      assert LeadingProcessing(s.states) == n1 + 1;
      assert StateAt(s, n1 + 1) == StateAt(s1, n1);
      assert Rounds(n1 + 1) == [StatusCheck, PollSleep] + Rounds(n1);
      if n1 < left - 1 {
        assert [StatusCheck, PollSleep] + (Rounds(n1) + [StatusCheck]) == Rounds(n1 + 1) + [StatusCheck];
      }
    }
  }

  /**
    Polling with `left` checks times out exactly when the first `left` states are all
    PROCESSING, after `left` checks and as many sleeps; otherwise it stops at the first
    other state, after one more check than there were PROCESSING states, and reports
    what that state means.
   */
  lemma PollOutcome(s: Script, left: nat)
    ensures LeadingProcessing(s.states) >= left ==>
      Poll(s, left).value == TimedOut && Checks(Poll(s, left).log) == left && PollSleeps(Poll(s, left).log) == left
    ensures LeadingProcessing(s.states) < left ==>
      && Checks(Poll(s, left).log) == LeadingProcessing(s.states) + 1
      && PollSleeps(Poll(s, left).log) == LeadingProcessing(s.states)
      && Poll(s, left).value == Verdict(StateAt(s, LeadingProcessing(s.states)))
  {
    var n := LeadingProcessing(s.states);
    PollShape(s, left);
    if n >= left {
      RoundsCount(left);
    } else {
      RoundsCount(n);
      ChecksAppend(Rounds(n), [StatusCheck]);
      PollSleepsAppend(Rounds(n), [StatusCheck]);
    }
  }

  /** The readiness loop reports Ready exactly when ACTIVE comes before the 61st state and after only PROCESSING ones. */
  lemma PollReady(s: Script)
    ensures Poll(s, MaxChecks).value == Ready <==>
      LeadingProcessing(s.states) < MaxChecks && StateAt(s, LeadingProcessing(s.states)) == Active
  {
    PollOutcome(s, MaxChecks);
  }

  /**
    One attempt of the upload loop; None when the attempt raised. It fails when the upload
    returns no named file, when polling does not reach ACTIVE, when the reply is unusable,
    or when a RECITATION refusal is followed by three failed alternatives.
   */
  function UploadAttempt(pr: Prompting, s: Script): (r: Step<Option<string>>)
    ensures |r.log| >= 1 && r.log[0] == Upload
    ensures r.value.Some? ==> IsNormal(r.value.value)
  {
    var (ok, s1) := NextUpload(s);
    if !ok then Step(None, s1, [Upload])
    else
      var p := Poll(s1, MaxChecks);
      if p.value != Ready then Step(None, p.rest, [Upload] + p.log)
      else
        var (reply, s2) := NextReply(p.rest);
        var ev := Generate(UploadedFile, pr.primary);
        match Read(reply)
        case Recognised(t) => Step(Some(t), s2, [Upload] + p.log + [ev])
        case Unusable => Step(None, s2, [Upload] + p.log + [ev])
        case Recited =>
          var alt := TryAlternatives(pr.alternatives, UploadedFile, s2);
          Step(alt.value, alt.rest, [Upload] + p.log + [ev] + alt.log)
  }

  /** An attempt uploads once, never backs off, and checks the file state at most sixty times. */
  lemma UploadAttemptLog(pr: Prompting, s: Script)
    ensures var r := UploadAttempt(pr, s);
      Uploads(r.log) == 1 && Backoffs(r.log) == [] && Checks(r.log) <= MaxChecks
  {
    var (ok, s1) := NextUpload(s);
    if ok {
      var p := Poll(s1, MaxChecks);
      PollChecks(s1, MaxChecks);
      var head := [Upload] + p.log;
      AttemptHead(p.log);
      if p.value == Ready {
        var (reply, s2) := NextReply(p.rest);
        var ev := Generate(UploadedFile, pr.primary);
        var tail := if Read(reply).Recited? then [ev] + TryAlternatives(pr.alternatives, UploadedFile, s2).log else [ev];
        assert UploadAttempt(pr, s).log == head + tail;
        if Read(reply).Recited? {
          TryAlternativesLog(pr.alternatives, UploadedFile, s2);
        }
        GeneratesTail(ev, if Read(reply).Recited? then TryAlternatives(pr.alternatives, UploadedFile, s2).log else []);
        UploadsAppend(head, tail);
        BackoffsAppend(head, tail);
        ChecksAppend(head, tail);
      }
    }
  }

  /** Polling checks the file state at most as often as it is allowed to. */
  lemma PollChecks(s: Script, left: nat)
    ensures Checks(Poll(s, left).log) <= left
    ensures PollingOnly(Poll(s, left).log)
  {
    PollOutcome(s, left);
    PollPolls(s, left);
  }

  /** An upload followed by polling: one upload, no backoff, the polling's checks. */
  lemma AttemptHead(polling: seq<Event>)
    requires PollingOnly(polling)
    ensures var head := [Upload] + polling;
      Uploads(head) == 1 && Backoffs(head) == [] && Checks(head) == Checks(polling)
  {
    PollingOnlyCounts(polling);
    UploadsAppend([Upload], polling);
    BackoffsAppend([Upload], polling);
    ChecksAppend([Upload], polling);
  }

  /** A prompt followed by prompts only: no upload, no check, no backoff. */
  lemma GeneratesTail(ev: Event, more: seq<Event>)
    requires ev.Generate? && GeneratesOnly(more)
    ensures var tail := [ev] + more;
      Uploads(tail) == 0 && Backoffs(tail) == [] && Checks(tail) == 0
  {
    var tail := [ev] + more;
    assert forall k :: 1 <= k < |tail| ==> tail[k] == more[k - 1];
    GeneratesOnlyCounts(tail);
  }

  /**
    An attempt gives text exactly when the upload returns a named file, the file turns
    ACTIVE within sixty checks, and the reply to the primary prompt reads as text or is a
    RECITATION refusal followed, within three replies, by one that reads as text.
   */
  lemma UploadAttemptOutcome(pr: Prompting, s: Script)
    ensures var (ok, s1) := NextUpload(s);
      var p := Poll(s1, MaxChecks);
      UploadAttempt(pr, s).value.Some? <==>
        && ok
        && p.value == Ready
        && (Recognises(p.rest, 0) || (RecitesAt(p.rest, 0) && exists k :: 1 <= k <= |pr.alternatives| && Recognises(p.rest, k)))
  {
    var (ok, s1) := NextUpload(s);
    if ok {
      var p := Poll(s1, MaxChecks);
      if p.value == Ready && RecitesAt(p.rest, 0) {
        var alt := TryAlternatives(pr.alternatives, UploadedFile, DropReplies(p.rest, 1));
        assert UploadAttempt(pr, s).value == alt.value;
        AlternativesAfterRefusal(pr.alternatives, UploadedFile, p.rest);
      }
    }
  }

  function Pow2(n: nat): (p: nat)
    ensures p >= 1
  {
    if n == 0 then 1 else 2 * Pow2(n - 1)
  }

  /** The sleep after failed attempt `attempt` (counted from 0): `base_delay * 2 ** attempt`. */
  function Delay(attempt: nat): nat {
    BaseDelay * Pow2(attempt)
  }

  /** The backoff delays after attempts `from`, `from + 1`, ... (`n` of them). */
  function Schedule(from: nat, n: nat): (d: seq<nat>)
    ensures |d| == n
    ensures forall i :: 0 <= i < n ==> d[i] == Delay(from + i)
    decreases n
  {
    if n == 0 then [] else [Delay(from)] + Schedule(from + 1, n - 1)
  }

  /** A single attempt's log: one upload, no backoff, at most sixty status checks. */
  predicate AttemptShaped(log: seq<Event>) {
    Uploads(log) == 1 && Backoffs(log) == [] && Checks(log) <= MaxChecks
  }

  /**
    The retry loop of `process_pdf_page_upload` from attempt `k` on, for any one attempt
    `attempt`: the first attempt that gives text ends the loop; each failed attempt but
    the last is followed by a sleep of `Delay(k)` seconds; the last failure gives None.
   */
  function Retry(attempt: Script -> Step<Option<string>>, s: Script, k: nat): (r: Step<Option<string>>)
    requires k < MaxRetries
    ensures attempt(s).log <= r.log
    ensures attempt(s).value.Some? ==> r == attempt(s)
    ensures r.value.None? ==> attempt(s).value.None?
    decreases MaxRetries - k
  {
    var a := attempt(s);
    if a.value.Some? || k == MaxRetries - 1 then a
    else
      var more := Retry(attempt, a.rest, k + 1);
      Step(more.value, more.rest, a.log + [Backoff(Delay(k))] + more.log)
  }

  /**
    The attempts the loop can make, numbered from 0: attempt `j + 1` runs on what
    attempt `j` left of the script.
   */
  function AttemptAt(attempt: Script -> Step<Option<string>>, s: Script, j: nat): Step<Option<string>>
    decreases j
  {
    var a := attempt(s);
    if j == 0 then a else AttemptAt(attempt, a.rest, j - 1)
  }

  /** Text the loop returns is the text of one of the attempts it could make. */
  lemma {:induction false} RetryValue(attempt: Script -> Step<Option<string>>, s: Script, k: nat)
    requires k < MaxRetries
    ensures var r := Retry(attempt, s, k);
      r.value.Some? ==> exists j :: 0 <= j < MaxRetries - k && r.value == AttemptAt(attempt, s, j).value
    decreases MaxRetries - k
  {
    var a := attempt(s);
    if a.value.Some? || k == MaxRetries - 1 {
      assert Retry(attempt, s, k).value == AttemptAt(attempt, s, 0).value;
    } else {
      RetryValue(attempt, a.rest, k + 1);
      var r := Retry(attempt, a.rest, k + 1);
      if r.value.Some? {
        var j :| 0 <= j < MaxRetries - (k + 1) && r.value == AttemptAt(attempt, a.rest, j).value;
        assert AttemptAt(attempt, s, j + 1) == AttemptAt(attempt, a.rest, j);
      }
    }
  }

  /** The first `n` attempts all give None. */
  predicate AllFail(attempt: Script -> Step<Option<string>>, s: Script, n: nat) {
    forall j :: 0 <= j < n ==> AttemptAt(attempt, s, j).value.None?
  }

  /** The first `n` attempts fail when the first does and the `n - 1` after it do. */
  lemma AllFailShift(attempt: Script -> Step<Option<string>>, s: Script, n: nat)
    requires n >= 1
    ensures AllFail(attempt, s, n) <==> attempt(s).value.None? && AllFail(attempt, attempt(s).rest, n - 1)
  {
    var a := attempt(s);
    assert AttemptAt(attempt, s, 0) == a;
    forall j | 0 <= j < n - 1
      ensures AttemptAt(attempt, a.rest, j) == AttemptAt(attempt, s, j + 1)
    {
    }
    if a.value.None? && AllFail(attempt, a.rest, n - 1) {
      forall j | 0 <= j < n
        ensures AttemptAt(attempt, s, j).value.None?
      {
        if j > 0 {
          assert AttemptAt(attempt, s, j) == AttemptAt(attempt, a.rest, j - 1);
        }
      }
    }
  }

  /**
    The loop gives None exactly when every attempt it may still make gives None, each
    run on what the attempt before it left.
   */
  lemma {:induction false} RetryNone(attempt: Script -> Step<Option<string>>, s: Script, k: nat)
    requires k < MaxRetries
    ensures Retry(attempt, s, k).value.None? <==> AllFail(attempt, s, MaxRetries - k)
    decreases MaxRetries - k
  {
    var a := attempt(s);
    AllFailShift(attempt, s, MaxRetries - k);
    if a.value.None? && k < MaxRetries - 1 {
      RetryNone(attempt, a.rest, k + 1);
    } else if a.value.None? {
      assert AllFail(attempt, a.rest, 0);
    }
  }

  /**
    The first attempt that gives text decides: the loop returns its text, having made
    exactly that many attempts plus one.
   */
  lemma {:induction false} RetryFirstSuccess(attempt: Script -> Step<Option<string>>, s: Script, k: nat, j: nat)
    requires k < MaxRetries && j < MaxRetries - k
    requires AttemptAt(attempt, s, j).value.Some?
    requires forall i :: 0 <= i < j ==> AttemptAt(attempt, s, i).value.None?
    requires forall t :: AttemptShaped(attempt(t).log)
    ensures Retry(attempt, s, k).value == AttemptAt(attempt, s, j).value
    ensures Uploads(Retry(attempt, s, k).log) == j + 1
    decreases j
  {
    var a := attempt(s);
    assert AttemptShaped(a.log);
    if j > 0 {
      assert AttemptAt(attempt, s, 0).value.None?;
      assert forall i :: 0 <= i < j ==> AttemptAt(attempt, s, i + 1) == AttemptAt(attempt, a.rest, i);
      RetryFirstSuccess(attempt, a.rest, k + 1, j - 1);
      var more := Retry(attempt, a.rest, k + 1);
      var head := a.log + [Backoff(Delay(k))];
      UploadsAppend(a.log, [Backoff(Delay(k))]);
      UploadsAppend(head, more.log);
    }
  }

  /**
    From attempt `k` on, the loop makes between one and the remaining number of
    attempts, all of them when it gives None; it backs off by the schedule between
    consecutive attempts, never after the last, and checks the file state at most
    sixty times per attempt.
   */
  lemma {:induction false} RetryLog(attempt: Script -> Step<Option<string>>, s: Script, k: nat)
    requires k < MaxRetries
    requires forall t :: AttemptShaped(attempt(t).log)
    ensures var r := Retry(attempt, s, k);
      && 1 <= Uploads(r.log) <= MaxRetries - k
      && (r.value.None? ==> Uploads(r.log) == MaxRetries - k)
      && Backoffs(r.log) == Schedule(k, Uploads(r.log) - 1)
      && Checks(r.log) <= 60 * Uploads(r.log)
    decreases MaxRetries - k
  {
    var a := attempt(s);
    assert AttemptShaped(a.log);
    if !(a.value.Some? || k == MaxRetries - 1) {
      var delay := Delay(k);
      var more := Retry(attempt, a.rest, k + 1);
      RetryLog(attempt, a.rest, k + 1);
      var head := a.log + [Backoff(delay)];
      BackoffsAppend(a.log, [Backoff(delay)]);
      BackoffsAppend(head, more.log);
      UploadsAppend(a.log, [Backoff(delay)]);
      UploadsAppend(head, more.log);
      ChecksAppend(a.log, [Backoff(delay)]);
      ChecksAppend(head, more.log);
      var n := Uploads(more.log);
      assert Schedule(k, n) == [delay] + Schedule(k + 1, n - 1);
    }
  }

  /** One upload attempt against `pr`, as the loop sees it. */
  function Attempt(pr: Prompting): Script -> Step<Option<string>> {
    t => UploadAttempt(pr, t)
  }

  /**
    `process_pdf_page_upload`: at most three attempts, any failure retried, sleeping 2 s
    and then 4 s between attempts and never after the last; None after three failures.
   */
  function UploadPage(pr: Prompting, s: Script): (r: Step<Option<string>>)
    ensures r.value.Some? ==> IsNormal(r.value.value)
  {
    var r := Retry(Attempt(pr), s, 0);
    RetryValue(Attempt(pr), s, 0);
    if r.value.Some? then
      var j :| 0 <= j < MaxRetries && r.value == AttemptAt(Attempt(pr), s, j).value;
      AttemptAtNormal(pr, s, j);
      r
    else r
  }

  /** Every upload attempt the loop can make reads normalised text. */
  lemma {:induction false} AttemptAtNormal(pr: Prompting, s: Script, j: nat)
    ensures var a := AttemptAt(Attempt(pr), s, j);
      a.value.Some? ==> IsNormal(a.value.value)
    decreases j
  {
    if j > 0 {
      AttemptAtNormal(pr, UploadAttempt(pr, s).rest, j - 1);
    }
  }

  /** The upload tier gives None exactly when all three attempts fail. */
  lemma UploadPageNone(pr: Prompting, s: Script)
    ensures UploadPage(pr, s).value.None? <==> AllFail(Attempt(pr), s, MaxRetries)
  {
    RetryNone(Attempt(pr), s, 0);
  }

  /**
    Otherwise the upload tier gives the text of the first attempt that reads some,
    after that many attempts plus one.
   */
  lemma UploadPageFirstSuccess(pr: Prompting, s: Script, j: nat)
    requires j < MaxRetries && AttemptAt(Attempt(pr), s, j).value.Some?
    requires forall i :: 0 <= i < j ==> AttemptAt(Attempt(pr), s, i).value.None?
    ensures UploadPage(pr, s).value == AttemptAt(Attempt(pr), s, j).value
    ensures Uploads(UploadPage(pr, s).log) == j + 1
  {
    AttemptsShaped(pr);
    RetryFirstSuccess(Attempt(pr), s, 0, j);
  }

  /**
    The upload tier makes one to three attempts, three when it gives None; it sleeps 2 s
    after the first failed attempt and 4 s after the second, and checks the file state
    at most sixty times per attempt.
   */
  lemma UploadPageRetries(pr: Prompting, s: Script)
    ensures var r := UploadPage(pr, s);
      && 1 <= Uploads(r.log) <= 3
      && (r.value.None? ==> Uploads(r.log) == 3)
      && Backoffs(r.log) == [2, 4][..Uploads(r.log) - 1]
      && Checks(r.log) <= 60 * Uploads(r.log)
  {
    AttemptsShaped(pr);
    RetryLog(Attempt(pr), s, 0);
    var n := Uploads(UploadPage(pr, s).log);
    TwoBackoffs(n - 1);
  }

  /** Every upload attempt, whatever the script, has the shape of one attempt. */
  lemma AttemptsShaped(pr: Prompting)
    ensures forall t :: AttemptShaped(Attempt(pr)(t).log)
  {
    forall t
      ensures AttemptShaped(Attempt(pr)(t).log)
    {
      UploadAttemptLog(pr, t);
    }
  }

  /** The first two delays of the schedule are 2 s and 4 s. */
  lemma TwoBackoffs(n: nat)
    requires n <= 2
    ensures Schedule(0, n) == [2, 4][..n]
  {
    if n == 2 {
      assert Schedule(0, 2) == [2, 4];
    } else if n == 1 {
      assert Schedule(0, 1) == [2];
    }
  }

  /** When the first attempt gives text, the upload tier is that one attempt. */
  lemma UploadFirstAttempt(pr: Prompting, s: Script)
    requires UploadAttempt(pr, s).value.Some?
    ensures UploadPage(pr, s) == UploadAttempt(pr, s)
  {
    assert Attempt(pr)(s) == UploadAttempt(pr, s);
  }

  /**
    One page: inline only when the page is under 20 MB, and the upload exactly when
    inline was skipped or gave no text.
   */
  function RecognisePage(pr: Prompting, size: nat, s: Script): (r: Step<Option<string>>)
    ensures r.value.Some? ==> IsNormal(r.value.value)
  {
    if size < InlineLimit then
      var i := Inline(pr, s);
      if i.value.Some? then i
      else
        var u := UploadPage(pr, i.rest);
        Step(u.value, u.rest, i.log + u.log)
    else
      UploadPage(pr, s)
  }

  /**
    The tiers run in order: the page goes inline first exactly when it is under 20 MB;
    it is uploaded exactly when it is too large or the inline tier gave no text; inline
    text is kept as is; and the backoffs are a prefix of 2 s, 4 s.
   */
  lemma RecognisePageTiers(pr: Prompting, size: nat, s: Script)
    ensures var r := RecognisePage(pr, size, s);
      && |r.log| >= 1
      && (r.log[0] == Generate(InlinePart, pr.primary) <==> size < InlineLimit)
      && (Uploads(r.log) > 0 <==> size >= InlineLimit || Inline(pr, s).value.None?)
      && (size < InlineLimit && Inline(pr, s).value.Some? ==> r.value == Inline(pr, s).value)
      && (size < InlineLimit && Inline(pr, s).value.None? ==> r.value == UploadPage(pr, Inline(pr, s).rest).value)
      && (size >= InlineLimit ==> r.value == UploadPage(pr, s).value)
      && |Backoffs(r.log)| <= 2 && Backoffs(r.log) == [2, 4][..|Backoffs(r.log)|]
  {
    InlineLog(pr, s);
    if size < InlineLimit {
      var i := Inline(pr, s);
      if i.value.None? {
        var u := UploadPage(pr, i.rest);
        UploadPageRetries(pr, i.rest);
        LogAppend(i.log, u.log);
      }
    } else {
      UploadPageRetries(pr, s);
    }
  }
}

=== FILE: wrappers.dfy ===
/** The optional-value type the pipelines use where Python returns `None`. */
module Wrappers {

  datatype Option<+T> = None | Some(value: T) {

    /** Returns the value held in Some, or `default` for None. */
    function GetOr(default: T): T {
      match this
      case Some(v) => v
      case None => default
    }
  }
}
